=== FILE: README.md ===
# ladybug-blender build pipeline and runtime helpers, modelled in Dafny

ladybug-blender turns the Grasshopper plugin `ladybug-grasshopper` into a Sverchok node
package for Blender. A set of build scripts does the work:

- `Runner` (dist_runner.py) lays out `dist/ladybug_tools/` (the build) and `dist/working/`
  (the scratch area). Its `run()` performs, in order:
  - copy the template tree;
  - write the package index;
  - download and load the node descriptors;
  - copy and rename the icons;
  - generate one Python node module per descriptor;
  - remove the scratch area.
- `PackageManager` (package_manager.py) unpacks the downloaded archive. It then loads every
  `*.json` node descriptor into an insertion-ordered dict keyed by file stem. Three
  Grasshopper-only nodes are skipped.
- `NodesGenerator` (generate_nodes.py) rewrites each descriptor into a template context.
  That includes mustache code tags, quoted name lists, boolean defaults, escaped
  descriptions and the un-nested outputs. The context is written as `nodes/ladybug/<key>.py`.
- `InitGenerator` (generate_init.py) builds the package index. The index holds one entry per
  node, plus the nodes grouped by the second ` :: ` field of their subcategory.
- `IconsGenerator` (generate_icons.py) copies the icon directory into the build. It then
  renames each `<key with spaces>.png` to `lb_<nickname>.png` in the downloaded directory.

Three runtime modules of the Blender add-on are modelled as well:

- sverchok.py: the Grasshopper compatibility helpers. These are the longest-list lookup,
  the objectifier, and the helpers that return their input or `"TODO"`.
- intersect.py: how the intersection routines split their work into groups and fill the
  result matrix. It also covers the pair order of the solid intersection.
- LB_Out.py: the output node. Its `process()` flattens nested geometry and hands each leaf
  to a Sverchok handler and a Blender handler. The Sverchok handlers fill the `v`/`e`/`f`
  lists and the Blender handlers link scene objects.

## How it is modelled

The model has one Dafny module per source file, plus shared modules:

- `Wrappers`: `Option`, `Result` and the Python exceptions the scripts can raise.
- `Text`: `str.find`, `replace`, `split`, `join`, `upper`/`lower` and decimal formatting.
- `OrderedDict`: a Python dict as an association list in insertion order.
- `Paths`: `os.path.join` and `basename` with `/` as the separator.
- `Schema`: the descriptor records and the denylist.
- `Mustache`: pystache's `{{name}}` substitution.

File system effects are modelled as pure state:

- A directory is a value: a set of file names, or an ordered list of `(name, payload)`.
- Every step returns a `Result`. An operation that would raise returns `Err` with the
  exception it raises.
- The outside world is passed in as parameters:
  - the downloaded archive;
  - the template tree;
  - the ray-cast and normal-check outcomes;
  - the facet points of arcs.

Two behaviours of the code are modelled as written, although they look unintended:

- `run()` renders the index before `load()`, so the index of a fresh run lists no nodes
  (`DistRunner.FreshRunEmptyIndex`).
- The icons are copied into the build before they are renamed, so the build keeps the
  Grasshopper names (`GenerateIcons.BuildKeepsSourceNames`).

Two further behaviours of the code:

- The group of a node is element 1 of `subcategory.split(' :: ')`. For a subcategory such
  as `"Ladybug :: 1 :: Analyze Weather Data"` that element is `"1"`, not the last field.
- An empty `outputs[0]` is accepted and gives an empty output name list.

## Model

| member | source | states |
|---|---|---|
| Schema.SanitizeNickname | package_manager.py:72 | every `+` of the nickname becomes `Plus` (the nickname split at `+` and joined with `Plus`), so the result holds no `+`, and a nickname without `+` is kept as it is |
| Schema.SanitizeIdempotent | generate_nodes.py:60 | sanitising again (as node generation does) changes nothing |
| Schema.Sanitized | package_manager.py:71-72 | the stored descriptor is the loaded one with only its nickname rewritten, each `+` becoming `Plus` |
| Paths.PathJoin | generate_nodes.py:68 | `os.path.join` ends with its second part; an absolute second part wins; a directory ending in `/` is joined without another separator |
| Paths.Basename | package_manager.py:70 | the base name is a `/`-free suffix of the path, and is the whole path when the path holds no `/` |
| Paths.BasenameOfJoin | package_manager.py:70 | the base name of a file joined to any directory is the file name |
| Text.ReplaceAll | package_manager.py:70 | `str.replace` with a non-empty pattern splits the text at the pattern and joins the pieces with the replacement; a text without the pattern is unchanged, and a one-character pattern missing from the replacement disappears |
| Text.ReplaceCharIdempotent | generate_nodes.py:60 | replacing a character by a string that lacks it is idempotent |
| Text.ReplaceCharByChar | generate_init.py:31 | replacing one character by another maps the string position by position |
| Text.FindFirst | generate_init.py:25 | a reported match position really starts an occurrence of the pattern |
| Text.FindFirstIsFirst | generate_init.py:25 | the reported position is the earliest occurrence, and no position is reported only when there is no occurrence |
| Text.Split | generate_init.py:25 | `str.split` with a non-empty separator always yields at least one piece |
| Text.JoinSplit | generate_init.py:25 | joining the pieces of a split with the separator gives back the string |
| Text.SplitJoin | generate_nodes.py:48-59 | splitting a join gives back the items when no item holds the separator's first character |
| Text.Upper | generate_nodes.py:61 | upper-casing keeps the length and every non-letter, leaves no lower-case ASCII letter, and agrees with the input once both are lower-cased |
| Text.Lower | generate_icons.py:19 | lower-casing keeps the length and every non-letter, leaves no upper-case ASCII letter, and agrees with the input once both are upper-cased |
| Text.UpperKeepsLetters | generate_nodes.py:61 | upper-casing loses only case: lower-casing the result equals lower-casing the input |
| Text.NatToString | ladybug_tools/sverchok.py:120-121 | the decimal rendering of a count is non-empty, has only digits, and has no leading zero unless it is a single digit |
| Text.DecimalRoundTrip | ladybug_tools/sverchok.py:120-121 | parsing the rendered count gives the count back |
| Mustache.TokenizeRoundTrip | generate_nodes.py:46 | splitting a template into literals and `{{name}}` tags loses nothing: reassembling the pieces gives the template |
| Mustache.RenderOneTag | generate_nodes.py:46 | a template with one tag renders to the surrounding text with the tag's value in between |
| Mustache.RenderTagsAsThemselves | generate_nodes.py:46 | rendering changes nothing but tags: mapping each tag to itself gives the template back |
| Mustache.NoTagsRenderVerbatim | generate_nodes.py:46 | a template without `{{` renders to itself whatever the values |
| OrderedDict.Put | package_manager.py:71 | after storing, the key reads back the value and every other key reads as before; an existing key keeps its place and a new key is appended |
| OrderedDict.PutKeepsDistinct | package_manager.py:71 | storing keeps the keys of a dict distinct |
| OrderedDict.AppendTo | generate_init.py:26 | `setdefault(k, []).append(x)` appends to the key's list (created at the end when new) and keeps the keys distinct |
| OrderedDict.Dedup | generate_init.py:29 | the deduplicated keys are distinct, hold exactly the items of the input, and come in the order of each item's first occurrence |
| PackageManager.InnerDir | package_manager.py:35-36 | the package directory is the target with every `-` replaced by `_`, position by position |
| PackageManager.TargetUrl | package_manager.py:39 | the download URL is the `ladybug-tools` GitHub prefix, the target unchanged, then `/archive/master.zip` |
| PackageManager.TargetUrlInjective | package_manager.py:39 | different targets are fetched from different URLs |
| PackageManager.GlobName | package_manager.py:45-50 | a globbed file lies directly in the glob directory, carries the extension and is not hidden |
| PackageManager.CopyJson | package_manager.py:45-46 | a name is copied exactly when some archive entry lies directly in the archive's `json` directory as a non-hidden `*.json` file of that name; each name is stored once |
| PackageManager.CopyJsonLastWins | package_manager.py:45-46 | a copied file holds the payload of the last archive entry of that name, as each later copy overwrites |
| PackageManager.CopyIcons | package_manager.py:49-50 | the copied icons are exactly the `*.png` files directly in the archive's icon directory |
| PackageManager.Download | package_manager.py:27-53 | the step fails with `FileExistsError` when `json` or `icon` exists and fails when the archive lacks its root; otherwise the two directories hold the globbed files |
| PackageManager.CopiedJsonFromArchive | package_manager.py:45-46 | every copied descriptor comes from a file of the archive's json directory |
| PackageManager.Clean | package_manager.py:75-79 | after cleaning neither `json` nor `icon` exists, whatever existed before, and the rest is untouched |
| PackageManager.CleanIdempotent | package_manager.py:75-79 | cleaning twice is the same as cleaning once |
| PackageManager.KeyOfListed | package_manager.py:70 | a listed `<stem>.json` is stored under `<stem>` |
| PackageManager.LoadFiles | package_manager.py:55-72 | loading succeeds exactly when every selected file parses, fails otherwise with a JSON decode error, and stores each key once |
| PackageManager.LoadFilesContents | package_manager.py:57-72 | the loaded keys are the selected stems in first-listing order, and each key holds the sanitised descriptor of the last file listed under it |
| PackageManager.Load | package_manager.py:55-60 | without a `json` directory nothing is loaded; otherwise the directory's files are loaded |
| PackageManager.LoadedNicknamesSanitised | package_manager.py:72 | no loaded descriptor has a `+` in its nickname |
| PackageManager.LastLoadedSanitised | package_manager.py:68-72 | the descriptor kept for a key is the sanitised descriptor of one listed file |
| PackageManager.ExcludedDirectoryLoadsNothing | package_manager.py:62-65 | the denylist test reads the full path, so a `json` directory whose path holds a marker loads nothing |
| GenerateNodes.Reindent | generate_nodes.py:46 | code without line breaks is not re-indented |
| GenerateNodes.DedentReindent | generate_nodes.py:46 | re-indenting loses nothing: removing the eight added spaces after each break gives the code back |
| GenerateNodes.RenderCode | generate_nodes.py:46 | code without tags is only re-indented |
| GenerateNodes.RenderCodeSubstitutesTag | generate_nodes.py:35-46 | in code of any number of lines, the first `{{name}}` tag is replaced by its table value, the code before it is re-indented and the code after it is rendered on its own |
| GenerateNodes.RenderCodeOneLineTag | generate_nodes.py:35-46 | in one-line code with one tag and no other `{`, the tag is replaced by its table value and the text around it is kept |
| Mustache.RenderFirstTag | generate_nodes.py:46 | the first tag of a template is replaced by its value, the text before it is kept, and the rest is rendered on its own |
| GenerateNodes.CodeValues | generate_nodes.py:35-42 | the six code tags map to `tools`, `Blender Ladybug`, `sverchok` and three empty strings |
| GenerateNodes.QuotedListSplits | generate_nodes.py:48 | the quoted name list splits at `", "` back into the quoted names, in order |
| GenerateNodes.FixBooleans | generate_nodes.py:54-55 | each default keeps its place; `'true'`/`'false'` become `True`/`False` and no quoted boolean is left |
| GenerateNodes.Escape | generate_nodes.py:62-66 | an escaped description has no line break, and a description without breaks or quotes is unchanged |
| GenerateNodes.EscapeRoundTrip | generate_nodes.py:62-66 | un-escaping the quotes gives the description with its breaks turned into spaces |
| GenerateNodes.QuoteRoundTrip | generate_nodes.py:62 | backslash-escaping single quotes is undone by replacing `\'` with `'` |
| GenerateNodes.UnwrapOutputs | generate_nodes.py:47 | `outputs[0]` succeeds exactly on a non-empty nested list; an unwrapped non-empty list raises `TypeError`; an empty one raises `IndexError` |
| GenerateNodes.EscapeInputs | generate_nodes.py:63-64 | each input keeps its place and every field but its description, which is escaped; the names are unchanged |
| GenerateNodes.EscapeOutputs | generate_nodes.py:65-66 | each output keeps its place and every field but its description, which is escaped; the names are unchanged |
| GenerateNodes.ContextOf | generate_nodes.py:46-66 | the context holds the rendered code, the escaped description, the `+`-free nickname and its upper-case form, the subcategory, each input and output with only its description escaped, and each name list joined at `", "` from its items (quoted where the source quotes them, defaults boolean-fixed) |
| GenerateNodes.ContextListsSplit | generate_nodes.py:48-59 | without inputs every input list is empty, and without outputs the output list is empty; otherwise each list whose items hold no comma splits at `", "` back into its quoted (or bare, or boolean-fixed) items, in order |
| GenerateNodes.GenerateNode | generate_nodes.py:34-66 | generation succeeds exactly when the outputs are a non-empty nested list, and fails with the error of `outputs[0]` |
| GenerateNodes.GenerateNodeTwiceFails | generate_nodes.py:47 | the descriptor is rewritten in place, so generating from it a second time fails (`TypeError`, or `IndexError` for empty outputs) |
| GenerateNodes.ModuleName | generate_nodes.py:67 | `filename[0:-5]` is the file name without its last five characters |
| GenerateNodes.ModuleNameOfKey | generate_nodes.py:32 | the module name of `<key>.json` is the key |
| GenerateNodes.NodePath | generate_nodes.py:68 | a node is written to `nodes/ladybug/<key>.py` under the build, and its base name is `<key>.py` |
| GenerateNodes.NodeKeys | generate_nodes.py:26-30 | the keys that get a node are exactly the stored keys without a denylist marker, each taken from the entry at the matching increasing position, so in map order |
| GenerateNodes.NodeIndexes | generate_nodes.py:26-30 | the positions that get a node increase, and a position is listed exactly when its key has no denylist marker |
| GenerateNodes.GenerateEntry | generate_nodes.py:27-32 | an excluded key is skipped untouched; otherwise the entry succeeds exactly when it generates and the output directory exists, and then returns the rewritten descriptor and the module at `NodePath` rendered from the generated context |
| GenerateNodes.GenerateAll | generate_nodes.py:24-32 | a successful run returns one descriptor per stored key |
| GenerateNodes.GenerateAllShape | generate_nodes.py:24-32 | a successful run keeps the keys in order and writes exactly one file per non-excluded key, in map order, at that key's path and rendered from that key's generated context |
| GenerateNodes.GenerateAllModules | generate_nodes.py:24-32 | a successful run writes one module per non-excluded key, the i-th at the i-th such key's path and rendered from that key's generated context |
| GenerateNodes.GenerateAllPaths | generate_nodes.py:24-32 | the i-th written module goes to the path of the key at the i-th non-excluded position |
| GenerateNodes.GenerateAllContexts | generate_nodes.py:24-32 | the i-th written module is rendered from the generated context of the descriptor at the i-th non-excluded position |
| GenerateNodes.GeneratedRewritten | generate_nodes.py:32-66 | after a successful run each non-excluded descriptor is the one its node generation rewrote, under the same key |
| GenerateNodes.ExcludedUntouched | generate_nodes.py:27-30 | a descriptor with a denylist marker is left as loaded |
| GenerateNodes.UngeneratableFails | generate_nodes.py:32 | one non-excluded descriptor that cannot be generated makes the whole run fail |
| GenerateNodes.GenerateAllSucceeds | generate_nodes.py:24-32 | with the output directory present and every non-excluded descriptor generatable, the run succeeds |
| GenerateNodes.MissingOutDirFails | generate_nodes.py:69 | without the output directory, a run with any node to write fails |
| GenerateNodes.WritesNeedOutDir | generate_nodes.py:69 | without the output directory no node file is ever written |
| GenerateInit.GroupOf | generate_init.py:25 | a subcategory without ` :: ` has no element 1 and raises `IndexError` |
| GenerateInit.GroupOfParts | generate_init.py:25 | for `category :: group :: rest` the group is the second field |
| GenerateInit.GroupOfTwoParts | generate_init.py:25 | for `category :: group` the group is the second field |
| GenerateInit.Groups | generate_init.py:25 | one group per descriptor, in map order |
| GenerateInit.Collect | generate_init.py:18-26 | the loop succeeds exactly when every subcategory has a group; it gives one `(module, nickname)` entry per descriptor in order and distinct groups holding all nicknames |
| GenerateInit.CollectKeys | generate_init.py:26 | the groups appear in order of first use |
| GenerateInit.CollectMembers | generate_init.py:26 | each group lists the nicknames of its descriptors, in map order |
| GenerateInit.GroupName | generate_init.py:31 | the subcategory name is the title with spaces turned into `_`, position by position |
| GenerateInit.SubcategoriesOf | generate_init.py:29-34 | one subcategory per group, in group order, with its name, title and nodes |
| GenerateInit.NodeCountIsTotalLength | generate_init.py:29-34 | the subcategories together list as many nodes as the groups hold |
| GenerateInit.IndexPath | generate_init.py:37 | the index is `__init__.py` directly in the build directory |
| GenerateInit.Generate | generate_init.py:10-40 | the index is written exactly when every subcategory has a group and the build exists; it lists every node once, and groups them by first use with each node in exactly one subcategory |
| GenerateInit.SubcategoriesMatch | generate_init.py:29-34 | the subcategories are the distinct groups in order of first use, each with its member nicknames |
| GenerateInit.ListedInOwnGroup | generate_init.py:25-26 | every node is listed in the subcategory of its own group |
| GenerateInit.EmptyIndex | generate_init.py:10-40 | with no descriptors the index lists no nodes and no subcategories |
| GenerateIcons.IconSource | generate_icons.py:21 | the Grasshopper icon name is the key with each `_` turned into a space, position by position, followed by `.png` |
| GenerateIcons.IconTarget | generate_icons.py:19 | the Blender icon name is `lb_`, the lower-cased nickname and `.png` |
| GenerateIcons.SourceIsNeverTarget | generate_icons.py:19-21 | no rename lands on a name another rename reads |
| GenerateIcons.RenameAll | generate_icons.py:17-22 | the renames succeed exactly when each source is present and not already moved, and then replace all sources by all targets; otherwise they raise `FileNotFoundError` |
| GenerateIcons.Generate | generate_icons.py:10-22 | a missing icon directory fails the copy; otherwise the build gains every downloaded icon and the downloaded directory has its sources renamed |
| GenerateIcons.BuildKeepsSourceNames | generate_icons.py:12-22 | the copy precedes the renames, so the build holds every Grasshopper name and the downloaded directory none |
| GenerateIcons.MissingIconFails | generate_icons.py:20-22 | a descriptor without its icon fails the whole step |
| GenerateIcons.SharedSourceFails | generate_icons.py:17-22 | two stored keys with the same Grasshopper icon name make the icon step fail, because the second rename finds its source gone |
| GenerateIcons.UnderscoreMeetsSpace | generate_icons.py:21 | two different keys that differ only where one has `_` and the other a space have the same Grasshopper icon name |
| DistRunner.NewRunner | dist_runner.py:14-31 | a new runner keeps its base path and version and starts with no descriptors |
| DistRunner.BuildAndWorkDisjoint | dist_runner.py:27-28 | neither the build path nor the working path lies inside the other |
| DistRunner.DoBootstrap | dist_runner.py:33-39 | bootstrapping removes the base directory, so the working directory is gone too, and leaves exactly the template as the build |
| DistRunner.BootstrapForgets | dist_runner.py:37-39 | bootstrapping gives the same file system from any earlier state |
| DistRunner.DoInit | dist_runner.py:49 | the index step fails without a build, and otherwise stores the index of the runner's current descriptors and changes nothing else |
| DistRunner.DoDownload | dist_runner.py:55 | the step succeeds or fails exactly as `PackageManager.Download` does, with its error; on success the working directory is the downloaded one and the build, archives and runner are left alone |
| DistRunner.DoLoad | dist_runner.py:56 | loading replaces the runner's descriptors with the loaded map and leaves the files alone |
| DistRunner.DoIcons | dist_runner.py:58 | the step succeeds or fails exactly as `GenerateIcons.Generate` does on the working icons and the build's icons, with its error; on success both hold what it returns |
| DistRunner.DoNodes | dist_runner.py:59 | the step succeeds or fails exactly as `GenerateNodes.GenerateAll` does, with its error; on success the runner holds the rewritten descriptors and the build gains the written modules |
| DistRunner.DoClean | dist_runner.py:41-42 | removing the working directory fails when it is missing and otherwise removes exactly it |
| DistRunner.Exec | dist_runner.py:44-61 | steps run in order: the completed steps are a prefix, all steps complete exactly on success, and a failure stops early |
| DistRunner.ExecStopsAtFailure | dist_runner.py:44-61 | on failure the completed steps succeeded and the next step is the one that raised |
| DistRunner.Run | dist_runner.py:44-61 | a successful run performs the seven steps in order; a failing one completes a strict prefix of them |
| DistRunner.RunIndexUsesPriorSchemas | dist_runner.py:46-56 | the index of a successful run is built from the descriptors held before the run, not those it loads |
| DistRunner.FreshRunEmptyIndex | dist_runner.py:44-56 | a run on a fresh runner writes an index with no nodes and no subcategories |
| DistRunner.RunRemovesWork | dist_runner.py:61 | a successful run leaves no working directory, so cleaning again fails |
| DistRunner.LastStepCleans | dist_runner.py:61 | any successful sequence ending in the clean step leaves no working directory |
| DistRunner.ArchivePath | dist_runner.py:65 | the archive path is the build directory followed by `ladybug-blender-<version>.zip` |
| DistRunner.Package | dist_runner.py:63-67 | packaging fails without a build or without its inner `ladybug_tools/`, and otherwise adds exactly the archive |
| Sverchok.PyGet | ladybug_tools/sverchok.py:147 | Python indexing succeeds exactly on indexes in `-n..n-1` and raises `IndexError` otherwise |
| Sverchok.LongestList | ladybug_tools/sverchok.py:136-149 | a valid index gives its element, any other gives the last element, and only an empty list raises |
| Sverchok.LongestListClamps | ladybug_tools/sverchok.py:146-149 | every out-of-range index behaves like the last index |
| Sverchok.LongestListIsClampedLookup | ladybug_tools/sverchok.py:146-149 | a non-negative index reads the element at `min(index, n - 1)` |
| Sverchok.ObjectifyRoundTrip | ladybug_tools/sverchok.py:97-133 | de-objectifying an objectified list gives the list back |
| Sverchok.ToString | ladybug_tools/sverchok.py:120-121 | the display starts with the name and ends with ` items)` |
| Sverchok.ToStringShowsCount | ladybug_tools/sverchok.py:120-121 | the number shown reads back as the number of items |
| Sverchok.DataTreeHelpersAreIdentity | ladybug_tools/sverchok.py:76-243 | the five data-tree helpers return their first argument unchanged |
| Sverchok.ComponentHelpersArePlaceholders | ladybug_tools/sverchok.py:4-73 | the component helpers (and `hide_output`) return `"TODO"` |
| Intersect.ForEachIsSequential | ladybug_tools/intersect.py:17-20 | the stand-in for `Parallel.ForEach` visits the items one after another, in order |
| Intersect.ForEachAppend | ladybug_tools/intersect.py:17-20 | running over two lists is running over the first, then the second |
| Intersect.CeilDiv | ladybug_tools/intersect.py:156 | `ceil(a / b)` is the least multiple count covering `a` |
| Intersect.PartitionGroups | ladybug_tools/intersect.py:152-158 | with nothing to group the division by zero is raised; otherwise group i is exactly `[i*k, (i+1)*k)` for `k = i_per_group`, except that the last one stops at `count`, so the groups tile `0..count` in order and there are at most `cpu_count` of them |
| Intersect.GroupStarts | ladybug_tools/intersect.py:157 | the groups start at multiples of the group size, and the last one reaches the count |
| Intersect.VisitsTiles | ladybug_tools/intersect.py:140-150 | walking the groups visits every index once, in order |
| Intersect.Schedule | ladybug_tools/intersect.py:152-176 | every dispatch mode visits every index once, in order; only the grouped mode on an empty input fails |
| Intersect.RowOf | ladybug_tools/intersect.py:111-138 | a row entry is 1 exactly when the ray is clear and not skipped by the normal check; otherwise 0 |
| Intersect.Fill | ladybug_tools/intersect.py:140-150 | the visited rows are computed and the others are left as they were |
| Intersect.IntersectMatrix | ladybug_tools/intersect.py:68-178 | the matrix has one computed row per point; it fails exactly when the grouped mode gets no points (ZeroDivisionError) or normals are given and fewer than the points (IndexError, as `normals[i]` is read for every point) |
| Intersect.PairsFrom | ladybug_tools/intersect.py:358-359 | every considered pair is increasing and within range |
| Intersect.PairsComplete | ladybug_tools/intersect.py:358-359 | every pair of distinct solids is considered |
| Intersect.PairsIncreasing | ladybug_tools/intersect.py:358-359 | pairs are considered in lexicographic order, so none twice |
| LbOut.PathEdges | ladybug_tools/nodes/ladybug/LB_Out.py:265 | `n` vertices are joined by the `n - 1` edges `(i, i + 1)` |
| LbOut.FromLineSegment2D | ladybug_tools/nodes/ladybug/LB_Out.py:135-138 | a segment gives its two end points at height `z` and the edge `(0, 1)` |
| LbOut.FromArc2D | ladybug_tools/nodes/ladybug/LB_Out.py:149-161 | an arc gives its 33 facet points in order, joined into an open path by 32 edges |
| LbOut.ArcEdgesArePath | ladybug_tools/nodes/ladybug/LB_Out.py:156-160 | appending `(i, i + 1)` for 33 points and dropping the last gives the path through them |
| LbOut.FromArc3D | ladybug_tools/nodes/ladybug/LB_Out.py:172-197 | a circle fails its assertion; any other arc gives 33 points and the path through them |
| LbOut.FromPolyline | ladybug_tools/nodes/ladybug/LB_Out.py:262-276 | a polyline gives its vertices and the path through them |
| LbOut.PolylineIgnoresInterpolation | ladybug_tools/nodes/ladybug/LB_Out.py:266-276 | both branches return before their appends, so interpolation changes nothing |
| LbOut.Lift | ladybug_tools/nodes/ladybug/LB_Out.py:264 | 2D vertices are placed at height `z`, one per vertex |
| LbOut.HorizontalAlign | ladybug_tools/nodes/ladybug/LB_Out.py:292-297 | only the codes 0, 1 and 2 set a horizontal alignment: 0 gives left, 1 centre, 2 right |
| LbOut.HorizontalAlignRanks | ladybug_tools/nodes/ladybug/LB_Out.py:292-297 | the three codes give left, centre and right in that order |
| LbOut.VerticalAlign | ladybug_tools/nodes/ladybug/LB_Out.py:299-304 | codes up to 2 (negative ones too) give top, 3 to 4 centre, 5 to 6 bottom, and larger ones set nothing |
| LbOut.VerticalAlignRanks | ladybug_tools/nodes/ladybug/LB_Out.py:299-304 | the codes fall into three bands, top to bottom: up to 2, 3 to 4, 5 to 6 |
| LbOut.VerticalAlignMonotone | ladybug_tools/nodes/ladybug/LB_Out.py:299-304 | a larger code never moves the text up |
| LbOut.SverchokEntry | ladybug_tools/nodes/ladybug/LB_Out.py:96-110 | only circular 3D arcs fail, with an AssertionError, and exactly the geometry kinds with a Sverchok handler give an entry; each entry is its converter's output: arcs faceted, line segments and 2D polylines at height 0, a point as one vertex with the edge `(0, 0)` |
| LbOut.BlenderStep | ladybug_tools/nodes/ladybug/LB_Out.py:112-133 | the Blender handlers never touch the Sverchok lists, the flag or the outputs; arcs, line segments and polylines link a wireframe of their converter's vertices and edges, text links a text object with the mapped alignments, a mesh links a mesh object, points join the point mesh, coloured points the coloured cloud, and other values change nothing |
| LbOut.ProcessLeaf | ladybug_tools/nodes/ladybug/LB_Out.py:93-94 | every leaf goes through the Sverchok dispatcher and then the Blender one: a circular 3D arc fails with an AssertionError, a handled leaf appends its Sverchok entry and the face placeholder to `v`, `e`, `f`, and everything else is what the Blender step does to the leaf |
| LbOut.Flatten | ladybug_tools/nodes/ladybug/LB_Out.py:88-92 | flattening leaves no nested item |
| LbOut.ProcessGeometryIsFlatten | ladybug_tools/nodes/ladybug/LB_Out.py:88-94 | handling nested geometry is handling its leaves, depth first and in order |
| LbOut.ProcessAllIsFlatten | ladybug_tools/nodes/ladybug/LB_Out.py:77-79 | handling a socket's lists is handling all their leaves in order |
| LbOut.ProcessLeavesAppend | ladybug_tools/nodes/ladybug/LB_Out.py:77-79 | handling two runs of leaves is handling the first, then the second, and stops at the first failure |
| LbOut.ProcessLeavesCounts | ladybug_tools/nodes/ladybug/LB_Out.py:96-110 | each Sverchok-handled leaf adds exactly one entry to each list, and the lists stay aligned |
| LbOut.Finish | ladybug_tools/nodes/ladybug/LB_Out.py:81-86 | the three sockets receive `v`, `e` and `f`, and the flag is set |
| LbOut.Process | ladybug_tools/nodes/ladybug/LB_Out.py:62-86 | a baked node is left alone; otherwise the lists are emptied, every depth-first leaf of the linked inputs is handled in order, and on success the outputs receive the resulting lists and the flag is set, while the first failing leaf's error is returned |
| LbOut.ProcessLeafEntry | ladybug_tools/nodes/ladybug/LB_Out.py:93-110 | handling one leaf appends its Sverchok entry, if it has one, to `v`, `e` and `f`, and nothing else to them |
| LbOut.ProcessLeavesEntries | ladybug_tools/nodes/ladybug/LB_Out.py:77-94 | handling leaves appends, after the lists' earlier contents, the vertices, the edges and the face placeholder of each handled leaf, in leaf order |
| LbOut.RefreshOutputsAreEntries | ladybug_tools/nodes/ladybug/LB_Out.py:58-86 | after a refresh the outputs are, entry by entry, the vertices, edges and face placeholder of the Sverchok-handled leaves of the linked inputs, depth first and in socket order |
| LbOut.ProcessOnce | ladybug_tools/nodes/ladybug/LB_Out.py:63-64 | once processed, processing again changes nothing, whatever the inputs |
| LbOut.RefreshOutputs | ladybug_tools/nodes/ladybug/LB_Out.py:58-86 | after a refresh the three outputs have one entry per Sverchok-handled leaf of the linked inputs |
| LbOut.RefreshForgetsPrevious | ladybug_tools/nodes/ladybug/LB_Out.py:58-72 | a refresh resets the lists, so its outputs do not depend on the earlier state |
| LbOut.SameLists | ladybug_tools/nodes/ladybug/LB_Out.py:66-79 | the Sverchok lists after handling depend only on the lists before, not on the Blender state |

## Left out

- Network, archive and JSON: `requests.get` and the zip extraction are replaced by an archive value whose entries carry already-parsed payloads. A file that does not parse is `NotJson`, and the JSON grammar itself is not modelled.
- Glob order: `glob.glob` and `Path.glob` order is platform-defined. The model takes the listing order of the archive and of the `json` directory as given.
- Python `repr` of the input defaults is not modelled. Defaults are taken as their repr strings.
- pystache beyond plain `{{name}}` variables (sections, partials, HTML escaping, triple braces) is not modelled. The two template files (`generic_node.mustache`, `init.mustache`) are not part of this model: the node and index files are represented by the context they are rendered from.
- Mustache: whitespace inside a tag is not trimmed, so `{{ cad }}` renders empty where pystache renders `tools`. The tags listed in the comment at generate_nodes.py:45 have no inner spaces.
- Defaults from the host: the `Runner` defaults (`os.getcwd()`, today's date as version) become parameters.
- Partial side effects before an exception are not modelled, because a failing step returns `Err` without the state it left:
  - a failed download leaves the `json` and `icon` directories behind;
  - a failing `generate_node` leaves a half-rewritten descriptor;
  - a failing `package` leaves a created, empty archive.
- Runner.package: the instance attribute `package` (the package manager) shadows the method, so the method is reachable only through the class. `DistRunner.Package` models the method's body.
- `z.write` writes one directory entry, not the tree. The archive's contents are left out; only its path is recorded.
- Floating point, trigonometry and Blender: arc facet points, matrices, text size and location, materials, colours, the point-cloud add-on and `bpy` objects are left out. The facet points are a parameter, and the scene objects are recorded as values without geometry.
- LbOut.FromLineSegment2D and the other conversions: coordinates are reals, so Python float rounding is not modelled.
- Intersect: the ray casts, the normal angle test, the distance test and the Brep splitting are passed in as predicates or left out. The resulting `angle_matrix`, and the solids written back by `intersect_solids` and `intersect_solids_parallel`, are not modelled; only the order of the visited pairs and indexes is.
- Intersect: the `multiprocessing` code after `return` in `for_each` is dead and left out. The `None in int_obj` test of the line intersection is abstracted into the `blocked` predicate.
- Intersect.CeilDiv: `math.ceil` of a float division is computed exactly on integers. Float rounding for very large counts is not modelled.
- Sverchok: `show_output` and `schedule_solution` return `None` before doing anything and are not modelled. The dead Grasshopper code after each early `return` is left out.
- The other runtime modules (togeometry.py, fromgeometry.py, colorize.py, color.py, text.py, sockets.py, config.py) are not part of this model.
- Text.Upper and Text.Lower: only ASCII letters change case. Python's Unicode case mapping is not modelled.
- Targets: the scripts pass the literal `ladybug-grasshopper`. PackageManager.TargetUrl and PackageManager.InnerDir are stated for every target rather than evaluated on that one.
- PackageManager.Load: a loaded descriptor always holds every field the scripts read (`nickname`, `subcategory`, `description`, `code`, `inputs`, `outputs`, and each input's `name`, `type`, `default`, `access` and `description`). A JSON file without `nickname` raises `KeyError` at package_manager.py:72, and one without another field raises `KeyError` in generate_nodes.py; neither error is modelled.
- PackageManager.KeyOfListed covers stems without `.`. A stem holding `.json` in the middle loses that part too, as `replace` does; that case is stated only by `Text.ReplaceAll`.
- PackageManager.LoadFiles: the ensures states success, errors and distinct keys. The keys and contents of the result are stated by the lemma `PackageManager.LoadFilesContents`.
- GenerateNodes.GenerateAll: the ensures states only the length. The keys, the written files and their contexts, and the rewritten descriptors are stated by the lemmas `GenerateNodes.GenerateAllShape`, `GenerateNodes.GenerateAllModules`, `GenerateNodes.GenerateAllPaths`, `GenerateNodes.GenerateAllContexts`, `GenerateNodes.GeneratedRewritten` and `GenerateNodes.ExcludedUntouched`.
- Path separator: `os.path.sep` is fixed to `/`.

=== FILE: dist_runner.dfy ===
/**
  The build runner as a state machine over an abstract file system. A run performs
  seven steps in a fixed order — bootstrap the build tree from the template, render the
  index, download, load, rename and copy icons, generate the nodes, remove the working
  directory — and stops at the first step that fails. Each step is the model of the
  corresponding stage; the file system holds only what those stages read and write.
 */
module DistRunner {
  import opened Wrappers
  import opened Text
  import opened OrderedDict
  import opened Paths
  import opened Schema
  import PackageManager
  import GenerateNodes
  import GenerateInit
  import GenerateIcons

  /**
    The build tree: its index (`None` while it is the template's own file), its icons,
    whether `nodes/ladybug` exists, the node modules written into it, and whether it holds
    a `ladybug_tools` directory of its own.
   */
  datatype Build = Build(
    index: Option<GenerateInit.InitContext>,
    icons: set<string>,
    nodeDir: bool,
    nodes: seq<GenerateNodes.NodeFile>,
    inner: bool)

  /**
    Everything under `base_path`: whether it exists, the build tree, the package manager's
    working directories, and the zip archives written.
   */
  datatype Fs = Fs(base: bool, build: Option<Build>, work: PackageManager.WorkDirs, archives: set<string>)

  const NoWork: PackageManager.WorkDirs := PackageManager.WorkDirs(false, None, None)

  /** Nothing lives under a base directory that does not exist. */
  predicate WellFormed(fs: Fs) {
    !fs.base ==> fs.build.None? && fs.work == NoWork
  }

  /** The runner's own state: its paths and the package manager's map of descriptors. */
  datatype Runner = Runner(basePath: string, version: string, schemas: SchemaMap)

  /**
    What the run reads from outside: the template tree copied by `bootstrap` and the
    archive the download fetches.
   */
  datatype Env = Env(template: Build, archive: PackageManager.Archive)

  datatype State = State(runner: Runner, fs: Fs)

  /** A fresh runner: `schemas` starts empty. */
  function NewRunner(basePath: string, version: string): (r: Runner)
    ensures r.basePath == basePath && r.version == version && |r.schemas| == 0
  {
    Runner(basePath, version, [])
  }

  const TargetDir: string := "ladybug_tools"
  const TmpDir: string := "working"
  const Target: string := "ladybug-grasshopper"

  /** `f'{base_path}ladybug_tools{os.path.sep}'`. */
  function BuildPath(basePath: string): string { basePath + TargetDir + [Sep] }

  /** `f'{base_path}working{os.path.sep}'`. */
  function WorkPath(basePath: string): string { basePath + TmpDir + [Sep] }

  /** The build and working directories are siblings: neither path lies under the other. */
  lemma BuildAndWorkDisjoint(basePath: string)
    ensures !StartsWith(WorkPath(basePath), BuildPath(basePath))
    ensures !StartsWith(BuildPath(basePath), WorkPath(basePath))
  {
    var k := |basePath|;
    assert BuildPath(basePath)[k] == 'l' && WorkPath(basePath)[k] == 'w';
    NotStartsWithAt(WorkPath(basePath), BuildPath(basePath), k);
    NotStartsWithAt(BuildPath(basePath), WorkPath(basePath), k);
  }

  datatype Step = Bootstrap | InitIndex | Download | Load | Icons | Nodes | Clean

  /** The order of `run()`. */
  const Plan: seq<Step> := [Bootstrap, InitIndex, Download, Load, Icons, Nodes, Clean]

  /** `destroy()` then `shutil.copytree` of the template to the build path. */
  function DoBootstrap(st: State, env: Env): (r: Result<State>)
    ensures r.Ok? ==> r.value.fs.base && r.value.fs.build == Some(env.template)
    ensures r.Ok? ==> r.value.runner == st.runner && r.value.fs.archives == (if st.fs.base then {} else st.fs.archives)
    ensures r.Ok? ==> WellFormed(r.value.fs)
    ensures WellFormed(st.fs) ==> r.Ok?
    ensures WellFormed(st.fs) && r.Ok? ==> r.value.fs.work == NoWork
  {
    var fs := if st.fs.base then Fs(false, None, NoWork, {}) else st.fs;
    if fs.build.Some? then Err(FileExistsError(BuildPath(st.runner.basePath)))
    else Ok(st.(fs := fs.(base := true, build := Some(env.template))))
  }

  /** Writes the index of the runner's current map into the build tree. */
  function DoInit(st: State): (r: Result<State>)
    ensures st.fs.build.None? ==> r.Err?
    ensures r.Ok? ==> var file := GenerateInit.Generate(BuildPath(st.runner.basePath), true, st.runner.schemas);
      file.Ok? && r.value.fs.build.Some? && r.value.fs.build.value.index == Some(file.value.context)
    ensures r.Ok? ==> r.value == st.(fs := r.value.fs) && r.value.fs == st.fs.(build := r.value.fs.build)
  {
    var file :- GenerateInit.Generate(BuildPath(st.runner.basePath), st.fs.build.Some?, st.runner.schemas);
    Ok(st.(fs := st.fs.(build := Some(st.fs.build.value.(index := Some(file.context))))))
  }

  function DoDownload(st: State, env: Env): (r: Result<State>)
    ensures var d := PackageManager.Download(st.fs.work, WorkPath(st.runner.basePath), Target, env.archive);
      && (r.Ok? <==> d.Ok?)
      && (r.Err? ==> r.error == d.error)
      && (r.Ok? ==> r.value.fs.work == d.value)
    ensures r.Ok? ==> r.value.fs.base && r.value.fs.work.work
    ensures r.Ok? ==> r.value.runner == st.runner && r.value.fs.build == st.fs.build
    ensures r.Ok? ==> r.value.fs.archives == st.fs.archives
  {
    var work :- PackageManager.Download(st.fs.work, WorkPath(st.runner.basePath), Target, env.archive);
    Ok(st.(fs := st.fs.(base := true, work := work)))
  }

  /** `load()` replaces the whole map by what the JSON directory holds now. */
  function DoLoad(st: State): (r: Result<State>)
    ensures r.Ok? ==> r.value.fs == st.fs
    ensures r.Ok? ==> var loaded := PackageManager.Load(WorkPath(st.runner.basePath), st.fs.work.json);
      loaded.Ok? && r.value.runner == st.runner.(schemas := loaded.value)
  {
    var schemas :- PackageManager.Load(WorkPath(st.runner.basePath), st.fs.work.json);
    Ok(st.(runner := st.runner.(schemas := schemas)))
  }

  /** The build tree the icon copy writes into; `copy_tree` creates it when missing. */
  function BuildOrEmpty(b: Option<Build>): Build {
    b.GetOr(Build(None, {}, false, [], false))
  }

  function DoIcons(st: State): (r: Result<State>)
    ensures r.Ok? ==> r.value.runner == st.runner && r.value.fs.build.Some?
    ensures r.Ok? ==> r.value.fs.build.value == BuildOrEmpty(st.fs.build).(icons := r.value.fs.build.value.icons)
    ensures r.Ok? ==> BuildOrEmpty(st.fs.build).icons <= r.value.fs.build.value.icons
    ensures var g := GenerateIcons.Generate(
        PackageManager.IconPath(WorkPath(st.runner.basePath)), st.fs.work.icon, BuildOrEmpty(st.fs.build).icons, st.runner.schemas);
      && (r.Ok? <==> g.Ok?)
      && (r.Err? ==> r.error == g.error)
      && (r.Ok? ==> r.value.fs.build.value.icons == g.value.built && r.value.fs.work.icon == Some(g.value.work))
  {
    var dirs :- GenerateIcons.Generate(
      PackageManager.IconPath(WorkPath(st.runner.basePath)), st.fs.work.icon, BuildOrEmpty(st.fs.build).icons, st.runner.schemas);
    Ok(st.(fs := st.fs.(base := true,
                        build := Some(BuildOrEmpty(st.fs.build).(icons := dirs.built)),
                        work := st.fs.work.(icon := Some(dirs.work)))))
  }

  /** Node generation; the generator updates the runner's descriptors in place. */
  function DoNodes(st: State): (r: Result<State>)
    ensures r.Ok? ==> |r.value.runner.schemas| == |st.runner.schemas|
    ensures r.Ok? && st.fs.build.Some? ==>
      r.value.fs.build.Some? && r.value.fs.build.value.index == st.fs.build.value.index
    ensures r.Ok? ==> r.value.fs.work == st.fs.work && r.value.fs.base == st.fs.base
    ensures var g := GenerateNodes.GenerateAll(
        BuildPath(st.runner.basePath), st.fs.build.Some? && st.fs.build.value.nodeDir, st.runner.schemas);
      && (r.Ok? <==> g.Ok?)
      && (r.Err? ==> r.error == g.error)
      && (r.Ok? ==> r.value.runner == st.runner.(schemas := g.value.0))
      && (r.Ok? && st.fs.build.Some? ==> r.value.fs.build.value == st.fs.build.value.(nodes := st.fs.build.value.nodes + g.value.1))
  {
    var nodeDir := st.fs.build.Some? && st.fs.build.value.nodeDir;
    var res :- GenerateNodes.GenerateAll(BuildPath(st.runner.basePath), nodeDir, st.runner.schemas);
    var build := if st.fs.build.Some? then Some(st.fs.build.value.(nodes := st.fs.build.value.nodes + res.1)) else None;
    Ok(State(st.runner.(schemas := res.0), st.fs.(build := build)))
  }

  /** `clean()`: `shutil.rmtree(work_path)`, which fails when the directory is absent. */
  function DoClean(st: State): (r: Result<State>)
    ensures !st.fs.work.work ==> r == Err(FileNotFoundError(WorkPath(st.runner.basePath)))
    ensures r.Ok? <==> st.fs.work.work
    ensures r.Ok? ==> r.value == st.(fs := st.fs.(work := NoWork))
  {
    if !st.fs.work.work then Err(FileNotFoundError(WorkPath(st.runner.basePath)))
    else Ok(st.(fs := st.fs.(work := NoWork)))
  }

  function Apply(step: Step, st: State, env: Env): Result<State> {
    match step
    case Bootstrap => DoBootstrap(st, env)
    case InitIndex => DoInit(st)
    case Download => DoDownload(st, env)
    case Load => DoLoad(st)
    case Icons => DoIcons(st)
    case Nodes => DoNodes(st)
    case Clean => DoClean(st)
  }

  /**
    Performs the steps in order, stopping at the first failure. `done` lists the steps
    that completed; on failure the next step is the one that failed.
   */
  function Exec(steps: seq<Step>, st: State, env: Env): (r: (seq<Step>, Result<State>))
    ensures |r.0| <= |steps| && r.0 == steps[..|r.0|]
    ensures r.1.Ok? <==> r.0 == steps
    ensures r.1.Err? ==> |r.0| < |steps|
    decreases |steps|
  {
    if |steps| == 0 then ([], Ok(st))
    else
      match Apply(steps[0], st, env)
      case Err(e) => ([], Err(e))
      case Ok(next) =>
        var (done, res) := Exec(steps[1..], next, env);
        ([steps[0]] + done, res)
  }

  /** `run()`. */
  function Run(st: State, env: Env): (r: (seq<Step>, Result<State>))
    ensures r.1.Ok? ==> r.0 == [Bootstrap, InitIndex, Download, Load, Icons, Nodes, Clean]
    ensures r.1.Err? ==> r.0 < Plan
  {
    Exec(Plan, st, env)
  }

  /** The step that stops a failed execution is the one after the completed ones, and it did fail. */
  lemma {:induction false} ExecStopsAtFailure(steps: seq<Step>, st: State, env: Env)
    requires Exec(steps, st, env).1.Err?
    ensures var done := Exec(steps, st, env).0;
      exists mid :: Exec(done, st, env) == (done, Ok(mid)) && Apply(steps[|done|], mid, env).Err?
    decreases |steps|
  {
    if Apply(steps[0], st, env).Err? {
      assert Exec([], st, env) == ([], Ok(st));
    } else {
      var next := Apply(steps[0], st, env).value;
      ExecStopsAtFailure(steps[1..], next, env);
      var done := Exec(steps[1..], next, env).0;
      var mid :| Exec(done, next, env) == (done, Ok(mid)) && Apply(steps[1..][|done|], mid, env).Err?;
      var all := [steps[0]] + done;
      assert all[0] == steps[0] && all[1..] == done;
      assert Exec(all, st, env) == (all, Ok(mid));
    }
  }

  /** Unfolds `Exec` by one step. */
  lemma ExecStep(steps: seq<Step>, st: State, env: Env)
    requires |steps| > 0
    ensures Apply(steps[0], st, env).Err? ==> Exec(steps, st, env).1.Err?
    ensures Apply(steps[0], st, env).Ok? ==> Exec(steps, st, env).1 == Exec(steps[1..], Apply(steps[0], st, env).value, env).1
  {
  }

  /** Steps after the index is written leave the index alone. */
  predicate KeepsIndex(step: Step) {
    step in {Download, Load, Icons, Nodes, Clean}
  }

  lemma {:induction false} ExecKeepsIndex(steps: seq<Step>, st: State, env: Env)
    requires forall i :: 0 <= i < |steps| ==> KeepsIndex(steps[i])
    requires st.fs.build.Some?
    requires Exec(steps, st, env).1.Ok?
    ensures Exec(steps, st, env).1.value.fs.build.Some?
    ensures Exec(steps, st, env).1.value.fs.build.value.index == st.fs.build.value.index
    decreases |steps|
  {
    if |steps| > 0 {
      var next := Apply(steps[0], st, env).value;
      assert KeepsIndex(steps[0]);
      assert next.fs.build.Some? && next.fs.build.value.index == st.fs.build.value.index;
      ExecKeepsIndex(steps[1..], next, env);
    }
  }

  /**
    The index a completed run leaves in the build is rendered from the descriptors the
    runner held BEFORE the run: the index step comes before `load`.
   */
  lemma RunIndexUsesPriorSchemas(st: State, env: Env)
    requires Run(st, env).1.Ok?
    ensures var fin := Run(st, env).1.value;
      var file := GenerateInit.Generate(BuildPath(st.runner.basePath), true, st.runner.schemas);
      file.Ok? && fin.fs.build.Some? && fin.fs.build.value.index == Some(file.value.context)
  {
    var tail := Plan[1..];
    var rest := Plan[2..];
    PlanShape();
    ExecStep(Plan, st, env);
    var s1 := DoBootstrap(st, env).value;
    assert Exec(tail, s1, env).1.Ok?;
    ExecStep(tail, s1, env);
    var s2 := DoInit(s1).value;
    assert Exec(rest, s2, env).1 == Run(st, env).1;
    ExecKeepsIndex(rest, s2, env);
  }

  /** The plan starts with bootstrap and the index; every later step keeps the index. */
  lemma PlanShape()
    ensures Plan[0] == Bootstrap && Plan[1..][0] == InitIndex && Plan[1..][1..] == Plan[2..]
    ensures forall i :: 0 <= i < |Plan[2..]| ==> KeepsIndex(Plan[2..][i])
  {
  }

  /** A fresh runner's run therefore ships an index listing no nodes and no groups. */
  lemma FreshRunEmptyIndex(st: State, env: Env)
    requires st.runner == NewRunner(st.runner.basePath, st.runner.version)
    requires Run(st, env).1.Ok?
    ensures Run(st, env).1.value.fs.build.Some?
    ensures Run(st, env).1.value.fs.build.value.index == Some(GenerateInit.InitContext([], []))
  {
    RunIndexUsesPriorSchemas(st, env);
    GenerateInit.EmptyIndex(BuildPath(st.runner.basePath));
  }

  /** On a well-formed file system, bootstrapping gives the same tree whatever was there before. */
  lemma BootstrapForgets(st1: State, st2: State, env: Env)
    requires WellFormed(st1.fs) && WellFormed(st2.fs)
    requires st1.fs.archives == {} && st2.fs.archives == {}
    ensures DoBootstrap(st1, env).value.fs == DoBootstrap(st2, env).value.fs
  {
  }

  /** A completed run leaves no working directory behind, so cleaning again fails. */
  lemma RunRemovesWork(st: State, env: Env)
    requires Run(st, env).1.Ok?
    ensures Run(st, env).1.value.fs.work == NoWork
    ensures DoClean(Run(st, env).1.value).Err?
  {
    LastStepCleans(Plan, st, env);
  }

  /** Whatever came before, a completed run of steps ending in `Clean` leaves no working directory. */
  lemma {:induction false} LastStepCleans(steps: seq<Step>, st: State, env: Env)
    requires |steps| > 0 && steps[|steps| - 1] == Clean
    requires Exec(steps, st, env).1.Ok?
    ensures Exec(steps, st, env).1.value.fs.work == NoWork
    decreases |steps|
  {
    ExecStep(steps, st, env);
    var next := Apply(steps[0], st, env).value;
    if |steps| > 1 {
      LastStepCleans(steps[1..], next, env);
    } else {
      assert Exec(steps[1..], next, env).1 == Ok(next);
    }
  }

  /** `package()`: the archive path. */
  function ArchivePath(buildPath: string, version: string): (r: string)
    ensures StartsWith(r, buildPath) && EndsWith(r, ".zip")
    ensures r[|buildPath|..] == "ladybug-blender-" + version + ".zip"
  {
    buildPath + "ladybug-blender-" + version + ".zip"
  }

  /**
    `package()`: opening the archive needs the build directory; writing the build's
    `ladybug_tools/` entry needs that directory inside the build.
   */
  function Package(st: State): (r: Result<Fs>)
    ensures st.fs.build.None? ==> r == Err(FileNotFoundError(ArchivePath(BuildPath(st.runner.basePath), st.runner.version)))
    ensures r.Ok? <==> st.fs.build.Some? && st.fs.build.value.inner
    ensures r.Ok? ==> r.value == st.fs.(archives := st.fs.archives + {ArchivePath(BuildPath(st.runner.basePath), st.runner.version)})
  {
    var build := BuildPath(st.runner.basePath);
    var zip := ArchivePath(build, st.runner.version);
    if st.fs.build.None? then Err(FileNotFoundError(zip))
    else if !st.fs.build.value.inner then Err(FileNotFoundError(build + TargetDir + [Sep]))
    else Ok(st.fs.(archives := st.fs.archives + {zip}))
  }
}

=== FILE: generate_icons.dfy ===
/**
  The icon generator. The downloaded icon directory is first copied whole into the
  build's `icons/` directory; then, inside the downloaded directory, each node's icon
  is renamed from the Grasshopper name (the key with `_` read as a space) to the
  Blender name (`lb_` and the lower-cased nickname). Directories are modelled as the
  set of file names they hold.
 */
module GenerateIcons {
  import opened Wrappers
  import opened Text
  import opened OrderedDict
  import opened Paths
  import opened Schema

  /** `'{}.png'.format(module_name.replace('_', ' '))`. */
  function IconSource(key: string): (r: string)
    ensures |r| == |key| + 4 && EndsWith(r, ".png")
    ensures forall i :: 0 <= i < |key| ==> r[i] == (if key[i] == '_' then ' ' else key[i])
    ensures '_' !in r
  {
    ReplaceCharByChar(key, '_', ' ');
    ReplaceAll(key, "_", " ") + ".png"
  }

  /** `'lb_{}.png'.format(nickname.lower())`. */
  function IconTarget(nickname: string): (r: string)
    ensures StartsWith(r, "lb_") && EndsWith(r, ".png")
    ensures |r| == |nickname| + 7
    ensures forall i :: 0 <= i < |nickname| ==> r[3 + i] == LowerChar(nickname[i])
  {
    "lb_" + Lower(nickname) + ".png"
  }

  /** A rename never lands on a name that a later rename reads: targets hold `_`, sources do not. */
  lemma SourceIsNeverTarget(key: string, nickname: string)
    ensures IconSource(key) != IconTarget(nickname)
  {
    assert IconTarget(nickname)[2] == '_';
  }

  /** The source names of all descriptors. */
  function Sources(schemas: SchemaMap): set<string> {
    set i | 0 <= i < |schemas| :: IconSource(schemas[i].0)
  }

  /** The target names of all descriptors. */
  function Targets(schemas: SchemaMap): set<string> {
    set i | 0 <= i < |schemas| :: IconTarget(schemas[i].1.nickname)
  }

  /**
    Every rename finds its source: each source is in the directory and no earlier
    descriptor has the same source name (which its rename would have moved away).
   */
  predicate SourcesAvailable(dir: set<string>, schemas: SchemaMap) {
    forall i :: 0 <= i < |schemas| ==>
      IconSource(schemas[i].0) in dir &&
      forall j :: 0 <= j < i ==> IconSource(schemas[j].0) != IconSource(schemas[i].0)
  }

  /**
    The rename loop over the map, in map order, inside the directory at `iconPath`.
    A missing source stops the loop with `FileNotFoundError`; an existing target is
    replaced, as POSIX `rename` does.
   */
  function RenameAll(iconPath: string, dir: set<string>, schemas: SchemaMap): (r: Result<set<string>>)
    ensures r.Ok? <==> SourcesAvailable(dir, schemas)
    ensures r.Ok? ==> r.value == (dir - Sources(schemas)) + Targets(schemas)
    ensures r.Err? ==> r.error.FileNotFoundError?
    decreases |schemas|
  {
    if |schemas| == 0 then Ok(dir)
    else
      var init := schemas[..|schemas| - 1];
      var (key, spec) := schemas[|schemas| - 1];
      assert schemas == init + [(key, spec)];
      var renamed :- RenameAll(iconPath, dir, init);
      var src := IconSource(key);
      var dst := IconTarget(spec.nickname);
      RenameStep(dir, init, key, spec);
      if src !in renamed then Err(FileNotFoundError(PathJoin(iconPath, src)))
      else Ok((renamed - {src}) + {dst})
  }

  /** One more descriptor: its source must still be there, and the sets grow by one name each. */
  lemma RenameStep(dir: set<string>, init: SchemaMap, key: string, spec: NodeSchema)
    ensures var schemas := init + [(key, spec)];
      && (SourcesAvailable(dir, schemas) <==>
          SourcesAvailable(dir, init) && IconSource(key) in dir && IconSource(key) !in Sources(init))
      && Sources(schemas) == Sources(init) + {IconSource(key)}
      && Targets(schemas) == Targets(init) + {IconTarget(spec.nickname)}
      && IconSource(key) !in Targets(init)
  {
    NamesSnoc(init, key, spec);
    AvailableSnoc(dir, init, key, spec);
    var src := IconSource(key);
    forall i | 0 <= i < |init| ensures IconTarget(init[i].1.nickname) != src {
      SourceIsNeverTarget(key, init[i].1.nickname);
    }
  }

  lemma NamesSnoc(init: SchemaMap, key: string, spec: NodeSchema)
    ensures Sources(init + [(key, spec)]) == Sources(init) + {IconSource(key)}
    ensures Targets(init + [(key, spec)]) == Targets(init) + {IconTarget(spec.nickname)}
  {
    var schemas := init + [(key, spec)];
    assert forall i :: 0 <= i < |init| ==> schemas[i] == init[i];
    assert schemas[|init|] == (key, spec);
  }

  lemma AvailableSnoc(dir: set<string>, init: SchemaMap, key: string, spec: NodeSchema)
    ensures SourcesAvailable(dir, init + [(key, spec)]) <==>
      SourcesAvailable(dir, init) && IconSource(key) in dir && IconSource(key) !in Sources(init)
  {
    var schemas := init + [(key, spec)];
    var src := IconSource(key);
    assert forall i :: 0 <= i < |init| ==> schemas[i] == init[i];
    assert schemas[|init|] == (key, spec);
    if src in Sources(init) {
      var j :| 0 <= j < |init| && IconSource(init[j].0) == src;
      assert !SourcesAvailable(dir, schemas) by {
        assert IconSource(schemas[j].0) == IconSource(schemas[|init|].0);
      }
    }
  }

  /** The build's icon directory and the downloaded one after the step. */
  datatype IconDirs = IconDirs(built: set<string>, work: set<string>)

  /** `os.path.join(build_path, 'icons')` with a trailing separator. */
  function IconsOutPath(buildPath: string): string { buildPath + "icons" + [Sep] }

  /**
    `generate()`: `copy_tree` of the downloaded icons into the build (which fails when the
    downloaded directory is missing and creates the target when needed), then the renames.
   */
  function Generate(iconPath: string, iconDir: Option<set<string>>, built: set<string>, schemas: SchemaMap): (r: Result<IconDirs>)
    ensures iconDir.None? ==> r == Err(DistutilsFileError(iconPath))
    ensures r.Ok? <==> iconDir.Some? && SourcesAvailable(iconDir.value, schemas)
    ensures r.Ok? ==> r.value.built == built + iconDir.value
    ensures r.Ok? ==> r.value.work == (iconDir.value - Sources(schemas)) + Targets(schemas)
  {
    match iconDir
    case None => Err(DistutilsFileError(iconPath))
    case Some(dir) =>
      var copied := built + dir;
      var renamed :- RenameAll(iconPath, dir, schemas);
      Ok(IconDirs(copied, renamed))
  }

  /** The copy comes first, so the build keeps the Grasshopper names and never the Blender ones. */
  lemma {:induction false} BuildKeepsSourceNames(iconPath: string, dir: set<string>, built: set<string>, schemas: SchemaMap, i: nat)
    requires i < |schemas| && Generate(iconPath, Some(dir), built, schemas).Ok?
    ensures IconSource(schemas[i].0) in Generate(iconPath, Some(dir), built, schemas).value.built
    ensures IconSource(schemas[i].0) !in Generate(iconPath, Some(dir), built, schemas).value.work
  {
    assert IconSource(schemas[i].0) in Sources(schemas);
    assert IconSource(schemas[i].0) !in Targets(schemas) by {
      forall j | 0 <= j < |schemas| ensures IconTarget(schemas[j].1.nickname) != IconSource(schemas[i].0) {
        SourceIsNeverTarget(schemas[i].0, schemas[j].1.nickname);
      }
    }
  }

  /** A descriptor whose icon is missing makes the step fail; nothing is skipped. */
  lemma MissingIconFails(iconPath: string, dir: set<string>, built: set<string>, schemas: SchemaMap, i: nat)
    requires i < |schemas| && IconSource(schemas[i].0) !in dir
    ensures Generate(iconPath, Some(dir), built, schemas).Err?
  {
  }

  /**
    Two descriptors whose keys share a source name make the later rename fail: the
    earlier one has already moved the file away.
   */
  lemma SharedSourceFails(iconPath: string, dir: set<string>, built: set<string>, schemas: SchemaMap, i: nat, j: nat)
    requires i < j < |schemas| && IconSource(schemas[i].0) == IconSource(schemas[j].0)
    ensures Generate(iconPath, Some(dir), built, schemas).Err?
  {
    assert !SourcesAvailable(dir, schemas);
  }

  /** Keys that differ only in `_` versus space are such a pair. */
  lemma UnderscoreMeetsSpace(a: string, b: string)
    requires |a| == |b| && a != b
    requires forall k :: 0 <= k < |a| ==> a[k] == b[k] || (a[k] == '_' && b[k] == ' ')
    ensures IconSource(a) == IconSource(b)
  {
    assert IconSource(a)[..|a|] == IconSource(b)[..|a|];
    assert IconSource(a) == IconSource(a)[..|a|] + ".png";
    assert IconSource(b) == IconSource(b)[..|a|] + ".png";
  }

}

=== FILE: generate_init.dfy ===
/**
  The index generator: the context of the package's `__init__.py`, listing one node
  entry per loaded descriptor and the node groups ("subcategories") of the Blender
  menu. A node's group is the second `" :: "`-separated part of its subcategory;
  groups appear in the order they are first seen.
 */
module GenerateInit {
  import opened Wrappers
  import opened Text
  import opened OrderedDict
  import opened Paths
  import opened Schema

  datatype NodeEntry = NodeEntry(nodeModule: string, nodeClassname: string)

  datatype Subcategory = Subcategory(name: string, title: string, nodes: seq<string>)

  datatype InitContext = InitContext(nodes: seq<NodeEntry>, subcategories: seq<Subcategory>)

  /** The written index: where it goes and the context it is rendered from. */
  datatype InitFile = InitFile(path: string, context: InitContext)

  const GroupSep: string := " :: "

  /** `subcategory.split(' :: ')[1]`; a subcategory without the separator has no element 1. */
  function GroupOf(subcategory: string): (r: Result<string>)
    ensures r.Err? ==> r.error == IndexError
    ensures !Contains(subcategory, GroupSep) ==> r == Err(IndexError)
  {
    assert !Contains(subcategory, GroupSep) ==> Split(subcategory, GroupSep) == [subcategory] by {
      if !Contains(subcategory, GroupSep) { SplitNone(subcategory, GroupSep); }
    }
    var parts := Split(subcategory, GroupSep);
    if |parts| < 2 then Err(IndexError) else Ok(parts[1])
  }

  /**
    The group is the text between the first and the second separator, whatever
    follows, as long as the first two parts hold no `:`.
   */
  lemma GroupOfParts(category: string, group: string, rest: string)
    requires ':' !in category && ':' !in group
    ensures GroupOf(category + GroupSep + group + GroupSep + rest) == Ok(group)
  {
    var tail := group + GroupSep + rest;
    assert category + GroupSep + group + GroupSep + rest == category + GroupSep + tail;
    SplitFront(category, GroupSep, tail);
    SplitFront(group, GroupSep, rest);
  }

  /** With only two parts, the group is the second one. */
  lemma GroupOfTwoParts(category: string, group: string)
    requires ':' !in category && ':' !in group
    ensures GroupOf(category + GroupSep + group) == Ok(group)
  {
    SplitFront(category, GroupSep, group);
    NoCharNoFind(group, GroupSep, 1);
  }

  /** True when every descriptor's subcategory names a group. */
  predicate AllGrouped(schemas: SchemaMap) {
    forall i :: 0 <= i < |schemas| ==> GroupOf(schemas[i].1.subcategory).Ok?
  }

  /** A map is grouped when all but its last descriptor are and the last one is too. */
  lemma AllGroupedSnoc(schemas: SchemaMap)
    requires |schemas| > 0
    ensures AllGrouped(schemas) <==>
      AllGrouped(schemas[..|schemas| - 1]) && GroupOf(schemas[|schemas| - 1].1.subcategory).Ok?
  {
    var init := schemas[..|schemas| - 1];
    assert forall i :: 0 <= i < |init| ==> init[i] == schemas[i];
  }

  /** The groups of the descriptors, in map order, repeats included. */
  function Groups(schemas: SchemaMap): (r: seq<string>)
    requires AllGrouped(schemas)
    ensures |r| == |schemas|
    ensures forall i :: 0 <= i < |schemas| ==> r[i] == GroupOf(schemas[i].1.subcategory).value
  {
    seq(|schemas|, i requires 0 <= i < |schemas| && AllGrouped(schemas) => GroupOf(schemas[i].1.subcategory).value)
  }

  /** The nicknames of the descriptors in group `g`, in map order. */
  function Members(schemas: SchemaMap, g: string): seq<string>
  {
    if |schemas| == 0 then []
    else
      var (_, spec) := schemas[|schemas| - 1];
      Members(schemas[..|schemas| - 1], g)
      + (if GroupOf(spec.subcategory) == Ok(g) then [spec.nickname] else [])
  }

  /** The node entry of one descriptor. */
  function EntryOf(key: string, spec: NodeSchema): NodeEntry {
    NodeEntry(key, spec.nickname)
  }

  /**
    The loop over the map: a node entry per descriptor, and each nickname appended to its
    group's list (`setdefault(group, []).append(nickname)`).
   */
  function Collect(schemas: SchemaMap): (r: Result<(seq<NodeEntry>, Dict<string, seq<string>>)>)
    ensures r.Ok? <==> AllGrouped(schemas)
    ensures r.Err? ==> r.error == IndexError
    ensures r.Ok? ==> |r.value.0| == |schemas|
    ensures r.Ok? ==> forall i :: 0 <= i < |schemas| ==> r.value.0[i] == EntryOf(schemas[i].0, schemas[i].1)
    ensures r.Ok? ==> DistinctKeys(r.value.1)
    ensures r.Ok? ==> TotalLength(r.value.1) == |schemas|
    decreases |schemas|
  {
    if |schemas| == 0 then Ok(([], []))
    else
      var init := schemas[..|schemas| - 1];
      var (key, spec) := schemas[|schemas| - 1];
      AllGroupedSnoc(schemas);
      var acc :- Collect(init);
      var g :- GroupOf(spec.subcategory);
      assert forall i :: 0 <= i < |init| ==> init[i] == schemas[i];
      Ok((acc.0 + [EntryOf(key, spec)], AppendTo(acc.1, g, spec.nickname)))
  }

  /** The groups appear in the order they are first seen. */
  lemma {:induction false} CollectKeys(schemas: SchemaMap)
    requires Collect(schemas).Ok?
    ensures AllGrouped(schemas) && Keys(Collect(schemas).value.1) == Dedup(Groups(schemas))
    decreases |schemas|
  {
    if |schemas| > 0 {
      var init := schemas[..|schemas| - 1];
      assert forall i :: 0 <= i < |init| ==> init[i] == schemas[i];
      CollectKeys(init);
      assert Groups(schemas)[..|schemas| - 1] == Groups(init);
    }
  }

  /** Each group's list holds the nicknames of that group's descriptors, in map order. */
  lemma {:induction false} CollectMembers(schemas: SchemaMap, g: string)
    requires Collect(schemas).Ok?
    ensures Get(Collect(schemas).value.1, g).GetOr([]) == Members(schemas, g)
    decreases |schemas|
  {
    if |schemas| > 0 {
      CollectMembers(schemas[..|schemas| - 1], g);
    }
  }

  /** `name.replace(' ', '_')`: the group name with spaces turned into underscores. */
  function GroupName(title: string): (r: string)
    ensures |r| == |title| && ' ' !in r
    ensures forall i :: 0 <= i < |title| ==> r[i] == (if title[i] == ' ' then '_' else title[i])
  {
    ReplaceCharByChar(title, ' ', '_');
    ContainsChar(title, ' ');
    ReplaceAll(title, " ", "_")
  }

  /** The subcategory entries, one per group, in the dict's order. */
  function SubcategoriesOf(groups: Dict<string, seq<string>>): (r: seq<Subcategory>)
    ensures |r| == |groups|
    ensures forall i :: 0 <= i < |groups| ==> r[i] == Subcategory(GroupName(groups[i].0), groups[i].0, groups[i].1)
  {
    seq(|groups|, i requires 0 <= i < |groups| => Subcategory(GroupName(groups[i].0), groups[i].0, groups[i].1))
  }

  /** The number of node names listed across the subcategories. */
  function NodeCount(subs: seq<Subcategory>): nat {
    if |subs| == 0 then 0 else |subs[0].nodes| + NodeCount(subs[1..])
  }

  lemma {:induction false} NodeCountIsTotalLength(groups: Dict<string, seq<string>>)
    ensures NodeCount(SubcategoriesOf(groups)) == TotalLength(groups)
  {
    if |groups| > 0 {
      NodeCountIsTotalLength(groups[1..]);
      assert SubcategoriesOf(groups)[1..] == SubcategoriesOf(groups[1..]);
    }
  }

  /** `os.path.join(build_path, '__init__.py')`. */
  function IndexPath(buildPath: string): (r: string)
    ensures |buildPath| > 0 && buildPath[|buildPath| - 1] == Sep ==> r == buildPath + "__init__.py"
  {
    PathJoin(buildPath, "__init__.py")
  }

  /**
    `generate()`: the index context and where it is written. Collecting the data can fail on
    a subcategory without a group; opening the file fails when the build directory is missing.
   */
  function Generate(buildPath: string, buildExists: bool, schemas: SchemaMap): (r: Result<InitFile>)
    ensures r.Ok? <==> AllGrouped(schemas) && buildExists
    ensures !AllGrouped(schemas) ==> r == Err(IndexError)
    ensures AllGrouped(schemas) && !buildExists ==> r == Err(FileNotFoundError(IndexPath(buildPath)))
    ensures r.Ok? ==> r.value.path == IndexPath(buildPath)
    ensures r.Ok? ==> |r.value.context.nodes| == |schemas|
    ensures r.Ok? ==> forall i :: 0 <= i < |schemas| ==>
      r.value.context.nodes[i] == NodeEntry(schemas[i].0, schemas[i].1.nickname)
    ensures r.Ok? ==> |r.value.context.subcategories| == |Dedup(Groups(schemas))|
    ensures r.Ok? ==> forall i :: 0 <= i < |r.value.context.subcategories| ==>
      var sub := r.value.context.subcategories[i];
      sub.title == Dedup(Groups(schemas))[i] && sub.name == GroupName(sub.title) && sub.nodes == Members(schemas, sub.title)
    ensures r.Ok? ==> NodeCount(r.value.context.subcategories) == |schemas|
  {
    var (nodes, groups) :- Collect(schemas);
    if !buildExists then Err(FileNotFoundError(IndexPath(buildPath)))
    else
      NodeCountIsTotalLength(groups);
      SubcategoriesMatch(schemas);
      Ok(InitFile(IndexPath(buildPath), InitContext(nodes, SubcategoriesOf(groups))))
  }

  /** Entry `i` of the subcategories is the `i`-th group first seen, with its members. */
  lemma SubcategoriesMatch(schemas: SchemaMap)
    requires Collect(schemas).Ok?
    ensures var subs := SubcategoriesOf(Collect(schemas).value.1);
      AllGrouped(schemas) && |subs| == |Dedup(Groups(schemas))| &&
      forall i :: 0 <= i < |subs| ==>
        subs[i].title == Dedup(Groups(schemas))[i] && subs[i].name == GroupName(subs[i].title)
        && subs[i].nodes == Members(schemas, subs[i].title)
  {
    var groups := Collect(schemas).value.1;
    CollectKeys(schemas);
    forall i | 0 <= i < |groups|
      ensures groups[i].0 == Dedup(Groups(schemas))[i] && groups[i].1 == Members(schemas, groups[i].0)
    {
      KeysAt(groups, i);
      GetAt(groups, i);
      CollectMembers(schemas, groups[i].0);
    }
  }

  /** A descriptor's nickname is listed in its own group. */
  lemma {:induction false} ListedInOwnGroup(schemas: SchemaMap, i: nat)
    requires i < |schemas| && GroupOf(schemas[i].1.subcategory).Ok?
    ensures schemas[i].1.nickname in Members(schemas, GroupOf(schemas[i].1.subcategory).value)
    decreases |schemas|
  {
    if i < |schemas| - 1 {
      var init := schemas[..|schemas| - 1];
      assert init[i] == schemas[i];
      ListedInOwnGroup(init, i);
    }
  }

  /** Rendering the index from an empty map lists no nodes and no groups. */
  lemma EmptyIndex(buildPath: string)
    ensures Generate(buildPath, true, []) == Ok(InitFile(IndexPath(buildPath), InitContext([], [])))
  {
  }
}

=== FILE: generate_nodes.dfy ===
/**
  The node generator: for every loaded descriptor whose key holds no denylist marker it
  derives the template context of one Blender node and writes
  `<build_path>nodes/ladybug/<key>.py`. Deriving the context also rewrites the
  descriptor in place (outputs unwrapped, code re-indented and rendered, texts escaped),
  which the model returns as the updated descriptor.
 */
module GenerateNodes {
  import opened Wrappers
  import opened Text
  import opened OrderedDict
  import opened Paths
  import opened Mustache
  import opened Schema

  /** The values substituted for the `{{name}}` tags of the embedded code. */
  const CodeTable: Dict<string, string> := [
    ("cad", "tools"),
    ("Cad", "Blender Ladybug"),
    ("plugin", "sverchok"),
    ("Plugin", ""),
    ("PLGN", ""),
    ("Package_Manager", "")
  ]

  /** The value of one code tag; an unknown tag renders empty, as in pystache. */
  function CodeValue(name: string): string {
    Get(CodeTable, name).GetOr("")
  }

  const Indent: string := "        "

  /** Every line break of the embedded code is followed by eight spaces. */
  function Reindent(code: string): (r: string)
    ensures '\n' !in code ==> r == code
  {
    ContainsChar(code, '\n');
    ReplaceAll(code, "\n", "\n" + Indent)
  }

  /** Removes the eight spaces `Reindent` put after each line break. */
  function Dedent(code: string): string {
    ReplaceAll(code, "\n" + Indent, "\n")
  }

  /** Re-indenting loses nothing: removing the added indentation gives back the code. */
  lemma {:induction false} DedentReindent(code: string)
    ensures Dedent(Reindent(code)) == code
    decreases |code|
  {
    if |code| > 0 {
      var rest := ReplaceAll(code[1..], "\n", "\n" + Indent);
      DedentReindent(code[1..]);
      StartsWithChar(code, '\n');
      if code[0] == '\n' {
        assert Reindent(code) == "\n" + Indent + rest;
        assert (("\n" + Indent) + rest)[|"\n" + Indent|..] == rest;
      } else {
        assert Reindent(code) == [code[0]] + rest;
        NotStartsWithAt([code[0]] + rest, "\n" + Indent, 0);
        assert ([code[0]] + rest)[1..] == rest;
      }
    }
  }

  /** `pystache.render(code.replace('\n', '\n' + ' ' * 8), code_data)`. */
  function RenderCode(code: string): (r: string)
    ensures '{' !in code ==> r == Reindent(code)
  {
    assert '{' !in code ==> Render(Reindent(code), CodeValue) == Reindent(code) by {
      if '{' !in code {
        ReplaceKeepsAbsent(code, "\n", "\n" + Indent, '{');
        NoFirstCharNoFind(Reindent(code), "{{");
        NoTagsRenderVerbatim(Reindent(code), CodeValue);
      }
    }
    Render(Reindent(code), CodeValue)
  }

  /**
    A `{{name}}` tag with no `{` before it is replaced by the table's value for `name`:
    the code before it is re-indented, and the code after it is rendered on its own, so
    code with several tags on several lines renders tag by tag.
   */
  lemma {:induction false} RenderCodeSubstitutesTag(x: string, name: string, y: string)
    requires '{' !in x && '}' !in name && '\n' !in name && |name| > 0
    ensures RenderCode(x + "{{" + name + "}}" + y) == Reindent(x) + CodeValue(name) + RenderCode(y)
  {
    var rx, ry := Reindent(x), Reindent(y);
    ReindentAroundTag(x, name, y);
    ReplaceKeepsAbsent(x, "\n", "\n" + Indent, '{');
    RenderFirstTag(rx, name, ry, CodeValue);
  }

  /** Re-indenting code with a one-line tag re-indents the code on each side of it. */
  lemma {:induction false} ReindentAroundTag(x: string, name: string, y: string)
    requires '\n' !in name
    ensures Reindent(x + "{{" + name + "}}" + y) == Reindent(x) + "{{" + name + "}}" + Reindent(y)
  {
    var open, close := "{{", "}}";
    ReindentAppend(x + open + name + close, y);
    ReindentAppend(x + open + name, close);
    ReindentAppend(x + open, name);
    ReindentAppend(x, open);
    assert Reindent(open) == open && Reindent(close) == close && Reindent(name) == name;
  }

  /** In one-line code with no other `{`, the text around the tag is kept as it is. */
  lemma {:induction false} RenderCodeOneLineTag(x: string, name: string, y: string)
    requires '\n' !in x && '\n' !in name && '\n' !in y
    requires '{' !in x && '{' !in y && '}' !in name && |name| > 0
    ensures RenderCode(x + "{{" + name + "}}" + y) == x + CodeValue(name) + y
  {
    RenderCodeSubstitutesTag(x, name, y);
  }

  /** Re-indenting a concatenation re-indents each part. */
  lemma {:induction false} ReindentAppend(a: string, b: string)
    ensures Reindent(a + b) == Reindent(a) + Reindent(b)
  {
    ReplaceCharAppend(a, b, '\n', "\n" + Indent);
  }

  /** The table's six entries, looked up by tag name. */
  lemma CodeValues()
    ensures CodeValue("cad") == "tools" && CodeValue("Cad") == "Blender Ladybug"
    ensures CodeValue("plugin") == "sverchok"
    ensures CodeValue("Plugin") == "" && CodeValue("PLGN") == "" && CodeValue("Package_Manager") == ""
  {
  }

  /** `"'{}'".format(x)`. */
  function Quote(x: string): string { "'" + x + "'" }

  /** `["'{}'".format(x) for x in xs]`. */
  function Quoted(xs: seq<string>): seq<string> {
    seq(|xs|, i requires 0 <= i < |xs| => Quote(xs[i]))
  }

  /** `', '.join(["'{}'".format(x) for x in xs])`. */
  function QuotedList(xs: seq<string>): string {
    Join(Quoted(xs), ", ")
  }

  /** Splitting a quoted list at `", "` gives back the quoted items, in order. */
  lemma QuotedListSplits(xs: seq<string>)
    requires |xs| > 0
    requires forall i :: 0 <= i < |xs| ==> ',' !in xs[i]
    ensures Split(QuotedList(xs), ", ") == Quoted(xs)
  {
    var qs := Quoted(xs);
    forall k | 0 <= k < |qs|
      ensures (", ")[0] !in qs[k]
    {
      assert qs[k] == "'" + xs[k] + "'";
    }
    SplitJoin(qs, ", ");
  }

  /** The boolean fix-up as one rule per default: JSON's quoted booleans become Python's. */
  function FixDefault(d: string): string {
    if d == "'true'" then "True" else if d == "'false'" then "False" else d
  }

  /** The boolean fix-up brings in no comma. */
  lemma FixDefaultCommaFree(d: string)
    requires ',' !in d
    ensures (", ")[0] !in FixDefault(d)
  {
    var t, f := "True", "False";
    assert t == ['T', 'r', 'u', 'e'] && f == ['F', 'a', 'l', 's', 'e'];
  }

  /** The two list comprehensions over the reprs of the defaults: first `'true'`, then `'false'`. */
  function FixBooleans(defaults: seq<string>): (r: seq<string>)
    ensures |r| == |defaults|
    ensures forall i :: 0 <= i < |r| ==> r[i] == FixDefault(defaults[i])
    ensures forall i :: 0 <= i < |r| ==> r[i] != "'true'" && r[i] != "'false'"
  {
    var pass1 := seq(|defaults|, i requires 0 <= i < |defaults| => if defaults[i] == "'true'" then "True" else defaults[i]);
    seq(|pass1|, i requires 0 <= i < |pass1| => if pass1[i] == "'false'" then "False" else pass1[i])
  }

  /** `.replace('\n', ' ').replace("'", "\\'")`. */
  function Escape(s: string): (r: string)
    ensures '\n' !in r
    ensures '\'' !in s && '\n' !in s ==> r == s
  {
    var flat := ReplaceAll(s, "\n", " ");
    ReplaceKeepsAbsent(flat, "'", "\\'", '\n');
    ContainsChar(s, '\n');
    ContainsChar(flat, '\'');
    ReplaceAll(flat, "'", "\\'")
  }

  /** Removes the backslashes `Escape` put before quotes. */
  function Unescape(s: string): string {
    ReplaceAll(s, "\\'", "'")
  }

  /** Escaping loses only the line breaks: un-escaping gives the text with breaks as spaces. */
  lemma EscapeRoundTrip(s: string)
    ensures Unescape(Escape(s)) == ReplaceAll(s, "\n", " ")
  {
    QuoteRoundTrip(ReplaceAll(s, "\n", " "));
  }

  lemma {:induction false} QuoteRoundTrip(s: string)
    ensures ReplaceAll(ReplaceAll(s, "'", "\\'"), "\\'", "'") == s
    decreases |s|
  {
    if |s| > 0 {
      var q, e := "'", "\\'";
      var rest := ReplaceAll(s[1..], q, e);
      QuoteRoundTrip(s[1..]);
      StartsWithChar(s, '\'');
      assert s == [s[0]] + s[1..];
      if s[0] == '\'' {
        ReplaceHit(s, q, e);
        var t := e + rest;
        assert t[..|e|] == e && t[|e|..] == rest;
        ReplaceHit(t, e, q);
      } else {
        ReplaceMiss(s, q, e);
        var t := [s[0]] + rest;
        EscapedNoLeadingQuote(s[1..]);
        if s[0] == '\\' {
          if |rest| > 0 { NotStartsWithAt(t, e, 1); }
        } else {
          NotStartsWithAt(t, e, 0);
        }
        assert t[1..] == rest;
        ReplaceMiss(t, e, q);
      }
    }
  }

  /** An escaped text never starts with a bare quote. */
  lemma EscapedNoLeadingQuote(s: string)
    ensures |ReplaceAll(s, "'", "\\'")| > 0 ==> ReplaceAll(s, "'", "\\'")[0] != '\''
  {
    if |s| > 0 {
      StartsWithChar(s, '\'');
    }
  }

  /** The fields the node template reads, as `generate_node` leaves them in the descriptor. */
  datatype NodeContext = NodeContext(
    nickname: string,
    nicknameUppercase: string,
    subcategory: string,
    description: string,
    code: string,
    inputs: seq<Input>,
    outputs: seq<Output>,
    inputNameList: string,
    inputNameUnquotedList: string,
    inputTypeList: string,
    inputDefaultList: string,
    inputAccessList: string,
    outputNameList: string)

  function InputNames(inputs: seq<Input>): seq<string> { seq(|inputs|, i requires 0 <= i < |inputs| => inputs[i].name) }

  function InputTypes(inputs: seq<Input>): seq<string> { seq(|inputs|, i requires 0 <= i < |inputs| => inputs[i].typeName) }

  function InputDefaults(inputs: seq<Input>): seq<string> { seq(|inputs|, i requires 0 <= i < |inputs| => inputs[i].defaultRepr) }

  function InputAccess(inputs: seq<Input>): seq<string> { seq(|inputs|, i requires 0 <= i < |inputs| => inputs[i].access) }

  function OutputNames(outputs: seq<Output>): seq<string> { seq(|outputs|, i requires 0 <= i < |outputs| => outputs[i].name) }

  /** `spec['outputs'] = spec['outputs'][0]`: one level of nesting is removed. */
  function UnwrapOutputs(outputs: Outputs): (r: Result<seq<Output>>)
    ensures r.Ok? <==> outputs.Nested? && |outputs.lists| > 0
    ensures r.Ok? ==> r.value == outputs.lists[0]
    ensures outputs.Unwrapped? && |outputs.items| > 0 ==> r == Err(TypeError)
    ensures (outputs.Nested? && |outputs.lists| == 0) || (outputs.Unwrapped? && |outputs.items| == 0) ==> r == Err(IndexError)
  {
    match outputs
    case Nested(lists) => if |lists| == 0 then Err(IndexError) else Ok(lists[0])
    // `outputs[0]` of an unwrapped list is one output's dict; iterating it yields
    // its keys, and `o['name']` on a key string raises TypeError.
    case Unwrapped(items) => if |items| == 0 then Err(IndexError) else Err(TypeError)
  }

  function EscapeInput(x: Input): Input { x.(description := Escape(x.description)) }

  function EscapeOutput(o: Output): Output { o.(description := Escape(o.description)) }

  /** The inputs with each description escaped; names and order are kept. */
  function EscapeInputs(ins: seq<Input>): (r: seq<Input>)
    ensures |r| == |ins| && InputNames(r) == InputNames(ins)
    ensures forall i :: 0 <= i < |ins| ==> r[i] == ins[i].(description := Escape(ins[i].description))
    ensures forall i :: 0 <= i < |ins| ==> '\n' !in r[i].description
  {
    var r := seq(|ins|, i requires 0 <= i < |ins| => EscapeInput(ins[i]));
    assert InputNames(r) == InputNames(ins);
    r
  }

  /** The outputs with each description escaped; names and order are kept. */
  function EscapeOutputs(outs: seq<Output>): (r: seq<Output>)
    ensures |r| == |outs| && OutputNames(r) == OutputNames(outs)
    ensures forall i :: 0 <= i < |outs| ==> r[i] == outs[i].(description := Escape(outs[i].description))
    ensures forall i :: 0 <= i < |outs| ==> '\n' !in r[i].description
  {
    var r := seq(|outs|, i requires 0 <= i < |outs| => EscapeOutput(outs[i]));
    assert OutputNames(r) == OutputNames(outs);
    r
  }

  /** The context derived from a descriptor once its outputs are unwrapped. */
  function ContextOf(spec: NodeSchema, outs: seq<Output>): (r: NodeContext)
    ensures |r.outputs| == |outs| && OutputNames(r.outputs) == OutputNames(outs)
    ensures |r.inputs| == |spec.inputs| && InputNames(r.inputs) == InputNames(spec.inputs)
    ensures forall i :: 0 <= i < |outs| ==> '\n' !in r.outputs[i].description
    ensures forall i :: 0 <= i < |spec.inputs| ==> '\n' !in r.inputs[i].description
    ensures '+' !in r.nickname && r.nicknameUppercase == Upper(r.nickname)
    ensures '+' !in spec.nickname ==> r.nickname == spec.nickname
    ensures '\n' !in r.description
    ensures r.subcategory == spec.subcategory
    ensures r.nickname == SanitizeNickname(spec.nickname)
    ensures r.description == Escape(spec.description) && r.code == RenderCode(spec.code)
    ensures forall i :: 0 <= i < |spec.inputs| ==> r.inputs[i] == spec.inputs[i].(description := Escape(spec.inputs[i].description))
    ensures forall i :: 0 <= i < |outs| ==> r.outputs[i] == outs[i].(description := Escape(outs[i].description))
    ensures r.inputNameList == QuotedList(InputNames(spec.inputs))
    ensures r.inputNameUnquotedList == Join(InputNames(spec.inputs), ", ")
    ensures r.inputTypeList == QuotedList(InputTypes(spec.inputs))
    ensures r.inputDefaultList == Join(FixBooleans(InputDefaults(spec.inputs)), ", ")
    ensures r.inputAccessList == QuotedList(InputAccess(spec.inputs))
    ensures r.outputNameList == QuotedList(OutputNames(outs))
  {
    var nickname := SanitizeNickname(spec.nickname);
    NodeContext(
      nickname,
      Upper(nickname),
      spec.subcategory,
      Escape(spec.description),
      RenderCode(spec.code),
      EscapeInputs(spec.inputs),
      EscapeOutputs(outs),
      QuotedList(InputNames(spec.inputs)),
      Join(InputNames(spec.inputs), ", "),
      QuotedList(InputTypes(spec.inputs)),
      Join(FixBooleans(InputDefaults(spec.inputs)), ", "),
      QuotedList(InputAccess(spec.inputs)),
      QuotedList(OutputNames(outs)))
  }

  /** True when no item of `xs` holds a comma. */
  predicate CommaFree(xs: seq<string>) {
    forall i :: 0 <= i < |xs| ==> ',' !in xs[i]
  }

  /**
    Every list of the context splits back at `", "` into its items in input (or output)
    order, quoted where the source quotes them and with the boolean fix-up on defaults,
    as long as there is an item and no item holds a comma. A descriptor without inputs
    (or outputs) gets empty lists.
   */
  lemma {:induction false} ContextListsSplit(spec: NodeSchema, outs: seq<Output>)
    ensures var ctx := ContextOf(spec, outs);
      |spec.inputs| == 0 ==>
        ctx.inputNameList == "" && ctx.inputNameUnquotedList == "" && ctx.inputTypeList == "" &&
        ctx.inputDefaultList == "" && ctx.inputAccessList == ""
    ensures |outs| == 0 ==> ContextOf(spec, outs).outputNameList == ""
    ensures |spec.inputs| > 0 && CommaFree(InputNames(spec.inputs)) ==>
      Split(ContextOf(spec, outs).inputNameList, ", ") == Quoted(InputNames(spec.inputs)) &&
      Split(ContextOf(spec, outs).inputNameUnquotedList, ", ") == InputNames(spec.inputs)
    ensures |spec.inputs| > 0 && CommaFree(InputTypes(spec.inputs)) ==>
      Split(ContextOf(spec, outs).inputTypeList, ", ") == Quoted(InputTypes(spec.inputs))
    ensures |spec.inputs| > 0 && CommaFree(InputDefaults(spec.inputs)) ==>
      Split(ContextOf(spec, outs).inputDefaultList, ", ") == FixBooleans(InputDefaults(spec.inputs))
    ensures |spec.inputs| > 0 && CommaFree(InputAccess(spec.inputs)) ==>
      Split(ContextOf(spec, outs).inputAccessList, ", ") == Quoted(InputAccess(spec.inputs))
    ensures |outs| > 0 && CommaFree(OutputNames(outs)) ==>
      Split(ContextOf(spec, outs).outputNameList, ", ") == Quoted(OutputNames(outs))
  {
    var ins, ctx := spec.inputs, ContextOf(spec, outs);
    if |ins| > 0 {
      if CommaFree(InputNames(ins)) {
        assert Split(ctx.inputNameList, ", ") == Quoted(InputNames(ins)) by {
          QuotedListSplits(InputNames(ins));
        }
        assert Split(ctx.inputNameUnquotedList, ", ") == InputNames(ins) by {
          SplitJoin(InputNames(ins), ", ");
        }
      }
      if CommaFree(InputTypes(ins)) {
        assert Split(ctx.inputTypeList, ", ") == Quoted(InputTypes(ins)) by {
          QuotedListSplits(InputTypes(ins));
        }
      }
      if CommaFree(InputAccess(ins)) {
        assert Split(ctx.inputAccessList, ", ") == Quoted(InputAccess(ins)) by {
          QuotedListSplits(InputAccess(ins));
        }
      }
      if CommaFree(InputDefaults(ins)) {
        var fixed := FixBooleans(InputDefaults(ins));
        assert Split(ctx.inputDefaultList, ", ") == fixed by {
          forall k | 0 <= k < |fixed| ensures (", ")[0] !in fixed[k] {
            FixDefaultCommaFree(InputDefaults(ins)[k]);
          }
          SplitJoin(fixed, ", ");
        }
      }
    }
    if |outs| > 0 && CommaFree(OutputNames(outs)) {
      assert Split(ctx.outputNameList, ", ") == Quoted(OutputNames(outs)) by {
        QuotedListSplits(OutputNames(outs));
      }
    }
  }

  /** The descriptor as `generate_node` leaves it: every field it reassigns, reassigned. */
  function Rewritten(ctx: NodeContext): (r: NodeSchema)
    ensures r.outputs.Unwrapped? && r.outputs.items == ctx.outputs
  {
    NodeSchema(ctx.nickname, ctx.subcategory, ctx.description, ctx.code, ctx.inputs, Unwrapped(ctx.outputs))
  }

  /**
    `generate_node(filename, spec)`: the template context, and the descriptor as the
    call leaves it (it is mutated in place).
   */
  function GenerateNode(spec: NodeSchema): (r: Result<(NodeContext, NodeSchema)>)
    ensures r.Ok? <==> Generates(spec)
    ensures r.Err? ==> r.error == UnwrapOutputs(spec.outputs).error
    ensures r.Ok? ==> r.value == (ContextOf(spec, spec.outputs.lists[0]), Rewritten(ContextOf(spec, spec.outputs.lists[0])))
  {
    var outs :- UnwrapOutputs(spec.outputs);
    var ctx := ContextOf(spec, outs);
    Ok((ctx, Rewritten(ctx)))
  }

  /**
    The descriptor is mutated in place, so generating a node a second time from the
    same map does not repeat the first result: the outputs are unwrapped again and fail.
   */
  lemma GenerateNodeTwiceFails(spec: NodeSchema)
    requires GenerateNode(spec).Ok?
    ensures GenerateNode(GenerateNode(spec).value.1).Err?
    ensures |spec.outputs.lists[0]| > 0 ==> GenerateNode(GenerateNode(spec).value.1).error == TypeError
    ensures |spec.outputs.lists[0]| == 0 ==> GenerateNode(GenerateNode(spec).value.1).error == IndexError
  {
  }

  /** `filename[0:-5]` under Python slicing. */
  function ModuleName(filename: string): (r: string)
    ensures |filename| >= 5 ==> filename == r + filename[|filename| - 5..]
  {
    if |filename| >= 5 then filename[..|filename| - 5] else ""
  }

  /** The module name of `<key>.json` is the key again. */
  lemma ModuleNameOfKey(key: string)
    ensures ModuleName(key + ".json") == key
  {
    assert (key + ".json")[..|key|] == key;
  }

  /** `self.out_dir`. */
  function OutDir(buildPath: string): string { buildPath + "nodes" + [Sep] + "ladybug" }

  /** `os.path.join(self.out_dir, module_name + '.py')` for the file `<key>.json`. */
  function NodePath(buildPath: string, key: string): (r: string)
    ensures Sep !in key ==> r == OutDir(buildPath) + [Sep] + key + ".py"
    ensures Sep !in key ==> Basename(r) == key + ".py"
  {
    ModuleNameOfKey(key);
    var name := ModuleName(key + ".json") + ".py";
    assert Sep !in key ==> Basename(PathJoin(OutDir(buildPath), name)) == name by {
      if Sep !in key {
        BasenameOfJoin(OutDir(buildPath), name);
      }
    }
    PathJoin(OutDir(buildPath), name)
  }

  /** One written node module: where it goes and the context it is rendered from. */
  datatype NodeFile = NodeFile(path: string, context: NodeContext)

  /** The positions of the entries that get a node module, in increasing order. */
  function NodeIndexes(schemas: SchemaMap): (r: seq<nat>)
    ensures forall a, b :: 0 <= a < b < |r| ==> r[a] < r[b]
    ensures forall k :: 0 <= k < |r| ==> r[k] < |schemas| && !IsExcluded(schemas[r[k]].0)
    ensures forall i :: 0 <= i < |schemas| && !IsExcluded(schemas[i].0) ==> i in r
  {
    if |schemas| == 0 then []
    else
      var n := |schemas| - 1;
      var init := NodeIndexes(schemas[..n]);
      assert forall i :: 0 <= i < n ==> schemas[..n][i] == schemas[i];
      if IsExcluded(schemas[n].0) then init else init + [n]
  }

  /** Unfolds `NodeIndexes` by its last entry. */
  lemma NodeIndexesSnoc(schemas: SchemaMap)
    requires |schemas| > 0
    ensures var n := |schemas| - 1;
      NodeIndexes(schemas) == if IsExcluded(schemas[n].0) then NodeIndexes(schemas[..n]) else NodeIndexes(schemas[..n]) + [n]
  {
  }

  /**
    The keys that get a node module: those without a denylist marker, in map order (the
    key of every such entry, picked out at increasing positions).
   */
  function NodeKeys(schemas: SchemaMap): (r: seq<string>)
    ensures forall k :: k in r <==> k in Keys(schemas) && !IsExcluded(k)
    ensures |r| == |NodeIndexes(schemas)|
    ensures forall k :: 0 <= k < |r| ==> r[k] == schemas[NodeIndexes(schemas)[k]].0
  {
    if |schemas| == 0 then []
    else
      var n := |schemas| - 1;
      var init := NodeKeys(schemas[..n]);
      var k := schemas[n].0;
      assert Keys(schemas) == Keys(schemas[..n]) + [k] by {
        KeysSnoc(schemas);
      }
      assert forall i :: 0 <= i < n ==> schemas[..n][i] == schemas[i];
      if IsExcluded(k) then init else init + [k]
  }

  /** The keys of a dict end with the key of its last entry. */
  lemma {:induction false} KeysSnoc<K, V>(d: Dict<K, V>)
    requires |d| > 0
    ensures Keys(d) == Keys(d[..|d| - 1]) + [d[|d| - 1].0]
  {
    if |d| > 1 {
      KeysSnoc(d[1..]);
      assert d[1..][..|d[1..]| - 1] == d[..|d| - 1][1..];
    }
  }

  /** True when the descriptor's outputs are still wrapped and hold a first list. */
  predicate Generates(spec: NodeSchema) {
    spec.outputs.Nested? && |spec.outputs.lists| > 0
  }

  /** True when every descriptor that gets a node can be generated. */
  predicate AllGenerate(schemas: SchemaMap) {
    forall i :: 0 <= i < |schemas| && !IsExcluded(schemas[i].0) ==> Generates(schemas[i].1)
  }

  /**
    `generate()`: one node module per key without a denylist marker, written in map order
    when the output directory exists. The first descriptor that fails aborts the run.
   */
  function GenerateAll(buildPath: string, outDirExists: bool, schemas: SchemaMap): (r: Result<(SchemaMap, seq<NodeFile>)>)
    ensures r.Ok? ==> |r.value.0| == |schemas|
    decreases |schemas|
  {
    if |schemas| == 0 then Ok(([], []))
    else
      var init := schemas[..|schemas| - 1];
      var (key, spec) := schemas[|schemas| - 1];
      var acc :- GenerateAll(buildPath, outDirExists, init);
      assert forall i :: 0 <= i < |init| ==> schemas[i] == init[i];
      var entry :- GenerateEntry(buildPath, outDirExists, key, spec);
      var written := if entry.1.Some? then [entry.1.value] else [];
      Ok((acc.0 + [(key, entry.0)], acc.1 + written))
  }

  /**
    One pass of the loop in `generate()`: a key with a denylist marker is skipped; any
    other descriptor is generated, then its module is written into the output directory.
    Gives the descriptor as it stands afterwards and the module written, if any.
   */
  function GenerateEntry(buildPath: string, outDirExists: bool, key: string, spec: NodeSchema): (r: Result<(NodeSchema, Option<NodeFile>)>)
    ensures IsExcluded(key) ==> r == Ok((spec, None))
    ensures !IsExcluded(key) ==> (r.Ok? <==> Generates(spec) && outDirExists)
    ensures !IsExcluded(key) && Generates(spec) && !outDirExists ==> r == Err(FileNotFoundError(NodePath(buildPath, key)))
    ensures !IsExcluded(key) && r.Ok? ==> r.value.1.Some? && r.value.1.value.path == NodePath(buildPath, key)
    ensures !IsExcluded(key) && r.Ok? ==>
      GenerateNode(spec).Ok? &&
      r.value == (GenerateNode(spec).value.1, Some(NodeFile(NodePath(buildPath, key), GenerateNode(spec).value.0)))
  {
    if IsExcluded(key) then Ok((spec, None))
    else
      var node :- GenerateNode(spec);
      if !outDirExists then Err(FileNotFoundError(NodePath(buildPath, key)))
      else Ok((node.1, Some(NodeFile(NodePath(buildPath, key), node.0))))
  }

  /** Unfolds `GenerateAll` by its last descriptor: the earlier results are kept as a prefix. */
  lemma GenerateAllStep(buildPath: string, outDirExists: bool, schemas: SchemaMap)
    requires |schemas| > 0 && GenerateAll(buildPath, outDirExists, schemas).Ok?
    ensures var init := schemas[..|schemas| - 1];
      var key := schemas[|schemas| - 1].0;
      var r := GenerateAll(buildPath, outDirExists, schemas).value;
      && GenerateAll(buildPath, outDirExists, init).Ok?
      && var prev := GenerateAll(buildPath, outDirExists, init).value;
      && r.0[..|init|] == prev.0
      && |prev.1| <= |r.1| && r.1[..|prev.1|] == prev.1
      && r.0[|init|].0 == key
      && (IsExcluded(key) ==> r.0[|init|] == schemas[|schemas| - 1] && r.1 == prev.1)
      && (!IsExcluded(key) ==> |r.1| == |prev.1| + 1 && r.1[|prev.1|].path == NodePath(buildPath, key))
      && (!IsExcluded(key) ==> var spec := schemas[|schemas| - 1].1;
           GenerateNode(spec).Ok? && r.1[|prev.1|].context == GenerateNode(spec).value.0 &&
           r.0[|init|].1 == GenerateNode(spec).value.1)
  {
  }

  /** The modules written for all descriptors extend those written for all but the last. */
  lemma GenerateAllModulesStep(buildPath: string, outDirExists: bool, schemas: SchemaMap)
    requires |schemas| > 0 && GenerateAll(buildPath, outDirExists, schemas).Ok?
    ensures var n := |schemas| - 1;
      var r := GenerateAll(buildPath, outDirExists, schemas).value.1;
      && GenerateAll(buildPath, outDirExists, schemas[..n]).Ok?
      && var prev := GenerateAll(buildPath, outDirExists, schemas[..n]).value.1;
      && (IsExcluded(schemas[n].0) ==> r == prev)
      && (!IsExcluded(schemas[n].0) ==>
            r == prev + [r[|prev|]] && r[|prev|].path == NodePath(buildPath, schemas[n].0) && GenerateNode(schemas[n].1).Ok? && r[|prev|].context == GenerateNode(schemas[n].1).value.0)
  {
    GenerateAllStep(buildPath, outDirExists, schemas);
  }

  /**
    Generation keeps every key in its place and writes one module per key without a
    marker: the i-th module written is the one for the i-th such key.
   */
  lemma {:induction false} GenerateAllShape(buildPath: string, outDirExists: bool, schemas: SchemaMap)
    requires GenerateAll(buildPath, outDirExists, schemas).Ok?
    ensures Keys(GenerateAll(buildPath, outDirExists, schemas).value.0) == Keys(schemas)
    ensures |GenerateAll(buildPath, outDirExists, schemas).value.1| == |NodeKeys(schemas)|
    ensures forall i :: 0 <= i < |NodeKeys(schemas)| ==>
      GenerateAll(buildPath, outDirExists, schemas).value.1[i].path == NodePath(buildPath, NodeKeys(schemas)[i])
    ensures forall i :: 0 <= i < |NodeKeys(schemas)| ==>
      var spec := schemas[NodeIndexes(schemas)[i]].1;
      GenerateNode(spec).Ok? && GenerateAll(buildPath, outDirExists, schemas).value.1[i].context == GenerateNode(spec).value.0
    decreases |schemas|
  {
    if |schemas| > 0 {
      var init := schemas[..|schemas| - 1];
      var key := schemas[|schemas| - 1].0;
      var r := GenerateAll(buildPath, outDirExists, schemas).value;
      GenerateAllStep(buildPath, outDirExists, schemas);
      GenerateAllShape(buildPath, outDirExists, init);
      var prev := GenerateAll(buildPath, outDirExists, init).value;
      KeysSnoc(schemas);
      KeysSnoc(r.0);
      assert r.0[..|r.0| - 1] == prev.0;
    }
    GenerateAllModules(buildPath, outDirExists, schemas);
  }

  /**
    The i-th module written goes to the path of, and is rendered from the descriptor of,
    the i-th key without a marker.
   */
  lemma GenerateAllModules(buildPath: string, outDirExists: bool, schemas: SchemaMap)
    requires GenerateAll(buildPath, outDirExists, schemas).Ok?
    ensures |GenerateAll(buildPath, outDirExists, schemas).value.1| == |NodeKeys(schemas)|
    ensures forall i :: 0 <= i < |NodeKeys(schemas)| ==>
      GenerateAll(buildPath, outDirExists, schemas).value.1[i].path == NodePath(buildPath, NodeKeys(schemas)[i])
    ensures forall i :: 0 <= i < |NodeKeys(schemas)| ==>
      var spec := schemas[NodeIndexes(schemas)[i]].1;
      GenerateNode(spec).Ok? && GenerateAll(buildPath, outDirExists, schemas).value.1[i].context == GenerateNode(spec).value.0
  {
    GenerateAllPaths(buildPath, outDirExists, schemas);
    GenerateAllContexts(buildPath, outDirExists, schemas);
  }

  /** The i-th module written goes to the path of the i-th key without a marker. */
  lemma {:induction false} GenerateAllPaths(buildPath: string, outDirExists: bool, schemas: SchemaMap)
    requires GenerateAll(buildPath, outDirExists, schemas).Ok?
    ensures |GenerateAll(buildPath, outDirExists, schemas).value.1| == |NodeIndexes(schemas)|
    ensures forall i :: 0 <= i < |NodeIndexes(schemas)| ==>
      GenerateAll(buildPath, outDirExists, schemas).value.1[i].path == NodePath(buildPath, schemas[NodeIndexes(schemas)[i]].0)
    decreases |schemas|
  {
    if |schemas| > 0 {
      var init := schemas[..|schemas| - 1];
      var r := GenerateAll(buildPath, outDirExists, schemas).value;
      GenerateAllModulesStep(buildPath, outDirExists, schemas);
      GenerateAllPaths(buildPath, outDirExists, init);
      var idx, prevIdx := NodeIndexes(schemas), NodeIndexes(init);
      NodeIndexesSnoc(schemas);
      forall i | 0 <= i < |idx|
        ensures r.1[i].path == NodePath(buildPath, schemas[idx[i]].0)
      {
        if i < |prevIdx| {
          assert schemas[idx[i]] == init[prevIdx[i]] by {
            assert idx[i] == prevIdx[i];
          }
        } else {
          assert schemas[idx[i]] == schemas[|schemas| - 1] by {
            assert idx[i] == |init|;
          }
        }
      }
    }
  }

  /** The i-th module written is rendered from the descriptor of the i-th key without a marker. */
  lemma {:induction false} GenerateAllContexts(buildPath: string, outDirExists: bool, schemas: SchemaMap)
    requires GenerateAll(buildPath, outDirExists, schemas).Ok?
    ensures |GenerateAll(buildPath, outDirExists, schemas).value.1| == |NodeIndexes(schemas)|
    ensures forall i :: 0 <= i < |NodeIndexes(schemas)| ==>
      var spec := schemas[NodeIndexes(schemas)[i]].1;
      GenerateNode(spec).Ok? && GenerateAll(buildPath, outDirExists, schemas).value.1[i].context == GenerateNode(spec).value.0
    decreases |schemas|
  {
    if |schemas| > 0 {
      var init := schemas[..|schemas| - 1];
      var r := GenerateAll(buildPath, outDirExists, schemas).value;
      GenerateAllModulesStep(buildPath, outDirExists, schemas);
      GenerateAllContexts(buildPath, outDirExists, init);
      var idx, prevIdx := NodeIndexes(schemas), NodeIndexes(init);
      NodeIndexesSnoc(schemas);
      forall i | 0 <= i < |idx|
        ensures GenerateNode(schemas[idx[i]].1).Ok? && r.1[i].context == GenerateNode(schemas[idx[i]].1).value.0
      {
        if i < |prevIdx| {
          assert schemas[idx[i]] == init[prevIdx[i]] by {
            assert idx[i] == prevIdx[i];
          }
        } else {
          assert schemas[idx[i]] == schemas[|schemas| - 1] by {
            assert idx[i] == |init|;
          }
        }
      }
    }
  }

  /** Every other descriptor is left as generating its node rewrites it. */
  lemma {:induction false} GeneratedRewritten(buildPath: string, outDirExists: bool, schemas: SchemaMap, i: nat)
    requires GenerateAll(buildPath, outDirExists, schemas).Ok?
    requires i < |schemas| && !IsExcluded(schemas[i].0)
    ensures GenerateNode(schemas[i].1).Ok?
    ensures GenerateAll(buildPath, outDirExists, schemas).value.0[i] == (schemas[i].0, GenerateNode(schemas[i].1).value.1)
    decreases |schemas|
  {
    var init := schemas[..|schemas| - 1];
    var r := GenerateAll(buildPath, outDirExists, schemas).value.0;
    GenerateAllStep(buildPath, outDirExists, schemas);
    if i < |init| {
      var prev := GenerateAll(buildPath, outDirExists, init).value.0;
      assert init[i] == schemas[i];
      GeneratedRewritten(buildPath, outDirExists, init, i);
      assert r[i] == r[..|init|][i] == prev[i];
    }
  }

  /** A descriptor whose key holds a denylist marker is left exactly as it was. */
  lemma {:induction false} ExcludedUntouched(buildPath: string, outDirExists: bool, schemas: SchemaMap, i: nat)
    requires GenerateAll(buildPath, outDirExists, schemas).Ok?
    requires i < |schemas| && IsExcluded(schemas[i].0)
    ensures GenerateAll(buildPath, outDirExists, schemas).value.0[i] == schemas[i]
    decreases |schemas|
  {
    var init := schemas[..|schemas| - 1];
    var r := GenerateAll(buildPath, outDirExists, schemas).value.0;
    GenerateAllStep(buildPath, outDirExists, schemas);
    if i < |init| {
      var prev := GenerateAll(buildPath, outDirExists, init).value.0;
      assert init[i] == schemas[i];
      ExcludedUntouched(buildPath, outDirExists, init, i);
      assert r[i] == r[..|init|][i] == prev[i];
    } else {
      assert i == |init|;
      assert r[|init|] == schemas[|schemas| - 1];
    }
  }

  /** One descriptor that should get a node but cannot be generated makes the whole run fail. */
  lemma {:induction false} UngeneratableFails(buildPath: string, outDirExists: bool, schemas: SchemaMap, i: nat)
    requires i < |schemas| && !IsExcluded(schemas[i].0) && !Generates(schemas[i].1)
    ensures GenerateAll(buildPath, outDirExists, schemas).Err?
    decreases |schemas|
  {
    if i < |schemas| - 1 {
      var init := schemas[..|schemas| - 1];
      assert init[i] == schemas[i];
      UngeneratableFails(buildPath, outDirExists, init, i);
    }
  }

  /** With the output directory present, every generatable map is generated. */
  lemma {:induction false} GenerateAllSucceeds(buildPath: string, schemas: SchemaMap)
    requires AllGenerate(schemas)
    ensures GenerateAll(buildPath, true, schemas).Ok?
    decreases |schemas|
  {
    if |schemas| > 0 {
      var init := schemas[..|schemas| - 1];
      assert AllGenerate(init) by {
        forall i | 0 <= i < |init| && !IsExcluded(init[i].0)
          ensures Generates(init[i].1)
        {
          assert init[i] == schemas[i];
        }
      }
      GenerateAllSucceeds(buildPath, init);
    }
  }

  /** Without the output directory, any node to write makes the run fail. */
  lemma {:induction false} MissingOutDirFails(buildPath: string, schemas: SchemaMap)
    requires |NodeKeys(schemas)| > 0
    ensures GenerateAll(buildPath, false, schemas).Err?
  {
    var r := GenerateAll(buildPath, false, schemas);
    if r.Ok? {
      GenerateAllShape(buildPath, false, schemas);
      WritesNeedOutDir(buildPath, schemas);
    }
  }

  lemma {:induction false} WritesNeedOutDir(buildPath: string, schemas: SchemaMap)
    ensures GenerateAll(buildPath, false, schemas).Ok? ==> |GenerateAll(buildPath, false, schemas).value.1| == 0
    decreases |schemas|
  {
    if |schemas| > 0 {
      WritesNeedOutDir(buildPath, schemas[..|schemas| - 1]);
    }
  }
}

=== FILE: intersect.dfy ===
/**
  The scheduling logic of the intersection helpers: how points, lines and solids are
  split into contiguous groups to match a CPU count, the order in which each index is
  processed, the matrix the per-index work fills in, and the pairs of solids visited.
  The geometry itself (ray casts, line and Brep intersections, bounding-box overlap) is
  a parameter: a predicate on indexes.
 */
module Intersect {
  import opened Wrappers

  /** `for_each(iterable, fn)`: calls `fn` on each item in order; here `fn` updates a state. */
  function ForEach<S, T>(items: seq<T>, fn: (S, T) -> S, s: S): S
    decreases |items|
  {
    if |items| == 0 then s else ForEach(items[1..], fn, fn(s, items[0]))
  }

  /** Running over two lists one after the other is running over their concatenation. */
  lemma {:induction false} ForEachAppend<S, T>(a: seq<T>, b: seq<T>, fn: (S, T) -> S, s: S)
    ensures ForEach(a + b, fn, s) == ForEach(b, fn, ForEach(a, fn, s))
    decreases |a|
  {
    if |a| > 0 {
      assert (a + b)[0] == a[0] && (a + b)[1..] == a[1..] + b;
      ForEachAppend(a[1..], b, fn, fn(s, a[0]));
    } else {
      assert a + b == b;
    }
  }

  /** Recording the items seen yields the items in their order: each is handled once, in turn. */
  lemma {:induction false} ForEachIsSequential<T>(items: seq<T>, seen: seq<T>)
    ensures ForEach(items, (acc: seq<T>, x: T) => acc + [x], seen) == seen + items
    decreases |items|
  {
    if |items| > 0 {
      ForEachIsSequential(items[1..], seen + [items[0]]);
      assert seen + [items[0]] + items[1..] == seen + items;
    }
  }

  /** `range(n)`. */
  function Range(n: nat): (r: seq<nat>)
    ensures |r| == n && forall i :: 0 <= i < n ==> r[i] == i
  {
    seq(n, i requires 0 <= i < n => i)
  }

  /** `math.ceil(a / b)` on naturals. */
  function CeilDiv(a: nat, b: nat): (r: nat)
    requires b > 0
    ensures r * b >= a && (r == 0 || (r - 1) * b < a)
  {
    var q := (a + b - 1) / b;
    assert q * b + (a + b - 1) % b == a + b - 1;
    q
  }

  /** `worker_count = min(cpu_count, count)`. */
  function Workers(cpuCount: nat, count: nat): nat {
    if cpuCount < count then cpuCount else count
  }

  /** `i_per_group`: the size of every group but possibly the last. */
  function GroupSize(cpuCount: nat, count: nat): (r: nat)
    requires count > 0 && cpuCount > 1
    ensures r > 0
  {
    CeilDiv(count, Workers(cpuCount, count))
  }

  /** Groups `[start, stop)` that tile `[0, n)` in order, each non-empty and at most `k` long. */
  predicate Tiles(groups: seq<(nat, nat)>, n: nat, k: nat) {
    && |groups| > 0
    && groups[0].0 == 0
    && groups[|groups| - 1].1 == n
    && (forall i :: 0 <= i < |groups| - 1 ==> groups[i].1 == groups[i + 1].0)
    && (forall i :: 0 <= i < |groups| ==> groups[i].0 < groups[i].1 <= groups[i].0 + k)
  }

  /**
    The grouping used when `cpu_count > 1`: groups start at `0, k, 2k, ...` below the
    count, each `k` long, and the last one is cut at the count. With nothing to group,
    `count / worker_count` divides by zero.
   */
  method PartitionGroups(cpuCount: nat, count: nat) returns (r: Result<seq<(nat, nat)>>)
    requires cpuCount > 1
    ensures r.Err? <==> count == 0
    ensures r.Err? ==> r.error == ZeroDivisionError
    ensures r.Ok? ==> Tiles(r.value, count, GroupSize(cpuCount, count))
    ensures r.Ok? ==> |r.value| <= cpuCount
    ensures r.Ok? ==> forall i :: 0 <= i < |r.value| - 1 ==>
      r.value[i] == (i * GroupSize(cpuCount, count), i * GroupSize(cpuCount, count) + GroupSize(cpuCount, count))
    ensures r.Ok? ==> r.value[|r.value| - 1] == ((|r.value| - 1) * GroupSize(cpuCount, count), count)
  {
    if count == 0 {
      return Err(ZeroDivisionError);
    }
    var k := GroupSize(cpuCount, count);
    var groups := GroupStarts(k, count);
    var m := |groups|;
    CountBound(m, k, Workers(cpuCount, count), count);
    groups := groups[m - 1 := (groups[m - 1].0, count)];
    CutTiles(groups, k, count);
    return Ok(groups);
  }

  /** `[[x, x + k] for x in range(0, count, k)]`. */
  method GroupStarts(k: nat, count: nat) returns (groups: seq<(nat, nat)>)
    requires k > 0 && count > 0
    ensures |groups| > 0 && (|groups| - 1) * k < count <= |groups| * k
    ensures forall i :: 0 <= i < |groups| ==> groups[i] == (i * k, i * k + k)
  {
    groups := [];
    var x: nat := 0;
    while x < count
      invariant x == |groups| * k
      invariant |groups| > 0 ==> (|groups| - 1) * k < count
      invariant forall i :: 0 <= i < |groups| ==> groups[i] == (i * k, i * k + k)
      decreases count - x
    {
      groups := groups + [(x, x + k)];
      x := x + k;
    }
  }

  /** The groups of `GroupStarts` with the last stop moved to the count tile `[0, count)`. */
  lemma CutTiles(groups: seq<(nat, nat)>, k: nat, count: nat)
    requires k > 0 && |groups| > 0 && (|groups| - 1) * k < count
    requires forall i :: 0 <= i < |groups| - 1 ==> groups[i] == (i * k, i * k + k)
    requires groups[|groups| - 1] == ((|groups| - 1) * k, count)
    requires count <= |groups| * k
    ensures Tiles(groups, count, k)
  {
    assert (|groups| - 1) * k + k == |groups| * k;
    forall i | 0 <= i < |groups| - 1 ensures groups[i].1 == groups[i + 1].0 {
      assert i * k + k == (i + 1) * k;
    }
  }

  /** Groups of `k` started below `count` number at most `w` when `w * k >= count`. */
  lemma CountBound(m: nat, k: nat, w: nat, count: nat)
    requires m > 0 && (m - 1) * k < count && w * k >= count
    ensures m <= w
  {
    if m > w {
      assert (m - 1) * k >= w * k by {
        assert m - 1 >= w;
        MulMono(w, m - 1, k);
      }
    }
  }

  lemma MulMono(a: nat, b: nat, k: nat)
    requires a <= b
    ensures a * k <= b * k
  {
  }

  /** The indexes a list of groups processes, group by group. */
  function Visits(groups: seq<(nat, nat)>): seq<nat>
    decreases |groups|
  {
    if |groups| == 0 then []
    else
      var (lo, hi) := groups[0];
      seq(if lo <= hi then hi - lo else 0, i requires 0 <= i => lo + i) + Visits(groups[1..])
  }

  /** Groups that tile `[0, n)` process every index exactly once, in increasing order. */
  lemma VisitsTiles(groups: seq<(nat, nat)>, n: nat, k: nat)
    requires Tiles(groups, n, k)
    ensures Visits(groups) == Range(n)
  {
    VisitsFrom(groups, k);
  }

  lemma {:induction false} VisitsFrom(groups: seq<(nat, nat)>, k: nat)
    requires |groups| > 0
    requires forall i :: 0 <= i < |groups| - 1 ==> groups[i].1 == groups[i + 1].0
    requires forall i :: 0 <= i < |groups| ==> groups[i].0 < groups[i].1 <= groups[i].0 + k
    ensures var lo, hi := groups[0].0, groups[|groups| - 1].1;
      lo <= hi && Visits(groups) == seq(hi - lo, i requires 0 <= i => lo + i)
    decreases |groups|
  {
    var lo, mid := groups[0].0, groups[0].1;
    var hi := groups[|groups| - 1].1;
    var head := seq(mid - lo, i requires 0 <= i => lo + i);
    if |groups| == 1 {
      assert Visits(groups) == head + [];
    } else {
      var rest := groups[1..];
      assert forall i :: 0 <= i < |rest| - 1 ==> rest[i].1 == rest[i + 1].0 by {
        forall i | 0 <= i < |rest| - 1 ensures rest[i].1 == rest[i + 1].0 {
          assert rest[i] == groups[i + 1] && rest[i + 1] == groups[i + 2];
        }
      }
      VisitsFrom(rest, k);
      assert rest[0].0 == mid && rest[|rest| - 1].1 == hi;
      var tail := seq(hi - mid, i requires 0 <= i => mid + i);
      assert Visits(groups) == head + tail;
      assert head + tail == seq(hi - lo, i requires 0 <= i => lo + i);
    }
  }

  /**
    The order in which the per-index work runs for `count` items: with no CPU count or
    `parallel=False`-style counts of 1 or less, every index in turn; otherwise group by
    group. `parallel=False` forces the count to 1.
   */
  method Schedule(cpuCount: Option<int>, parallel: bool, count: nat) returns (r: Result<seq<nat>>)
    ensures r.Ok? ==> r.value == Range(count)
    ensures r.Err? <==> parallel && cpuCount.Some? && cpuCount.value > 1 && count == 0
    ensures r.Err? ==> r.error == ZeroDivisionError
    ensures !parallel ==> r == Ok(Range(count))
  {
    var cpu := if parallel then cpuCount else Some(1);
    if cpu.None? || cpu.value <= 1 {
      return Ok(Range(count));
    }
    var groups :- PartitionGroups(cpu.value, count);
    VisitsTiles(groups, count, GroupSize(cpu.value, count));
    return Ok(Visits(groups));
  }

  /** A matrix cell: still the initial `0`, or the row written for that index. */
  datatype Cell = Unset | Row(values: seq<nat>)

  /**
    The row for index `i`: one entry per target; `0` when the target is skipped (facing
    away, or beyond the distance limit), else `0` when blocked and `1` when clear.
   */
  function RowOf(i: nat, targets: nat, blocked: (nat, nat) -> bool, skipped: Option<(nat, nat) -> bool>): (r: seq<nat>)
    ensures |r| == targets
    ensures forall j :: 0 <= j < targets ==> (r[j] == 1 <==> !blocked(i, j) && !(skipped.Some? && skipped.value(i, j)))
    ensures forall j :: 0 <= j < targets ==> r[j] <= 1
  {
    seq(targets, j requires 0 <= j < targets =>
      if skipped.Some? && skipped.value(i, j) then 0 else if blocked(i, j) then 0 else 1)
  }

  /** Runs the per-index work in the given order on a matrix of `count` cells. */
  function Fill(order: seq<nat>, matrix: seq<Cell>, targets: nat, blocked: (nat, nat) -> bool, skipped: Option<(nat, nat) -> bool>): (r: seq<Cell>)
    requires forall k :: 0 <= k < |order| ==> order[k] < |matrix|
    ensures |r| == |matrix|
    ensures forall i :: 0 <= i < |matrix| && i !in order ==> r[i] == matrix[i]
    ensures forall i :: 0 <= i < |matrix| && i in order ==> r[i] == Row(RowOf(i, targets, blocked, skipped))
    decreases |order|
  {
    if |order| == 0 then matrix
    else
      var i := order[0];
      Fill(order[1..], matrix[i := Row(RowOf(i, targets, blocked, skipped))], targets, blocked, skipped)
  }

  /**
    `intersect_mesh_rays` / `intersect_mesh_lines`: one row per point (or start point),
    each with one entry per vector (or end point), every cell written. `normalCount` is
    the length of the `normals` list when one is given to `intersect_mesh_rays`, and
    `None` otherwise (no normals, or the line version, whose distance limit is one
    number). Normals are read by point index, so fewer normals than points raise
    IndexError; the grouping, and its division by zero on no points, comes first.
   */
  method IntersectMatrix(count: nat, targets: nat, cpuCount: Option<int>, parallel: bool,
                         blocked: (nat, nat) -> bool, skipped: Option<(nat, nat) -> bool>, normalCount: Option<nat>)
    returns (r: Result<seq<Cell>>)
    ensures r.Err? <==>
      (parallel && cpuCount.Some? && cpuCount.value > 1 && count == 0) || (normalCount.Some? && normalCount.value < count)
    ensures parallel && cpuCount.Some? && cpuCount.value > 1 && count == 0 ==> r == Err(ZeroDivisionError)
    ensures normalCount.Some? && normalCount.value < count ==> r == Err(IndexError)
    ensures r.Ok? ==> |r.value| == count
    ensures r.Ok? ==> forall i :: 0 <= i < count ==> r.value[i] == Row(RowOf(i, targets, blocked, skipped))
  {
    var order :- Schedule(cpuCount, parallel, count);
    if normalCount.Some? && normalCount.value < count {
      return Err(IndexError);
    }
    var matrix := seq(count, _ => Unset);
    assert forall i :: 0 <= i < count ==> i in order by {
      forall i | 0 <= i < count ensures i in order { assert order[i] == i; }
    }
    return Ok(Fill(order, matrix, targets, blocked, skipped));
  }

  /** The pairs `(i, i + j + 1)` that `intersect_solids` considers, row by row from `i`. */
  function PairsFrom(i: nat, n: nat): (r: seq<(nat, nat)>)
    ensures forall p :: p in r ==> i <= p.0 < p.1 < n
    decreases n - i
  {
    if i >= n then []
    else seq(n - i - 1, j requires 0 <= j < n - i - 1 => (i, i + j + 1)) + PairsFrom(i + 1, n)
  }

  function Pairs(n: nat): seq<(nat, nat)> { PairsFrom(0, n) }

  /** Every unordered pair of distinct solids is considered. */
  lemma {:induction false} PairsComplete(i: nat, a: nat, b: nat, n: nat)
    requires i <= a < b < n
    ensures (a, b) in PairsFrom(i, n)
    decreases a - i
  {
    var row := seq(n - i - 1, j requires 0 <= j < n - i - 1 => (i, i + j + 1));
    var rest := PairsFrom(i + 1, n);
    assert PairsFrom(i, n) == row + rest;
    if a == i {
      assert row[b - i - 1] == (a, b);
      assert (row + rest)[b - i - 1] == (a, b);
    } else {
      PairsComplete(i + 1, a, b, n);
      assert (a, b) in row + rest;
    }
  }

  /** No pair is considered twice: the pairs come in strictly increasing order. */
  lemma {:induction false} PairsIncreasing(i: nat, n: nat)
    ensures forall x, y :: 0 <= x < y < |PairsFrom(i, n)| ==> Before(PairsFrom(i, n)[x], PairsFrom(i, n)[y])
    decreases n - i
  {
    if i < n {
      PairsIncreasing(i + 1, n);
    }
  }

  /** Lexicographic order on index pairs. */
  predicate Before(p: (nat, nat), q: (nat, nat)) {
    p.0 < q.0 || (p.0 == q.0 && p.1 < q.1)
  }
}

=== FILE: lb_out.dfy ===
/**
  The `LB Out` node: it walks the geometry arriving on its linked input sockets,
  depth first through nested lists and tuples, and turns every leaf into Sverchok
  output data (vertices, edges, faces: one entry each per supported leaf) and into
  Blender scene objects. A `has_baked` flag makes processing happen once until the
  node is refreshed. Coordinates computed with trigonometry (arc facets) are given
  as functions of the facet index; colours, sizes and materials are left out.
 */
module LbOut {
  import opened Wrappers
  import Text

  datatype P2 = P2(x: real, y: real)
  datatype P3 = P3(x: real, y: real, z: real)

  type Edge = (nat, nat)

  /** The geometry a socket can carry; `Nested` is a Python list or tuple. */
  datatype Geometry =
    | Arc2D(facet2: nat -> P3)
    | Arc3D(isCircle: bool, facet3: nat -> P3)
    | LineSegment2D(p1: P2, p2: P2)
    | Point2D(p2d: P2)
    | Point3D(p3d: P3)
    | Polyline2D(vertices2: seq<P2>, interpolated2: bool)
    | Polyline3D(vertices3: seq<P3>, interpolated3: bool)
    | ColoredPoint(point: P3)
    | Text(body: string, horizontalAlignment: int, verticalAlignment: int)
    | Mesh(vertexCount: nat)
    | Scalar
    | Unsupported
    | Nested(items: seq<Geometry>)

  datatype AlignX = Left | CenterX | Right
  datatype AlignY = Top | CenterY | Bottom

  /** The objects the node links into the Blender scene. */
  datatype SceneObject =
    | Wireframe(wv: seq<P3>, we: seq<Edge>)
    | PointCloud(points: seq<P3>)
    | TextObject(text: string, alignX: Option<AlignX>, alignY: Option<AlignY>)
    | MeshObject(meshVertices: nat)

  /** What `process` writes to the three output sockets. */
  datatype Outputs = Outputs(verts: seq<seq<P3>>, edges: seq<seq<Edge>>, faces: seq<seq<seq<nat>>>)

  /**
    The node's state: the flag, the Sverchok lists, the points gathered for the Blender
    point mesh and the coloured point cloud, the scene, and the socket outputs.
   */
  datatype Node = Node(
    hasBaked: bool,
    v: seq<seq<P3>>,
    e: seq<seq<Edge>>,
    f: seq<seq<seq<nat>>>,
    blenderV: seq<P3>,
    coloredV: seq<P3>,
    scene: seq<SceneObject>,
    outputs: Option<Outputs>)

  /** An input socket: whether it is linked, and `sv_get()`: a list of geometry lists. */
  datatype Socket = Socket(linked: bool, data: seq<seq<Geometry>>)

  /** `[(i, i + 1) for i in range(0, n - 1)]`: the path through `n` vertices. */
  function PathEdges(n: nat): (r: seq<Edge>)
    ensures |r| == if n == 0 then 0 else n - 1
    ensures forall i :: 0 <= i < |r| ==> r[i] == (i, i + 1) && r[i].1 < n
  {
    seq(if n == 0 then 0 else n - 1, i requires 0 <= i => (i, i + 1))
  }

  /** `from_linesegment2d(line, z)`: both end points at height `z`, one edge. */
  function FromLineSegment2D(p1: P2, p2: P2, z: real): (r: (seq<P3>, seq<Edge>))
    ensures |r.0| == 2 && r.0[0].z == z && r.0[1].z == z
    ensures r.0[0].x == p1.x && r.0[0].y == p1.y && r.0[1].x == p2.x && r.0[1].y == p2.y
    ensures r.1 == [(0, 1)]
  {
    ([P3(p1.x, p1.y, z), P3(p2.x, p2.y, z)], [(0, 1)])
  }

  /** The arcs are cut into 32 facets. */
  const Facets: nat := 32

  /** `from_arc2d`: the 33 facet points, and the edges `(i, i + 1)` with the last one dropped. */
  function FromArc2D(facet: nat -> P3): (r: (seq<P3>, seq<Edge>))
    ensures |r.0| == Facets + 1 && |r.1| == Facets
    ensures forall i :: 0 <= i < |r.0| ==> r.0[i] == facet(i)
    ensures r.1 == PathEdges(Facets + 1)
  {
    ArcEdgesArePath();
    (seq(Facets + 1, i requires 0 <= i => facet(i)), ArcEdges())
  }

  /** The loop appends `(i, i + 1)` for `i` in `0..32`, then `del e[-1]`. */
  function ArcEdges(): (r: seq<Edge>)
    ensures |r| == Facets
  {
    var all := seq(Facets + 1, i requires 0 <= i => (i, i + 1));
    all[..|all| - 1]
  }

  /** The arc's edges are the path through its vertices: no edge reaches past vertex 32. */
  lemma ArcEdgesArePath()
    ensures ArcEdges() == PathEdges(Facets + 1)
  {
  }

  /** `from_arc3d`: circular arcs fail the assertion; others are faceted like 2D arcs. */
  function FromArc3D(isCircle: bool, facet: nat -> P3): (r: Result<(seq<P3>, seq<Edge>)>)
    ensures r.Err? <==> isCircle
    ensures r.Err? ==> r.error == AssertionError
    ensures r.Ok? ==> |r.value.0| == Facets + 1 && r.value.1 == PathEdges(Facets + 1)
  {
    if isCircle then Err(AssertionError)
    else
      ArcEdgesArePath();
      Ok(FromArc2D(facet))
  }

  /** `from_point`: 2D points get height 0. */
  function FromPoint2D(p: P2): P3 { P3(p.x, p.y, 0.0) }

  /** `from_polyline`: the vertices (2D ones at height `z`) and the path through them. */
  function FromPolyline(vertices: seq<P3>, interpolated: bool): (r: (seq<P3>, seq<Edge>))
    ensures r.0 == vertices && |r.1| == if |vertices| == 0 then 0 else |vertices| - 1
    ensures forall i :: 0 <= i < |r.1| ==> r.1[i] == (i, i + 1) && r.1[i].1 < |vertices|
  {
    // Both branches return before their unreachable appends.
    if interpolated then (vertices, PathEdges(|vertices|)) else (vertices, PathEdges(|vertices|))
  }

  /** Interpolation is not implemented: an interpolated polyline gives the same result. */
  lemma PolylineIgnoresInterpolation(vertices: seq<P3>)
    ensures FromPolyline(vertices, true) == FromPolyline(vertices, false)
  {
  }

  function Lift(vs: seq<P2>, z: real): (r: seq<P3>)
    ensures |r| == |vs|
    ensures forall i :: 0 <= i < |vs| ==> r[i] == P3(vs[i].x, vs[i].y, z)
  {
    seq(|vs|, i requires 0 <= i < |vs| => P3(vs[i].x, vs[i].y, z))
  }

  /** Horizontal alignment: 0, 1, 2 select left, centre, right; other values set nothing. */
  function HorizontalAlign(h: int): (r: Option<AlignX>)
    ensures r.Some? <==> 0 <= h <= 2
    ensures h == 0 ==> r == Some(Left)
    ensures h == 1 ==> r == Some(CenterX)
    ensures h == 2 ==> r == Some(Right)
  {
    if h == 0 then Some(Left) else if h == 1 then Some(CenterX) else if h == 2 then Some(Right) else None
  }

  /** Vertical alignment: up to 2 top, up to 4 centre, up to 6 bottom; larger values set nothing. */
  function VerticalAlign(v: int): (r: Option<AlignY>)
    ensures r.None? <==> v > 6
    ensures v <= 2 ==> r == Some(Top)
    ensures 2 < v <= 4 ==> r == Some(CenterY)
    ensures 4 < v <= 6 ==> r == Some(Bottom)
  {
    if v <= 2 then Some(Top) else if v <= 4 then Some(CenterY) else if v <= 6 then Some(Bottom) else None
  }

  function AlignXRank(a: AlignX): nat { match a case Left => 0 case CenterX => 1 case Right => 2 }
  function AlignYRank(a: AlignY): nat { match a case Top => 0 case CenterY => 1 case Bottom => 2 }

  /** The three horizontal codes give three different alignments, in code order. */
  lemma HorizontalAlignRanks(h: int)
    requires 0 <= h <= 2
    ensures AlignXRank(HorizontalAlign(h).value) == h
  {
  }

  /** The vertical codes fall into three bands, top to bottom: up to 2, 3 to 4, 5 to 6. */
  lemma VerticalAlignRanks(v: int)
    requires v <= 6
    ensures AlignYRank(VerticalAlign(v).value) == if v <= 2 then 0 else if v <= 4 then 1 else 2
  {
  }

  /** A larger vertical code never moves the text up: the alignment rank is monotone in the code. */
  lemma VerticalAlignMonotone(a: int, b: int)
    requires a <= b <= 6
    ensures AlignYRank(VerticalAlign(a).value) <= AlignYRank(VerticalAlign(b).value)
  {
  }

  /** The leaves the Sverchok dispatcher handles; the others print a warning or pass. */
  predicate IsSverchok(g: Geometry) {
    g.Arc2D? || g.Arc3D? || g.LineSegment2D? || g.Point2D? || g.Point3D? || g.Polyline2D? || g.Polyline3D?
  }

  /** The face list every Sverchok handler appends. */
  const FaceHack: seq<seq<nat>> := [[0]]

  /** `_process_sverchok_geometry` on one leaf: the entry appended to each of `v`, `e`, `f`. */
  function SverchokEntry(g: Geometry): (r: Result<Option<(seq<P3>, seq<Edge>)>>)
    requires !g.Nested?
    ensures r.Err? <==> g.Arc3D? && g.isCircle
    ensures r.Err? ==> r.error == AssertionError
    ensures r.Ok? ==> (r.value.Some? <==> IsSverchok(g))
    ensures g.Arc2D? ==> r == Ok(Some(FromArc2D(g.facet2)))
    ensures g.Arc3D? && !g.isCircle ==> r == Ok(Some(FromArc3D(false, g.facet3).value))
    ensures g.LineSegment2D? ==> r == Ok(Some(FromLineSegment2D(g.p1, g.p2, 0.0)))
    ensures g.Point2D? ==> r == Ok(Some(([P3(g.p2d.x, g.p2d.y, 0.0)], [(0, 0)])))
    ensures g.Point3D? ==> r == Ok(Some(([g.p3d], [(0, 0)])))
    ensures g.Polyline2D? ==> r == Ok(Some(FromPolyline(Lift(g.vertices2, 0.0), g.interpolated2)))
    ensures g.Polyline3D? ==> r == Ok(Some(FromPolyline(g.vertices3, g.interpolated3)))
  {
    match g
    case Arc2D(facet) => Ok(Some(FromArc2D(facet)))
    case Arc3D(isCircle, facet) =>
      var ve :- FromArc3D(isCircle, facet);
      Ok(Some(ve))
    case LineSegment2D(p1, p2) => Ok(Some(FromLineSegment2D(p1, p2, 0.0)))
    case Point2D(p) => Ok(Some(([FromPoint2D(p)], [(0, 0)])))
    case Point3D(p) => Ok(Some(([p], [(0, 0)])))
    case Polyline2D(vs, interpolated) => Ok(Some(FromPolyline(Lift(vs, 0.0), interpolated)))
    case Polyline3D(vs, interpolated) => Ok(Some(FromPolyline(vs, interpolated)))
    case _ => Ok(None)
  }

  /** `_process_blender_geometry` on one leaf (reached only when the Sverchok side succeeded). */
  function BlenderStep(node: Node, g: Geometry): (r: Node)
    requires !g.Nested? && !(g.Arc3D? && g.isCircle)
    ensures r.v == node.v && r.e == node.e && r.f == node.f && r.hasBaked == node.hasBaked
    ensures r.outputs == node.outputs
    ensures g.Arc2D? ==> r == node.(scene := node.scene + [Wireframe(FromArc2D(g.facet2).0, FromArc2D(g.facet2).1)])
    ensures g.Arc3D? ==>
      r == node.(scene := node.scene + [Wireframe(FromArc3D(false, g.facet3).value.0, FromArc3D(false, g.facet3).value.1)])
    ensures g.LineSegment2D? ==>
      r == node.(scene := node.scene + [Wireframe(FromLineSegment2D(g.p1, g.p2, 0.0).0, FromLineSegment2D(g.p1, g.p2, 0.0).1)])
    ensures g.Polyline2D? ==>
      var (v, e) := FromPolyline(Lift(g.vertices2, 0.0), g.interpolated2);
      r == node.(scene := node.scene + [Wireframe(v, e)])
    ensures g.Polyline3D? ==>
      r == node.(scene := node.scene + [Wireframe(g.vertices3, FromPolyline(g.vertices3, g.interpolated3).1)])
    ensures g.Text? ==>
      r == node.(scene := node.scene + [TextObject(g.body, HorizontalAlign(g.horizontalAlignment), VerticalAlign(g.verticalAlignment))])
    ensures g.Mesh? ==> r == node.(scene := node.scene + [MeshObject(g.vertexCount)])
    ensures g.ColoredPoint? ==> r == node.(coloredV := node.coloredV + [g.point])
    ensures g.Point2D? ==> r == node.(blenderV := node.blenderV + [P3(g.p2d.x, g.p2d.y, 0.0)])
    ensures g.Point3D? ==> r == node.(blenderV := node.blenderV + [g.p3d])
    ensures g.Scalar? || g.Unsupported? ==> r == node
  {
    match g
    case Arc2D(facet) =>
      var (v, e) := FromArc2D(facet);
      node.(scene := node.scene + [Wireframe(v, e)])
    case Arc3D(_, facet) =>
      var (v, e) := FromArc2D(facet);
      node.(scene := node.scene + [Wireframe(v, PathEdges(Facets + 1))])
    case ColoredPoint(p) => node.(coloredV := node.coloredV + [p])
    case LineSegment2D(p1, p2) =>
      var (v, e) := FromLineSegment2D(p1, p2, 0.0);
      node.(scene := node.scene + [Wireframe(v, e)])
    case Text(body, h, vert) =>
      node.(scene := node.scene + [TextObject(body, HorizontalAlign(h), VerticalAlign(vert))])
    case Mesh(n) => node.(scene := node.scene + [MeshObject(n)])
    case Point2D(p) => node.(blenderV := node.blenderV + [FromPoint2D(p)])
    case Point3D(p) => node.(blenderV := node.blenderV + [p])
    case Polyline2D(vs, interpolated) =>
      var (v, e) := FromPolyline(Lift(vs, 0.0), interpolated);
      node.(scene := node.scene + [Wireframe(v, e)])
    case Polyline3D(vs, interpolated) =>
      var (v, e) := FromPolyline(vs, interpolated);
      node.(scene := node.scene + [Wireframe(v, e)])
    case _ => node
  }

  /** The three Sverchok lists have one entry per handled leaf. */
  predicate Aligned(node: Node) {
    |node.v| == |node.e| == |node.f|
  }

  /** The node after the Sverchok dispatcher: a handled leaf appends its entry to `v`, `e`, `f`. */
  function WithEntry(node: Node, entry: Option<(seq<P3>, seq<Edge>)>): Node {
    match entry
    case None => node
    case Some(ve) => node.(v := node.v + [ve.0], e := node.e + [ve.1], f := node.f + [FaceHack])
  }

  /**
    One leaf: the Sverchok dispatcher first, then the Blender one. A circular 3D arc
    fails in the Sverchok dispatcher, so the Blender one never sees it.
   */
  function ProcessLeaf(node: Node, g: Geometry): (r: Result<Node>)
    requires !g.Nested?
    ensures r.Err? <==> g.Arc3D? && g.isCircle
    ensures r.Err? ==> r == Err(AssertionError)
    ensures r.Ok? ==> |r.value.v| == |node.v| + (if IsSverchok(g) then 1 else 0)
    ensures r.Ok? && Aligned(node) ==> Aligned(r.value)
    ensures r.Ok? ==> r.value.hasBaked == node.hasBaked && r.value.outputs == node.outputs
    ensures r.Ok? ==> SverchokEntry(g).Ok? && r.value == BlenderStep(WithEntry(node, SverchokEntry(g).value), g)
    ensures r.Ok? && IsSverchok(g) ==>
      var ve := SverchokEntry(g).value.value;
      r.value.v == node.v + [ve.0] && r.value.e == node.e + [ve.1] && r.value.f == node.f + [FaceHack]
    ensures r.Ok? ==> r.value.(v := node.v, e := node.e, f := node.f) == BlenderStep(node, g)
  {
    var entry :- SverchokEntry(g);
    Ok(BlenderStep(WithEntry(node, entry), g))
  }

  /** `_process_geometry`: lists and tuples are walked in order, depth first. */
  function ProcessGeometry(node: Node, g: Geometry): Result<Node>
    decreases g, 1
  {
    match g
    case Nested(items) => ProcessAll(node, items)
    case _ => ProcessLeaf(node, g)
  }

  function ProcessAll(node: Node, gs: seq<Geometry>): Result<Node>
    decreases gs, 0
  {
    if |gs| == 0 then Ok(node)
    else
      var next :- ProcessGeometry(node, gs[0]);
      ProcessAll(next, gs[1..])
  }

  /** The leaves of a geometry, depth first. */
  function Flatten(g: Geometry): (r: seq<Geometry>)
    ensures forall i :: 0 <= i < |r| ==> !r[i].Nested?
    decreases g, 1
  {
    match g
    case Nested(items) => FlattenAll(items)
    case _ => [g]
  }

  function FlattenAll(gs: seq<Geometry>): (r: seq<Geometry>)
    ensures forall i :: 0 <= i < |r| ==> !r[i].Nested?
    decreases gs, 0
  {
    if |gs| == 0 then [] else Flatten(gs[0]) + FlattenAll(gs[1..])
  }

  /** Handles leaves one after the other. */
  function ProcessLeaves(node: Node, leaves: seq<Geometry>): Result<Node>
    requires forall i :: 0 <= i < |leaves| ==> !leaves[i].Nested?
    decreases |leaves|
  {
    if |leaves| == 0 then Ok(node)
    else
      var next :- ProcessLeaf(node, leaves[0]);
      ProcessLeaves(next, leaves[1..])
  }

  /** Handling `a + b` is handling `a`, then `b` from where `a` left off. */
  lemma {:induction false} ProcessLeavesAppend(node: Node, a: seq<Geometry>, b: seq<Geometry>)
    requires forall i :: 0 <= i < |a| ==> !a[i].Nested?
    requires forall i :: 0 <= i < |b| ==> !b[i].Nested?
    ensures ProcessLeaves(node, a + b) ==
      match ProcessLeaves(node, a)
      case Err(err) => Err(err)
      case Ok(mid) => ProcessLeaves(mid, b)
    decreases |a|
  {
    if |a| == 0 {
      assert a + b == b;
    } else {
      assert (a + b)[0] == a[0] && (a + b)[1..] == a[1..] + b;
      if ProcessLeaf(node, a[0]).Ok? {
        ProcessLeavesAppend(ProcessLeaf(node, a[0]).value, a[1..], b);
      }
    }
  }

  /** The recursive walk handles exactly the depth-first leaves, in that order. */
  lemma {:induction false} ProcessGeometryIsFlatten(node: Node, g: Geometry)
    ensures ProcessGeometry(node, g) == ProcessLeaves(node, Flatten(g))
    decreases g, 1
  {
    match g
    case Nested(items) => ProcessAllIsFlatten(node, items);
    case _ =>
      assert [g][1..] == [];
      if ProcessLeaf(node, g).Ok? {
        assert ProcessLeaves(ProcessLeaf(node, g).value, []) == ProcessLeaf(node, g);
      }
  }

  lemma {:induction false} ProcessAllIsFlatten(node: Node, gs: seq<Geometry>)
    ensures ProcessAll(node, gs) == ProcessLeaves(node, FlattenAll(gs))
    decreases gs, 0
  {
    if |gs| > 0 {
      ProcessGeometryIsFlatten(node, gs[0]);
      ProcessLeavesAppend(node, Flatten(gs[0]), FlattenAll(gs[1..]));
      if ProcessGeometry(node, gs[0]).Ok? {
        ProcessAllIsFlatten(ProcessGeometry(node, gs[0]).value, gs[1..]);
      }
    }
  }

  /** The number of leaves the Sverchok dispatcher handles. */
  function SverchokCount(leaves: seq<Geometry>): nat {
    if |leaves| == 0 then 0 else (if IsSverchok(leaves[0]) then 1 else 0) + SverchokCount(leaves[1..])
  }

  /** Handling leaves adds one entry to each Sverchok list per handled leaf, and keeps them aligned. */
  lemma {:induction false} ProcessLeavesCounts(node: Node, leaves: seq<Geometry>)
    requires forall i :: 0 <= i < |leaves| ==> !leaves[i].Nested?
    requires ProcessLeaves(node, leaves).Ok?
    ensures |ProcessLeaves(node, leaves).value.v| == |node.v| + SverchokCount(leaves)
    ensures Aligned(node) ==> Aligned(ProcessLeaves(node, leaves).value)
    ensures ProcessLeaves(node, leaves).value.hasBaked == node.hasBaked
    decreases |leaves|
  {
    if |leaves| > 0 {
      ProcessLeavesCounts(ProcessLeaf(node, leaves[0]).value, leaves[1..]);
    }
  }

  /** The geometry lists of the linked sockets, in socket order. */
  function Incoming(sockets: seq<Socket>): seq<Geometry>
  {
    if |sockets| == 0 then []
    else (if sockets[0].linked then Concat(sockets[0].data) else []) + Incoming(sockets[1..])
  }

  function Concat(lists: seq<seq<Geometry>>): seq<Geometry>
  {
    if |lists| == 0 then [] else lists[0] + Concat(lists[1..])
  }

  /** The Blender objects made at the end: a point cloud for coloured points, a mesh of loose points. */
  function Finish(node: Node): (r: Node)
    ensures r.hasBaked && r.outputs == Some(Outputs(node.v, node.e, node.f))
    ensures r.v == node.v && r.e == node.e && r.f == node.f
  {
    var cloud := if |node.coloredV| == 0 then [] else [PointCloud(node.coloredV)];
    node.(scene := node.scene + cloud + [Wireframe(node.blenderV, [])],
          outputs := Some(Outputs(node.v, node.e, node.f)),
          hasBaked := true)
  }

  /**
    `process()`: nothing happens once baked. Otherwise the lists are reset, every incoming
    geometry is walked, the outputs are set and the node is marked as baked.
   */
  function Process(node: Node, sockets: seq<Socket>): (r: Result<Node>)
    ensures node.hasBaked ==> r == Ok(node)
    ensures !node.hasBaked && r.Ok? ==> r.value.hasBaked && r.value.outputs.Some?
    ensures !node.hasBaked ==>
      r == match ProcessLeaves(Cleared(node), FlattenAll(Incoming(sockets)))
           case Ok(walked) => Ok(Finish(walked))
           case Err(err) => Err(err)
  {
    if node.hasBaked then Ok(node)
    else
      ProcessAllIsFlatten(Cleared(node), Incoming(sockets));
      var walked :- ProcessAll(Cleared(node), Incoming(sockets));
      Ok(Finish(walked))
  }

  /** The node with its Sverchok lists and gathered points emptied, as `process()` starts. */
  function Cleared(node: Node): Node {
    node.(v := [], e := [], f := [], blenderV := [], coloredV := [])
  }

  /** The Sverchok entries of the handled leaves, in order. */
  function Entries(leaves: seq<Geometry>): seq<(seq<P3>, seq<Edge>)>
    requires forall i :: 0 <= i < |leaves| ==> !leaves[i].Nested?
    decreases |leaves|
  {
    if |leaves| == 0 then [] else LeafEntry(leaves[0]) + Entries(leaves[1..])
  }

  /** The Sverchok entry of one leaf, if it is handled and succeeds. */
  function LeafEntry(g: Geometry): (r: seq<(seq<P3>, seq<Edge>)>)
    requires !g.Nested?
    ensures |r| <= 1 && (|r| == 1 <==> IsSverchok(g) && !(g.Arc3D? && g.isCircle))
  {
    match SverchokEntry(g) case Ok(Some(ve)) => [ve] case _ => []
  }

  /** The vertex lists of some Sverchok entries. */
  function EntryVerts(es: seq<(seq<P3>, seq<Edge>)>): (r: seq<seq<P3>>)
    ensures |r| == |es| && forall i :: 0 <= i < |es| ==> r[i] == es[i].0
  {
    seq(|es|, i requires 0 <= i < |es| => es[i].0)
  }

  /** The edge lists of some Sverchok entries. */
  function EntryEdges(es: seq<(seq<P3>, seq<Edge>)>): (r: seq<seq<Edge>>)
    ensures |r| == |es| && forall i :: 0 <= i < |es| ==> r[i] == es[i].1
  {
    seq(|es|, i requires 0 <= i < |es| => es[i].1)
  }

  lemma EntryListsAppend(a: seq<(seq<P3>, seq<Edge>)>, b: seq<(seq<P3>, seq<Edge>)>)
    ensures EntryVerts(a + b) == EntryVerts(a) + EntryVerts(b)
    ensures EntryEdges(a + b) == EntryEdges(a) + EntryEdges(b)
    ensures seq(|a + b|, _ => FaceHack) == seq(|a|, _ => FaceHack) + seq(|b|, _ => FaceHack)
  {
  }

  /** Handling one leaf appends its Sverchok entry, if any, to `v`, `e` and `f`. */
  lemma ProcessLeafEntry(node: Node, g: Geometry)
    requires !g.Nested? && ProcessLeaf(node, g).Ok?
    ensures var n, es := ProcessLeaf(node, g).value, LeafEntry(g);
      && n.v == node.v + EntryVerts(es)
      && n.e == node.e + EntryEdges(es)
      && n.f == node.f + seq(|es|, _ => FaceHack)
  {
    var es := LeafEntry(g);
    if IsSverchok(g) {
      var ve := SverchokEntry(g).value.value;
      assert es == [ve];
      assert EntryVerts(es) == [ve.0] && EntryEdges(es) == [ve.1];
      assert seq(|es|, _ => FaceHack) == [FaceHack];
    } else {
      assert es == [];
      assert WithEntry(node, SverchokEntry(g).value) == node;
    }
  }

  /**
    Handling leaves appends, after what the lists already held, the Sverchok entry of
    each handled leaf in order: its vertices to `v`, its edges to `e`, the placeholder to `f`.
   */
  lemma {:induction false} ProcessLeavesEntries(node: Node, leaves: seq<Geometry>)
    requires forall i :: 0 <= i < |leaves| ==> !leaves[i].Nested?
    requires ProcessLeaves(node, leaves).Ok?
    ensures var w, es := ProcessLeaves(node, leaves).value, Entries(leaves);
      && w.v == node.v + EntryVerts(es)
      && w.e == node.e + EntryEdges(es)
      && w.f == node.f + seq(|es|, _ => FaceHack)
    decreases |leaves|
  {
    if |leaves| == 0 {
      assert Entries(leaves) == [];
    } else {
      var next := ProcessLeaf(node, leaves[0]).value;
      assert ProcessLeaves(node, leaves) == ProcessLeaves(next, leaves[1..]);
      var first, rest := LeafEntry(leaves[0]), Entries(leaves[1..]);
      assert Entries(leaves) == first + rest;
      ProcessLeafEntry(node, leaves[0]);
      ProcessLeavesEntries(next, leaves[1..]);
      EntryListsAppend(first, rest);
      Text.AppendAssoc(node.v, EntryVerts(first), EntryVerts(rest));
      Text.AppendAssoc(node.e, EntryEdges(first), EntryEdges(rest));
      Text.AppendAssoc(node.f, seq(|first|, _ => FaceHack), seq(|rest|, _ => FaceHack));
    }
  }

  /**
    The three outputs of a refresh are, entry by entry, the Sverchok entries of the
    incoming leaves, depth first and in socket order: their vertices, their edges, and
    the face placeholder.
   */
  lemma RefreshOutputsAreEntries(node: Node, sockets: seq<Socket>)
    requires Refresh(node, sockets).Ok?
    ensures var out, es := Refresh(node, sockets).value.outputs.value, Entries(FlattenAll(Incoming(sockets)));
      && out.verts == EntryVerts(es)
      && out.edges == EntryEdges(es)
      && out.faces == seq(|es|, _ => FaceHack)
  {
    ProcessLeavesEntries(Cleared(node.(hasBaked := false)), FlattenAll(Incoming(sockets)));
  }


  /** `refresh()`: clears the flag, then processes. */
  function Refresh(node: Node, sockets: seq<Socket>): Result<Node> {
    Process(node.(hasBaked := false), sockets)
  }

  /** A completed processing leaves the flag set, so processing again changes nothing. */
  lemma ProcessOnce(node: Node, sockets: seq<Socket>, later: seq<Socket>)
    requires Process(node, sockets).Ok?
    ensures Process(node, sockets).value.hasBaked
    ensures Process(Process(node, sockets).value, later) == Process(node, sockets)
  {
  }

  /**
    The outputs of a refresh depend only on the incoming geometry: vertices, edges and
    faces have one entry per Sverchok leaf, whatever the node held before.
   */
  lemma RefreshOutputs(node: Node, sockets: seq<Socket>)
    requires Refresh(node, sockets).Ok?
    ensures var out := Refresh(node, sockets).value.outputs.value;
      |out.verts| == |out.edges| == |out.faces| == SverchokCount(FlattenAll(Incoming(sockets)))
  {
    var cleared := node.(hasBaked := false, v := [], e := [], f := [], blenderV := [], coloredV := []);
    ProcessAllIsFlatten(cleared, Incoming(sockets));
    ProcessLeavesCounts(cleared, FlattenAll(Incoming(sockets)));
  }

  /** Two nodes refreshed on the same input end with the same outputs. */
  lemma RefreshForgetsPrevious(a: Node, b: Node, sockets: seq<Socket>)
    requires Refresh(a, sockets).Ok?
    ensures Refresh(b, sockets).Ok?
    ensures Refresh(a, sockets).value.outputs == Refresh(b, sockets).value.outputs
  {
    var fa := a.(hasBaked := false, v := [], e := [], f := [], blenderV := [], coloredV := []);
    var fb := b.(hasBaked := false, v := [], e := [], f := [], blenderV := [], coloredV := []);
    ProcessAllIsFlatten(fa, Incoming(sockets));
    ProcessAllIsFlatten(fb, Incoming(sockets));
    SameLists(fa, fb, FlattenAll(Incoming(sockets)));
  }

  /** Leaf handling's effect on the Sverchok lists does not depend on the scene. */
  lemma {:induction false} SameLists(a: Node, b: Node, leaves: seq<Geometry>)
    requires forall i :: 0 <= i < |leaves| ==> !leaves[i].Nested?
    requires a.v == b.v && a.e == b.e && a.f == b.f
    ensures ProcessLeaves(a, leaves).Ok? == ProcessLeaves(b, leaves).Ok?
    ensures ProcessLeaves(a, leaves).Ok? ==>
      var ra, rb := ProcessLeaves(a, leaves).value, ProcessLeaves(b, leaves).value;
      ra.v == rb.v && ra.e == rb.e && ra.f == rb.f
    decreases |leaves|
  {
    if |leaves| > 0 && ProcessLeaf(a, leaves[0]).Ok? {
      SameLists(ProcessLeaf(a, leaves[0]).value, ProcessLeaf(b, leaves[0]).value, leaves[1..]);
    }
  }
}

=== FILE: mustache.dfy ===
/**
  The part of Mustache rendering applied to the embedded node code: every `{{name}}`
  tag is replaced by the value the lookup gives for `name` (missing names render as
  the empty string). A tag name is at least one character long and ends at the first
  `}}` after it; an opening `{{` with no closing `}}` stays literal text. The name is
  looked up exactly as written: pystache trims whitespace around it, this model does not.
 */
module Mustache {
  import opened Wrappers
  import opened Text

  datatype Piece = Literal(text: string) | Tag(name: string)

  /**
    The first tag of `s`: `{{` at `i`, a name of `j + 1` characters, then `}}`.
   */
  function NextTag(s: string): (r: Option<(nat, nat)>)
    ensures r.Some? ==> r.value.0 + 3 + r.value.1 + 2 <= |s|
    ensures r.Some? ==> s[r.value.0..r.value.0 + 2] == "{{"
    ensures r.Some? ==> s[r.value.0 + 3 + r.value.1..r.value.0 + 3 + r.value.1 + 2] == "}}"
    ensures !Contains(s, "{{") ==> r.None?
  {
    match FindFirst(s, "{{")
    case None => None
    case Some(i) =>
      if i + 3 > |s| then None
      else
        match FindFirst(s[i + 3..], "}}")
        case None => None
        case Some(j) =>
          assert s[i + 3..][j..j + 2] == s[i + 3 + j..i + 3 + j + 2];
          Some((i, j))
  }

  /** Splits a template into literal text and tags, left to right. */
  function Tokenize(s: string): (r: seq<Piece>)
    decreases |s|, 1
  {
    match NextTag(s)
    case None => if |s| == 0 then [] else [Literal(s)]
    case Some(t) => TokenizeAt(s, t.0, t.1)
  }

  /** The pieces of a template whose first tag is found at `i` with a name of `j + 1` characters. */
  function TokenizeAt(s: string, i: nat, j: nat): seq<Piece>
    requires i + 3 + j + 2 <= |s|
    decreases |s|, 0
  {
    (if i == 0 then [] else [Literal(s[..i])])
    + [Tag(s[i + 2..i + 3 + j])]
    + Tokenize(s[i + 3 + j + 2..])
  }

  /** Writes pieces back as template text. */
  function Unparse(ps: seq<Piece>): string
  {
    if |ps| == 0 then ""
    else
      (match ps[0]
       case Literal(t) => t
       case Tag(n) => "{{" + n + "}}")
      + Unparse(ps[1..])
  }

  lemma {:induction false} UnparseAppend(a: seq<Piece>, b: seq<Piece>)
    ensures Unparse(a + b) == Unparse(a) + Unparse(b)
  {
    if |a| > 0 {
      assert (a + b)[0] == a[0];
      assert (a + b)[1..] == a[1..] + b;
      UnparseAppend(a[1..], b);
    } else {
      assert a + b == b;
    }
  }

  /** Tokenizing loses nothing: the pieces spell out the template again. */
  lemma {:induction false} TokenizeRoundTrip(s: string)
    ensures Unparse(Tokenize(s)) == s
    decreases |s|
  {
    match NextTag(s)
    case None =>
      TokenizeNoTag(s);
      assert [Literal(s)][1..] == [];
    case Some(t) =>
      var i, j := t.0, t.1;
      TokenizeTag(s, i, j);
      TokenizeRoundTrip(s[i + 3 + j + 2..]);
      Reassemble(s, i, j, Tokenize(s[i + 3 + j + 2..]));
  }

  /** The text before a tag, the tag, and pieces spelling the rest spell the whole template. */
  lemma {:induction false} Reassemble(s: string, i: nat, j: nat, restPieces: seq<Piece>)
    requires i + 3 + j + 2 <= |s|
    requires s[i..i + 2] == "{{" && s[i + 3 + j..i + 3 + j + 2] == "}}"
    requires Unparse(restPieces) == s[i + 3 + j + 2..]
    ensures Unparse((if i == 0 then [] else [Literal(s[..i])]) + [Tag(s[i + 2..i + 3 + j])] + restPieces) == s
  {
    var name := s[i + 2..i + 3 + j];
    var head: seq<Piece> := if i == 0 then [] else [Literal(s[..i])];
    var tail := [Tag(name)] + restPieces;
    var pre, post := s[..i], s[i + 3 + j + 2..];
    assert head + [Tag(name)] + restPieces == head + tail;
    UnparseAppend(head, tail);
    UnparseTag(name, restPieces);
    UnparseHead(s, i);
    assert Unparse(head + tail) == pre + ("{{" + name + "}}" + post);
    assert pre + ("{{" + name + "}}" + post) == pre + "{{" + name + "}}" + post;
    Decompose(s, i, j);
  }

  /** Unfolds `Tokenize` once at a tag found by `NextTag`. */
  lemma {:induction false} TokenizeTag(s: string, i: nat, j: nat)
    requires NextTag(s) == Some((i, j))
    ensures Tokenize(s) == (if i == 0 then [] else [Literal(s[..i])]) + [Tag(s[i + 2..i + 3 + j])] + Tokenize(s[i + 3 + j + 2..])
  {
  }

  /** Unfolds `Tokenize` on a template with no complete tag. */
  lemma TokenizeNoTag(s: string)
    requires NextTag(s).None?
    ensures Tokenize(s) == if |s| == 0 then [] else [Literal(s)]
  {
  }

  lemma UnparseHead(s: string, i: nat)
    requires i <= |s|
    ensures Unparse(if i == 0 then [] else [Literal(s[..i])]) == s[..i]
  {
    if i > 0 { assert [Literal(s[..i])][1..] == []; }
  }

  lemma UnparseTag(n: string, ps: seq<Piece>)
    ensures Unparse([Tag(n)] + ps) == "{{" + n + "}}" + Unparse(ps)
  {
    assert ([Tag(n)] + ps)[1..] == ps;
  }

  /** A template cut around a tag found at `i` whose closing braces start at `i + 3 + j`. */
  lemma Decompose(s: string, i: nat, j: nat)
    requires i + 3 + j + 2 <= |s|
    requires s[i..i + 2] == "{{" && s[i + 3 + j..i + 3 + j + 2] == "}}"
    ensures s == s[..i] + "{{" + s[i + 2..i + 3 + j] + "}}" + s[i + 3 + j + 2..]
  {
    assert s == s[..i] + s[i..i + 2] + s[i + 2..i + 3 + j] + s[i + 3 + j..i + 3 + j + 2] + s[i + 3 + j + 2..];
  }

  /** Renders pieces, replacing each tag by its looked-up value. */
  function RenderPieces(ps: seq<Piece>, lookup: string -> string): string
  {
    if |ps| == 0 then ""
    else
      (match ps[0]
       case Literal(t) => t
       case Tag(n) => lookup(n))
      + RenderPieces(ps[1..], lookup)
  }

  /** `pystache.render(s, table)` restricted to plain variable tags. */
  function Render(s: string, lookup: string -> string): string
  {
    RenderPieces(Tokenize(s), lookup)
  }

  lemma {:induction false} RenderPiecesAppend(a: seq<Piece>, b: seq<Piece>, lookup: string -> string)
    ensures RenderPieces(a + b, lookup) == RenderPieces(a, lookup) + RenderPieces(b, lookup)
  {
    if |a| > 0 {
      assert (a + b)[0] == a[0];
      assert (a + b)[1..] == a[1..] + b;
      RenderPiecesAppend(a[1..], b, lookup);
    } else {
      assert a + b == b;
    }
  }

  /**
    A template with one tag, and no `{` elsewhere, renders to the text around the tag
    with the tag's value in between.
   */
  lemma {:induction false} RenderOneTag(x: string, name: string, y: string, lookup: string -> string)
    requires '{' !in x && '{' !in y && '}' !in name && |name| > 0
    ensures Render(x + "{{" + name + "}}" + y, lookup) == x + lookup(name) + y
  {
    RenderFirstTag(x, name, y, lookup);
    NoFirstCharNoFind(y, "{{");
    NoTagsRenderVerbatim(y, lookup);
  }

  /**
    The first tag of a template is replaced by its value, the text before it is kept,
    and whatever follows it is rendered on its own.
   */
  lemma {:induction false} RenderFirstTag(x: string, name: string, y: string, lookup: string -> string)
    requires '{' !in x && '}' !in name && |name| > 0
    ensures Render(x + "{{" + name + "}}" + y, lookup) == x + lookup(name) + Render(y, lookup)
  {
    var head: seq<Piece> := if |x| == 0 then [] else [Literal(x)];
    TokenizeOneTag(x, name, y);
    RenderPiecesAppend(head + [Tag(name)], Tokenize(y), lookup);
    RenderPiecesAppend(head, [Tag(name)], lookup);
    if |x| > 0 { RenderLiteral(x, lookup); }
    assert [Tag(name)][1..] == [];
  }

  /** The pieces of a template with one tag and no `{` elsewhere. */
  lemma {:induction false} TokenizeOneTag(x: string, name: string, y: string)
    requires '{' !in x && '}' !in name && |name| > 0
    ensures Tokenize(x + "{{" + name + "}}" + y) ==
      (if |x| == 0 then [] else [Literal(x)]) + [Tag(name)] + Tokenize(y)
  {
    var s := x + "{{" + name + "}}" + y;
    var i, j := |x|, |name| - 1;
    NextTagOne(x, name, y);
    TokenizeTag(s, i, j);
    assert s[i + 2..i + 3 + j] == name;
    assert s[i + 3 + j + 2..] == y;
    assert s[..i] == x;
  }

  /** The first tag of such a template starts right after `x` and spans `name`. */
  lemma {:induction false} NextTagOne(x: string, name: string, y: string)
    requires '{' !in x && '}' !in name && |name| > 0
    ensures NextTag(x + "{{" + name + "}}" + y) == Some((|x|, |name| - 1))
  {
    var s := x + "{{" + name + "}}" + y;
    assert s == x + "{{" + (name + "}}" + y);
    FindAfterPrefix(x, "{{", name + "}}" + y);
    assert s[|x| + 3..] == name[1..] + "}}" + y;
    FindAfterPrefix(name[1..], "}}", y);
  }

  /** Rendering each tag as itself is the identity: rendering changes nothing but tags. */
  lemma {:induction false} RenderTagsAsThemselves(s: string)
    ensures Render(s, n => "{{" + n + "}}") == s
  {
    RenderIsUnparse(Tokenize(s));
    TokenizeRoundTrip(s);
  }

  lemma {:induction false} RenderIsUnparse(ps: seq<Piece>)
    ensures RenderPieces(ps, n => "{{" + n + "}}") == Unparse(ps)
  {
    if |ps| > 0 {
      RenderIsUnparse(ps[1..]);
    }
  }

  /** A template without `{{` renders to itself whatever the lookup. */
  lemma NoTagsRenderVerbatim(s: string, lookup: string -> string)
    requires !Contains(s, "{{")
    ensures Render(s, lookup) == s
  {
    TokenizeNoTag(s);
    if |s| > 0 { RenderLiteral(s, lookup); }
  }

  lemma RenderLiteral(s: string, lookup: string -> string)
    ensures RenderPieces([Literal(s)], lookup) == s
  {
    assert [Literal(s)][1..] == [];
  }
}

=== FILE: ordered_dict.dfy ===
/**
  A Python `dict` as an ordered association list: iteration follows insertion order,
  assigning to an existing key keeps its position, assigning to a new key appends it.
 */
module OrderedDict {
  import opened Wrappers

  type Dict<K, V> = seq<(K, V)>

  /** The keys in iteration order (`list(d)`). */
  function Keys<K, V>(d: Dict<K, V>): (r: seq<K>)
    ensures |r| == |d|
  {
    if |d| == 0 then [] else [d[0].0] + Keys(d[1..])
  }

  ghost predicate Distinct<K>(ks: seq<K>) {
    forall i, j :: 0 <= i < j < |ks| ==> ks[i] != ks[j]
  }

  ghost predicate DistinctKeys<K, V>(d: Dict<K, V>) {
    Distinct(Keys(d))
  }

  /** `d.get(k)`: the value stored under `k`, if any. */
  function Get<K(==), V>(d: Dict<K, V>, k: K): (r: Option<V>)
    ensures r.Some? <==> k in Keys(d)
  {
    if |d| == 0 then None
    else if d[0].0 == k then Some(d[0].1)
    else Get(d[1..], k)
  }

  /** In a dict with distinct keys, the entry at position `i` is what `Get` finds. */
  lemma {:induction false} GetAt<K, V>(d: Dict<K, V>, i: nat)
    requires DistinctKeys(d) && i < |d|
    ensures Get(d, d[i].0) == Some(d[i].1)
  {
    if i > 0 {
      assert Keys(d) == [d[0].0] + Keys(d[1..]);
      assert Keys(d[1..]) == Keys(d)[1..];
      KeysAt(d, 0);
      KeysAt(d, i);
      assert d[0].0 != d[i].0;
      assert d[1..][i - 1] == d[i];
      GetAt(d[1..], i - 1);
    }
  }

  lemma {:induction false} KeysAt<K, V>(d: Dict<K, V>, i: nat)
    requires i < |d|
    ensures Keys(d)[i] == d[i].0
  {
    if i > 0 {
      KeysAt(d[1..], i - 1);
    }
  }

  /**
    `d[k] = v`: an existing key keeps its position and gets the new value,
    a new key is appended at the end.
   */
  function Put<K(==,!new), V>(d: Dict<K, V>, k: K, v: V): (r: Dict<K, V>)
    ensures Get(r, k) == Some(v)
    ensures forall k' :: k' != k ==> Get(r, k') == Get(d, k')
    ensures k in Keys(d) ==> Keys(r) == Keys(d)
    ensures k !in Keys(d) ==> Keys(r) == Keys(d) + [k]
  {
    if |d| == 0 then [(k, v)]
    else if d[0].0 == k then
      var r := [(k, v)] + d[1..];
      assert r[1..] == d[1..];
      r
    else
      var rest := Put(d[1..], k, v);
      var r := [d[0]] + rest;
      assert r[1..] == rest;
      assert Get(r, k) == Get(rest, k);
      assert Keys(d) == [d[0].0] + Keys(d[1..]);
      assert Keys(r) == [d[0].0] + Keys(rest);
      r
  }

  /** Assignment keeps the keys distinct. */
  lemma PutKeepsDistinct<K(!new), V>(d: Dict<K, V>, k: K, v: V)
    requires DistinctKeys(d)
    ensures DistinctKeys(Put(d, k, v))
  {
  }

  /** `d.setdefault(k, []).append(x)`. */
  function AppendTo<K(==,!new), X>(d: Dict<K, seq<X>>, k: K, x: X): (r: Dict<K, seq<X>>)
    ensures Get(r, k) == Some(Get(d, k).GetOr([]) + [x])
    ensures forall k' :: k' != k ==> Get(r, k') == Get(d, k')
    ensures k in Keys(d) ==> Keys(r) == Keys(d)
    ensures k !in Keys(d) ==> Keys(r) == Keys(d) + [k]
    ensures DistinctKeys(d) ==> DistinctKeys(r)
    ensures TotalLength(r) == TotalLength(d) + 1
  {
    var old_ := Get(d, k).GetOr([]);
    PutLength(d, k, old_ + [x]);
    assert DistinctKeys(d) ==> DistinctKeys(Put(d, k, old_ + [x])) by {
      if DistinctKeys(d) { PutKeepsDistinct(d, k, old_ + [x]); }
    }
    Put(d, k, old_ + [x])
  }

  /** The number of items across all the lists stored in the dict. */
  function TotalLength<K, X>(d: Dict<K, seq<X>>): nat {
    if |d| == 0 then 0 else |d[0].1| + TotalLength(d[1..])
  }

  lemma {:induction false} PutLength<K(!new), X>(d: Dict<K, seq<X>>, k: K, v: seq<X>)
    ensures TotalLength(Put(d, k, v)) + |Get(d, k).GetOr([])| == TotalLength(d) + |v|
  {
    if |d| > 0 && d[0].0 != k {
      PutLength(d[1..], k, v);
    }
  }

  /** The position where `x` first occurs in `xs` (`xs.index(x)`). */
  function FirstIndex<T(==)>(xs: seq<T>, x: T): (k: nat)
    requires x in xs
    ensures k < |xs| && xs[k] == x
    ensures forall m :: 0 <= m < k ==> xs[m] != x
  {
    if xs[0] == x then 0 else 1 + FirstIndex(xs[1..], x)
  }

  /** Appending an item does not move the first occurrence of one already present. */
  lemma FirstIndexSnoc<T>(xs: seq<T>, z: T, x: T)
    requires x in xs
    ensures FirstIndex(xs + [z], x) == FirstIndex(xs, x)
  {
    var a, b := FirstIndex(xs + [z], x), FirstIndex(xs, x);
    assert (xs + [z])[b] == x;
    assert a <= b;
    assert xs[a] == (xs + [z])[a];
  }

  /** The items of `xs` in first-seen order, each once (the key order a dict builds up). */
  function Dedup<T(==,!new)>(xs: seq<T>): (r: seq<T>)
    ensures forall x :: x in r <==> x in xs
    ensures Distinct(r)
    ensures forall i, j :: 0 <= i < j < |r| ==> FirstIndex(xs, r[i]) < FirstIndex(xs, r[j])
  {
    if |xs| == 0 then []
    else
      var init, z := xs[..|xs| - 1], xs[|xs| - 1];
      assert xs == init + [z];
      var d := Dedup(init);
      assert forall y :: y in init ==> FirstIndex(xs, y) == FirstIndex(init, y) by {
        forall y | y in init { FirstIndexSnoc(init, z, y); }
      }
      if z in d then d
      else
        assert FirstIndex(xs, z) == |init|;
        d + [z]
  }
}

=== FILE: package_manager.dfy ===
/**
  The package manager: it downloads the Grasshopper plugin's node descriptors and
  icons into the working directory, loads the descriptors into an ordered map keyed by
  file stem, and removes its working directories again. The network, zip extraction and
  JSON parsing are replaced by their results: an archive is the list of files it holds,
  and each file already carries what `json.load` would make of it.
 */
module PackageManager {
  import opened Wrappers
  import opened Text
  import opened OrderedDict
  import opened Paths
  import opened Schema

  /** The JSON working directory: file names in listing order, with their content. */
  type JsonDir = Dict<string, Payload>

  /**
    The package manager's part of the working directory: whether `work_path` exists,
    and the `json` and `icon` sub-directories when they exist.
   */
  datatype WorkDirs = WorkDirs(work: bool, json: Option<JsonDir>, icon: Option<set<string>>)

  /** A file of the downloaded archive, its path relative to the extraction directory. */
  datatype Entry = Entry(path: string, payload: Payload)

  type Archive = seq<Entry>

  function JsonPath(workPath: string): string { workPath + "json" }

  function IconPath(workPath: string): string { workPath + "icon" }

  /** The package's Python directory inside the repository: the target with `-` turned into `_`. */
  function InnerDir(target: string): (r: string)
    ensures '-' !in r
    ensures |r| == |target|
    ensures forall i :: 0 <= i < |target| ==> r[i] == (if target[i] == '-' then '_' else target[i])
  {
    ContainsChar(target, '-');
    ReplaceCharByChar(target, '-', '_');
    ReplaceAll(target, "-", "_")
  }

  /** The directory GitHub's `master.zip` unpacks to, relative to the extraction directory. */
  function ArchiveRoot(target: string): string { target + "-master" + [Sep] }

  /** The directories the two globs look in, relative to the extraction directory. */
  function JsonGlobDir(target: string): string { ArchiveRoot(target) + InnerDir(target) + [Sep] + "json" + [Sep] }

  function IconGlobDir(target: string): string { ArchiveRoot(target) + InnerDir(target) + [Sep] + "icon" + [Sep] }

  /** The GitHub archive of the target's master branch. */
  function TargetUrl(target: string): (r: string)
    ensures |r| == |target| + 52
    ensures r[..33] == "https://github.com/ladybug-tools/"
    ensures r[33..|r| - 19] == target
    ensures r[|r| - 19..] == "/archive/master.zip"
  {
    "https://github.com/ladybug-tools/" + target + "/archive/master.zip"
  }

  /** Different targets are fetched from different URLs. */
  lemma TargetUrlInjective(a: string, b: string)
    requires TargetUrl(a) == TargetUrl(b)
    ensures a == b
  {
    assert a == TargetUrl(a)[33..|TargetUrl(a)| - 19];
  }

  /**
    `glob.glob(dir + '*' + ext)` on one path: the file name when `path` lies directly in
    `dir`, ends with `ext` and is not hidden (a leading `.` is never matched by `*`).
   */
  function GlobName(dir: string, ext: string, path: string): (r: Option<string>)
    requires |ext| > 0
    ensures r.Some? ==> path == dir + r.value
    ensures r.Some? ==> Sep !in r.value && EndsWith(r.value, ext) && r.value[0] != '.'
  {
    if !StartsWith(path, dir) then None
    else
      var name := path[|dir|..];
      if Sep !in name && EndsWith(name, ext) && name[0] != '.' then
        assert path == dir + name;
        Some(name)
      else None
  }

  /** The file name the JSON glob matches for one archive entry, if any. */
  function JsonName(target: string, e: Entry): Option<string> {
    GlobName(JsonGlobDir(target), ".json", e.path)
  }

  /** `shutil.copy` of every JSON file the glob matches, in archive order; a later copy overwrites. */
  function CopyJson(target: string, entries: Archive): (r: JsonDir)
    ensures forall i :: 0 <= i < |r| ==> Sep !in r[i].0 && EndsWith(r[i].0, ".json") && r[i].0[0] != '.'
    ensures DistinctKeys(r)
    ensures forall n :: n in Keys(r) <==> exists i :: 0 <= i < |entries| && JsonName(target, entries[i]) == Some(n)
  {
    if |entries| == 0 then []
    else
      var init := entries[..|entries| - 1];
      var acc := CopyJson(target, init);
      var e := entries[|entries| - 1];
      assert forall i :: 0 <= i < |init| ==> entries[i] == init[i];
      match JsonName(target, e)
      case None => acc
      case Some(name) =>
        PutKeepsDistinct(acc, name, e.payload);
        var r := Put(acc, name, e.payload);
        assert forall i :: 0 <= i < |r| ==> r[i].0 == Keys(r)[i] by {
          forall i | 0 <= i < |r| { KeysAt(r, i); }
        }
        assert forall i :: 0 <= i < |acc| ==> acc[i].0 == Keys(acc)[i] by {
          forall i | 0 <= i < |acc| { KeysAt(acc, i); }
        }
        r
  }

  /** A copied JSON file holds the payload of the last archive entry with that name. */
  lemma {:induction false} CopyJsonLastWins(target: string, entries: Archive, i: nat)
    requires i < |entries| && JsonName(target, entries[i]).Some?
    requires forall j :: i < j < |entries| ==> JsonName(target, entries[j]) != JsonName(target, entries[i])
    ensures Get(CopyJson(target, entries), JsonName(target, entries[i]).value) == Some(entries[i].payload)
    decreases |entries|
  {
    var init, e := entries[..|entries| - 1], entries[|entries| - 1];
    var name := JsonName(target, entries[i]).value;
    CopyJsonStep(target, entries);
    if i < |init| {
      assert init[i] == entries[i];
      CopyJsonLastWins(target, init, i);
      assert JsonName(target, e) != Some(name);
    }
  }

  /** Unfolds `CopyJson` by the last archive entry. */
  lemma {:induction false} CopyJsonStep(target: string, entries: Archive)
    requires |entries| > 0
    ensures var acc, e := CopyJson(target, entries[..|entries| - 1]), entries[|entries| - 1];
      CopyJson(target, entries) == if JsonName(target, e).None? then acc else Put(acc, JsonName(target, e).value, e.payload)
  {
  }

  /** The names of the icons the glob matches. */
  function CopyIcons(target: string, entries: Archive): (r: set<string>)
    ensures forall n :: n in r ==> Sep !in n && EndsWith(n, ".png") && n[0] != '.'
    ensures forall n :: n in r <==> exists i :: 0 <= i < |entries| && GlobName(IconGlobDir(target), ".png", entries[i].path) == Some(n)
  {
    set i | 0 <= i < |entries| && GlobName(IconGlobDir(target), ".png", entries[i].path).Some?
      :: GlobName(IconGlobDir(target), ".png", entries[i].path).value
  }

  /** True when extraction creates the archive root, so that removing it afterwards succeeds. */
  predicate HasRoot(target: string, entries: Archive) {
    exists i :: 0 <= i < |entries| && StartsWith(entries[i].path, ArchiveRoot(target))
  }

  /**
    `download(target)`: create `json` and `icon` (failing if either exists), unpack the
    archive fetched from `TargetUrl(target)`, copy the globbed files, remove the unpacked tree.
   */
  function Download(dirs: WorkDirs, workPath: string, target: string, archive: Archive): (r: Result<WorkDirs>)
    ensures dirs.json.Some? ==> r == Err(FileExistsError(JsonPath(workPath)))
    ensures dirs.json.None? && dirs.icon.Some? ==> r == Err(FileExistsError(IconPath(workPath)))
    ensures r.Ok? <==> dirs.json.None? && dirs.icon.None? && HasRoot(target, archive)
    ensures r.Ok? ==> r.value.work && r.value.json == Some(CopyJson(target, archive))
    ensures r.Ok? ==> r.value.icon == Some(CopyIcons(target, archive))
  {
    if dirs.json.Some? then Err(FileExistsError(JsonPath(workPath)))
    else if dirs.icon.Some? then Err(FileExistsError(IconPath(workPath)))
    else if !HasRoot(target, archive) then Err(FileNotFoundError(workPath + ArchiveRoot(target)))
    else Ok(WorkDirs(true, Some(CopyJson(target, archive)), Some(CopyIcons(target, archive))))
  }

  /** Every file copied into the JSON directory comes from the archive's `json` directory. */
  lemma {:induction false} CopiedJsonFromArchive(target: string, entries: Archive, name: string)
    requires name in Keys(CopyJson(target, entries))
    ensures exists i :: 0 <= i < |entries| && entries[i].path == JsonGlobDir(target) + name
    decreases |entries|
  {
    var init := entries[..|entries| - 1];
    var e := entries[|entries| - 1];
    if name in Keys(CopyJson(target, init)) {
      CopiedJsonFromArchive(target, init, name);
      var i :| 0 <= i < |init| && init[i].path == JsonGlobDir(target) + name;
      assert entries[i] == init[i];
    } else {
      assert GlobName(JsonGlobDir(target), ".json", e.path) == Some(name);
    }
  }

  /** `clean()`: remove `json` and `icon` when present. */
  function Clean(dirs: WorkDirs): (r: WorkDirs)
    ensures r.json.None? && r.icon.None?
    ensures r.work == dirs.work
  {
    dirs.(json := None, icon := None)
  }

  /** Cleaning twice is the same as cleaning once: the second call finds nothing to remove. */
  lemma CleanIdempotent(dirs: WorkDirs)
    ensures Clean(Clean(dirs)) == Clean(dirs)
  {
  }

  /** The map key of a descriptor file: its base name with every `.json` removed. */
  function KeyOf(path: string): string {
    ReplaceAll(Basename(path), ".json", "")
  }

  /**
    A listed `<stem>.json` is stored under `<stem>` when the stem holds no `.` and no
    separator (so the only `.json` in the base name is its extension).
   */
  lemma KeyOfListed(jsonPath: string, stem: string)
    requires Sep !in stem && '.' !in stem
    ensures KeyOf(ListedPath(jsonPath, stem + ".json")) == stem
  {
    var name := stem + ".json";
    assert Sep !in name;
    assert ListedPath(jsonPath, name) == (jsonPath + [Sep]) + name;
    BasenameAfterSep(jsonPath + [Sep], name);
    DropJson(stem);
  }

  lemma {:induction false} DropJson(x: string)
    requires '.' !in x
    ensures ReplaceAll(x + ".json", ".json", "") == x
    decreases |x|
  {
    if |x| == 0 {
      assert x + ".json" == ".json";
      ReplaceWhole(".json", "");
    } else {
      var s := x + ".json";
      assert s[0] == x[0] && s[1..] == x[1..] + ".json";
      NotStartsWithAt(s, ".json", 0);
      DropJson(x[1..]);
      assert x == [x[0]] + x[1..];
    }
  }

  /** The path string `Path(json_path).glob` yields for a file of the directory. */
  function ListedPath(jsonPath: string, name: string): string { jsonPath + [Sep] + name }

  /** A listed file is loaded when it matches `*.json` and its full path holds no denylist marker. */
  predicate Selected(jsonPath: string, name: string) {
    EndsWith(name, ".json") && !IsExcluded(ListedPath(jsonPath, name))
  }

  /** The keys of the loaded files, in listing order, repeats included. */
  function SelectedKeys(jsonPath: string, files: JsonDir): (r: seq<string>)
  {
    if |files| == 0 then []
    else
      var init := SelectedKeys(jsonPath, files[..|files| - 1]);
      var name := files[|files| - 1].0;
      if Selected(jsonPath, name) then init + [KeyOf(ListedPath(jsonPath, name))] else init
  }

  /** Every loaded file parses as a descriptor. */
  predicate AllParse(jsonPath: string, files: JsonDir) {
    forall i :: 0 <= i < |files| && Selected(jsonPath, files[i].0) ==> files[i].1.SchemaJson?
  }

  /** The sanitised descriptor of the last loaded file whose key is `k`. */
  function LastLoaded(jsonPath: string, files: JsonDir, k: string): Option<NodeSchema>
  {
    if |files| == 0 then None
    else
      var (name, payload) := files[|files| - 1];
      if Selected(jsonPath, name) && KeyOf(ListedPath(jsonPath, name)) == k && payload.SchemaJson? then
        Some(Sanitized(payload.spec))
      else LastLoaded(jsonPath, files[..|files| - 1], k)
  }

  /**
    `load()` on a listing: start from an empty map and store every selected file under
    its key, sanitising the nickname. The first file that is not JSON aborts the load.
   */
  function LoadFiles(jsonPath: string, files: JsonDir): (r: Result<SchemaMap>)
    ensures r.Ok? <==> AllParse(jsonPath, files)
    ensures r.Err? ==> r.error.JsonDecodeError?
    ensures r.Ok? ==> DistinctKeys(r.value)
    decreases |files|
  {
    if |files| == 0 then Ok([])
    else
      var init := files[..|files| - 1];
      var (name, payload) := files[|files| - 1];
      assert forall i :: 0 <= i < |init| ==> init[i] == files[i];
      var acc :- LoadFiles(jsonPath, init);
      if !Selected(jsonPath, name) then Ok(acc)
      else
        match payload
        case NotJson => Err(JsonDecodeError(ListedPath(jsonPath, name)))
        case SchemaJson(spec) =>
          PutKeepsDistinct(acc, KeyOf(ListedPath(jsonPath, name)), Sanitized(spec));
          Ok(Put(acc, KeyOf(ListedPath(jsonPath, name)), Sanitized(spec)))
  }

  /**
    A completed load holds each key once, in the order the listing first yields it,
    and under each key the descriptor of the last file with that key.
   */
  lemma {:induction false} LoadFilesContents(jsonPath: string, files: JsonDir)
    requires LoadFiles(jsonPath, files).Ok?
    ensures Keys(LoadFiles(jsonPath, files).value) == Dedup(SelectedKeys(jsonPath, files))
    ensures forall k :: Get(LoadFiles(jsonPath, files).value, k) == LastLoaded(jsonPath, files, k)
    decreases |files|
  {
    if |files| > 0 {
      var init := files[..|files| - 1];
      var (name, payload) := files[|files| - 1];
      assert LoadFiles(jsonPath, init).Ok?;
      LoadFilesContents(jsonPath, init);
      var acc := LoadFiles(jsonPath, init).value;
      var m := LoadFiles(jsonPath, files).value;
      if Selected(jsonPath, name) {
        var key := KeyOf(ListedPath(jsonPath, name));
        var ks := SelectedKeys(jsonPath, init);
        assert m == Put(acc, key, Sanitized(payload.spec));
        assert SelectedKeys(jsonPath, files) == ks + [key];
        assert (ks + [key])[..|ks|] == ks;
        forall k ensures Get(m, k) == LastLoaded(jsonPath, files, k) {
        }
      } else {
        assert m == acc;
        forall k ensures Get(m, k) == LastLoaded(jsonPath, files, k) {
        }
      }
    }
  }

  /** `load()`: a missing JSON directory globs to nothing and gives the empty map. */
  function Load(workPath: string, json: Option<JsonDir>): (r: Result<SchemaMap>)
    ensures json.None? ==> r == Ok([])
    ensures json.Some? ==> r == LoadFiles(JsonPath(workPath), json.value)
  {
    match json
    case None => Ok([])
    case Some(files) => LoadFiles(JsonPath(workPath), files)
  }

  /** After a load no stored nickname holds a `+`. */
  lemma {:induction false} LoadedNicknamesSanitised(jsonPath: string, files: JsonDir)
    requires LoadFiles(jsonPath, files).Ok?
    ensures forall i :: 0 <= i < |LoadFiles(jsonPath, files).value| ==> '+' !in LoadFiles(jsonPath, files).value[i].1.nickname
  {
    var m := LoadFiles(jsonPath, files).value;
    LoadFilesContents(jsonPath, files);
    forall i | 0 <= i < |m|
      ensures '+' !in m[i].1.nickname
    {
      GetAt(m, i);
      assert Get(m, m[i].0) == LastLoaded(jsonPath, files, m[i].0);
      LastLoadedSanitised(jsonPath, files, m[i].0);
    }
  }

  lemma {:induction false} LastLoadedSanitised(jsonPath: string, files: JsonDir, k: string)
    ensures LastLoaded(jsonPath, files, k).Some? ==> '+' !in LastLoaded(jsonPath, files, k).value.nickname
    ensures LastLoaded(jsonPath, files, k).Some? ==>
      exists i :: 0 <= i < |files| && files[i].1.SchemaJson? && LastLoaded(jsonPath, files, k).value == Sanitized(files[i].1.spec)
    decreases |files|
  {
    if |files| > 0 {
      var init := files[..|files| - 1];
      LastLoadedSanitised(jsonPath, init, k);
      if LastLoaded(jsonPath, files, k) == LastLoaded(jsonPath, init, k) && LastLoaded(jsonPath, init, k).Some? {
        var i :| 0 <= i < |init| && init[i].1.SchemaJson? && LastLoaded(jsonPath, init, k).value == Sanitized(init[i].1.spec);
        assert files[i] == init[i];
      }
    }
  }

  /**
    The denylist is checked on the whole listed path: a JSON directory whose own path
    holds a marker loads nothing at all.
   */
  lemma {:induction false} ExcludedDirectoryLoadsNothing(jsonPath: string, files: JsonDir)
    requires IsExcluded(jsonPath)
    ensures LoadFiles(jsonPath, files) == Ok([])
    decreases |files|
  {
    if |files| > 0 {
      ExcludedDirectoryLoadsNothing(jsonPath, files[..|files| - 1]);
      var name := files[|files| - 1].0;
      assert ListedPath(jsonPath, name) == jsonPath + ([Sep] + name);
      assert IsExcluded(ListedPath(jsonPath, name)) by {
        if Contains(jsonPath, DenyMarkers[0]) {
          ContainsPrefix(jsonPath, [Sep] + name, DenyMarkers[0]);
        } else if Contains(jsonPath, DenyMarkers[1]) {
          ContainsPrefix(jsonPath, [Sep] + name, DenyMarkers[1]);
        } else {
          ContainsPrefix(jsonPath, [Sep] + name, DenyMarkers[2]);
        }
      }
    }
  }

  /** A marker found in `a` is still found in `a + b`. */
  lemma ContainsPrefix(a: string, b: string, m: string)
    requires Contains(a, m)
    ensures Contains(a + b, m)
  {
    var i := FindFirst(a, m).value;
    assert (a + b)[i..][..|m|] == a[i..i + |m|];
    FindOccurrence(a + b, m, i);
  }
}

=== FILE: paths.dfy ===
/** POSIX path helpers: `os.path.join` and `os.path.basename` with `/` as `os.path.sep`. */
module Paths {
  import opened Text

  const Sep: char := '/'

  /** `os.path.join(a, b)`: an absolute `b` wins, otherwise a separator is inserted if `a` lacks one. */
  function PathJoin(a: string, b: string): (r: string)
    ensures EndsWith(r, b)
    ensures |b| > 0 && b[0] == Sep ==> r == b
    ensures |a| > 0 && a[|a| - 1] == Sep && (|b| == 0 || b[0] != Sep) ==> r == a + b
  {
    if |b| > 0 && b[0] == Sep then b
    else if |a| == 0 || a[|a| - 1] == Sep then a + b
    else a + [Sep] + b
  }

  /** `os.path.basename(p)`: everything after the last separator. */
  function Basename(p: string): (r: string)
    ensures Sep !in r
    ensures EndsWith(p, r)
    ensures Sep !in p ==> r == p
  {
    if |p| == 0 then ""
    else if p[|p| - 1] == Sep then ""
    else
      var r := Basename(p[..|p| - 1]) + [p[|p| - 1]];
      assert p[|p| - |r|..] == p[..|p| - 1][|p| - |r|..] + [p[|p| - 1]];
      assert Sep !in p ==> p == p[..|p| - 1] + [p[|p| - 1]];
      r
  }

  /** The base name of a path joined onto a directory is the joined name itself. */
  lemma {:induction false} BasenameOfJoin(dir: string, name: string)
    requires Sep !in name
    ensures Basename(PathJoin(dir, name)) == name
  {
    BasenameAfterSep(if |dir| == 0 || dir[|dir| - 1] == Sep then dir else dir + [Sep], name);
  }

  lemma {:induction false} BasenameAfterSep(prefix: string, name: string)
    requires Sep !in name
    requires |prefix| == 0 || prefix[|prefix| - 1] == Sep
    ensures Basename(prefix + name) == name
    decreases |name|
  {
    if |name| > 0 {
      var front := name[..|name| - 1];
      var last := name[|name| - 1];
      assert name == front + [last];
      assert prefix + name == (prefix + front) + [last];
      BasenameAfterSep(prefix, front);
      BasenameSnoc(prefix + front, last);
    } else {
      assert prefix + name == prefix;
    }
  }

  /** A character other than the separator extends the base name. */
  lemma BasenameSnoc(p: string, c: char)
    requires c != Sep
    ensures Basename(p + [c]) == Basename(p) + [c]
  {
    assert (p + [c])[..|p|] == p;
  }
}

=== FILE: schema.dfy ===
/**
  A node descriptor as parsed from one JSON file, and the rules every stage shares:
  the denylist of Grasshopper-only nodes and the `+` -> `Plus` nickname rule.
 */
module Schema {
  import opened Text
  import opened OrderedDict

  /** One entry of `inputs`; `defaultRepr` is Python's `repr` of the JSON default. */
  datatype Input = Input(name: string, typeName: string, defaultRepr: string, access: string, description: string)

  /** One entry of the (unwrapped) `outputs` list. */
  datatype Output = Output(name: string, description: string)

  /**
    The `outputs` field. The JSON nests the real list one level deeper than needed;
    node generation replaces the field by its first element in place.
   */
  datatype Outputs = Nested(lists: seq<seq<Output>>) | Unwrapped(items: seq<Output>)

  datatype NodeSchema = NodeSchema(
    nickname: string,
    subcategory: string,
    description: string,
    code: string,
    inputs: seq<Input>,
    outputs: Outputs)

  /** The loaded schemas keyed by file stem, in insertion order (a Python dict). */
  type SchemaMap = Dict<string, NodeSchema>

  /** What `json.load` makes of a file: a node descriptor, or a decode error. */
  datatype Payload = SchemaJson(spec: NodeSchema) | NotJson

  /** The Grasshopper-only nodes skipped by loading and by node generation. */
  const DenyMarkers: seq<string> := ["LB_Export_UserObject", "LB_Sync_Grasshopper_File", "LB_Versioner"]

  /** True when `s` holds one of the three denylist markers anywhere. */
  predicate IsExcluded(s: string) {
    Contains(s, DenyMarkers[0]) || Contains(s, DenyMarkers[1]) || Contains(s, DenyMarkers[2])
  }

  /** `nickname.replace('+', 'Plus')`. */
  function SanitizeNickname(nickname: string): (r: string)
    ensures r == Join(Split(nickname, "+"), "Plus")
    ensures '+' !in r
    ensures '+' !in nickname ==> r == nickname
  {
    ContainsChar(nickname, '+');
    ReplaceAll(nickname, "+", "Plus")
  }

  /** A sanitised nickname is left alone by sanitising it again. */
  lemma SanitizeIdempotent(nickname: string)
    ensures SanitizeNickname(SanitizeNickname(nickname)) == SanitizeNickname(nickname)
  {
  }

  /** The descriptor as stored by loading: only the nickname is sanitised. */
  function Sanitized(spec: NodeSchema): (r: NodeSchema)
    ensures r.nickname == Join(Split(spec.nickname, "+"), "Plus")
    ensures '+' !in r.nickname
    ensures r.(nickname := spec.nickname) == spec
  {
    spec.(nickname := SanitizeNickname(spec.nickname))
  }
}

=== FILE: sverchok.dfy ===
/**
  The Grasshopper compatibility helpers as they stand in the Blender port: the
  longest-list lookup, the objectify wrapper, and the helpers that return their input
  or the placeholder `"TODO"` before reaching their Grasshopper code.
 */
module Sverchok {
  import opened Wrappers
  import opened Text

  /** True when `index` selects an element of a list of `n` under Python indexing. */
  predicate ValidIndex(n: nat, index: int) {
    -(n as int) <= index < n
  }

  /** The position Python indexing selects: negative indexes count from the end. */
  function Position(n: nat, index: int): (r: nat)
    requires ValidIndex(n, index)
    ensures r < n
    ensures index >= 0 ==> r == index
    ensures index < 0 ==> r + (-index) == n
  {
    if index < 0 then n + index else index
  }

  /** `values[index]`, raising `IndexError` outside the list. */
  function PyGet<T>(values: seq<T>, index: int): (r: Result<T>)
    ensures r.Ok? <==> ValidIndex(|values|, index)
    ensures r.Err? ==> r.error == IndexError
  {
    if ValidIndex(|values|, index) then Ok(values[Position(|values|, index)]) else Err(IndexError)
  }

  /** `longest_list(values, index)`: `values[index]`, or `values[-1]` when that raises. */
  function LongestList<T>(values: seq<T>, index: int): (r: Result<T>)
    ensures |values| == 0 <==> r.Err?
    ensures r.Err? ==> r.error == IndexError
    ensures r.Ok? ==> r.value in values
    ensures ValidIndex(|values|, index) ==> r == Ok(values[Position(|values|, index)])
    ensures |values| > 0 && !ValidIndex(|values|, index) ==> r == Ok(values[|values| - 1])
  {
    match PyGet(values, index)
    case Ok(v) => Ok(v)
    case Err(_) => PyGet(values, -1)
  }

  /** Any index at or past the end behaves like the last index; so does any index before the start. */
  lemma LongestListClamps<T>(values: seq<T>, index: int)
    requires |values| > 0 && !ValidIndex(|values|, index)
    ensures LongestList(values, index) == LongestList(values, |values| - 1)
    ensures LongestList(values, index) == LongestList(values, -1)
  {
  }

  /** For a non-negative index the lookup is the element at `min(index, |values| - 1)`. */
  lemma LongestListIsClampedLookup<T>(values: seq<T>, index: nat)
    requires |values| > 0
    ensures LongestList(values, index) == Ok(values[if index < |values| then index else |values| - 1])
  {
  }

  /** The object made by `objectify_output`: a display name and the wrapped list. */
  datatype Objectifier<T> = Objectifier(name: string, data: seq<T>)

  function Objectify<T>(objectName: string, outputData: seq<T>): Objectifier<T> {
    Objectifier(objectName, outputData)
  }

  function DeObjectify<T>(objectified: Objectifier<T>): seq<T> {
    objectified.data
  }

  /** Objectifying and de-objectifying gives back the data. */
  lemma ObjectifyRoundTrip<T>(objectName: string, outputData: seq<T>)
    ensures DeObjectify(Objectify(objectName, outputData)) == outputData
  {
  }

  /** `ToString`: `'{} ({} items)'.format(name, len(data))`. */
  function ToString<T>(o: Objectifier<T>): (r: string)
    ensures StartsWith(r, o.name + " (") && EndsWith(r, " items)")
  {
    o.name + " (" + NatToString(|o.data|) + " items)"
  }

  /** The count shown between the name and ` items)` reads back as the number of items. */
  lemma ToStringShowsCount<T>(o: Objectifier<T>)
    ensures var s := ToString(o);
      ParseDecimal(s[|o.name| + 2..|s| - 7]) == |o.data|
  {
    var s := ToString(o);
    var digits := NatToString(|o.data|);
    assert s[|o.name| + 2..|s| - 7] == digits;
    DecimalRoundTrip(|o.data|);
  }

  /** `wrap_output`: returns its argument before the wrapping code. */
  function WrapOutput<T>(output: T): T { output }

  /** `data_tree_to_list`: returns its argument before the conversion code. */
  function DataTreeToList<T>(input: T): T { input }

  /** `list_to_data_tree`: returns its argument; `root_count` is unused. */
  function ListToDataTree<T>(input: T, rootCount: int): T { input }

  /** `flatten_data_tree`: returns its argument before the flattening code. */
  function FlattenDataTree<T>(input: T): T { input }

  /** `unflatten_to_data_tree`: returns the flat list; the pattern is unused. */
  function UnflattenToDataTree<T, P>(allData: T, pattern: P): T { allData }

  /** The five data-tree helpers hand back their first argument unchanged. */
  lemma DataTreeHelpersAreIdentity<T, P>(x: T, rootCount: int, pattern: P)
    ensures WrapOutput(x) == x && DataTreeToList(x) == x && FlattenDataTree(x) == x
    ensures ListToDataTree(x, rootCount) == x && UnflattenToDataTree(x, pattern) == x
  {
  }

  const Placeholder: string := "TODO"

  /** `give_warning`: returns the placeholder before touching the component. */
  function GiveWarning<C>(component: C, message: string): string { Placeholder }

  /** `give_remark`: returns the placeholder before touching the component. */
  function GiveRemark<C>(component: C, message: string): string { Placeholder }

  /** `all_required_inputs`: returns the placeholder instead of a boolean. */
  function AllRequiredInputs<C>(component: C): string { Placeholder }

  /** `component_guid`: returns the placeholder instead of the component's hash. */
  function ComponentGuid<C>(component: C): string { Placeholder }

  /** `hide_output`: returns the placeholder before hiding anything. */
  function HideOutput<C>(component: C, outputIndex: int): string { Placeholder }

  /** The five component helpers return `"TODO"` whatever they are given. */
  lemma ComponentHelpersArePlaceholders<C>(component: C, message: string, outputIndex: int)
    ensures GiveWarning(component, message) == "TODO" && GiveRemark(component, message) == "TODO"
    ensures AllRequiredInputs(component) == "TODO" && ComponentGuid(component) == "TODO"
    ensures HideOutput(component, outputIndex) == "TODO"
  {
  }
}

=== FILE: text.dfy ===
/**
  The Python `str` operations the generator relies on, over `string` (= seq<char>):
  `in`, `find`, `replace`, `split`, `join`, `upper`, `lower` and `str(n)` of a natural.
  `upper`/`lower` are modelled for ASCII letters only.
 */
module Text {
  import opened Wrappers

  predicate StartsWith(s: string, p: string) {
    |p| <= |s| && s[..|p|] == p
  }

  predicate EndsWith(s: string, p: string) {
    |p| <= |s| && s[|s| - |p|..] == p
  }

  /** Python `s.find(p)`: the first index at which `p` occurs in `s`, if any. */
  function FindFirst(s: string, p: string): (r: Option<nat>)
    ensures r.Some? ==> r.value + |p| <= |s| && s[r.value..r.value + |p|] == p
    decreases |s|
  {
    if StartsWith(s, p) then Some(0)
    else if |s| == 0 then None
    else
      match FindFirst(s[1..], p)
      case None => None
      case Some(i) =>
        assert s[i + 1..i + 1 + |p|] == s[1..][i..i + |p|];
        Some(i + 1)
  }

  /** `find` reports the earliest occurrence, and reports none only when there is none. */
  lemma {:induction false} FindFirstIsFirst(s: string, p: string)
    ensures FindFirst(s, p).Some? ==> forall j :: 0 <= j < FindFirst(s, p).value ==> !StartsWith(s[j..], p)
    ensures FindFirst(s, p).None? ==> forall j :: 0 <= j <= |s| ==> !StartsWith(s[j..], p)
    decreases |s|
  {
    if !StartsWith(s, p) && |s| > 0 {
      FindFirstIsFirst(s[1..], p);
      assert forall j :: 1 <= j <= |s| ==> s[1..][j - 1..] == s[j..];
    }
  }

  /** An occurrence at `i` means `find` succeeds, at `i` or earlier. */
  lemma FindOccurrence(s: string, p: string, i: nat)
    requires i <= |s| && StartsWith(s[i..], p)
    ensures Contains(s, p) && FindFirst(s, p).value <= i
  {
    FindFirstIsFirst(s, p);
  }

  /** Python `p in s`. */
  predicate Contains(s: string, p: string) {
    FindFirst(s, p).Some?
  }

  lemma ContainsChar(s: string, c: char)
    ensures Contains(s, [c]) <==> c in s
  {
    if c in s {
      var i :| 0 <= i < |s| && s[i] == c;
      assert StartsWith(s[i..], [c]);
      FindOccurrence(s, [c], i);
    }
    if Contains(s, [c]) {
      var i := FindFirst(s, [c]).value;
      assert s[i..i + 1] == [c];
      assert s[i] == c;
    }
  }

  /** A string that lacks the first character of `p` does not contain `p`. */
  lemma {:induction false} NoFirstCharNoFind(s: string, p: string)
    requires |p| > 0 && p[0] !in s
    ensures FindFirst(s, p).None?
  {
    if |s| > 0 {
      assert !StartsWith(s, p) by {
        if |p| <= |s| { assert s[..|p|][0] == s[0]; }
      }
      NoFirstCharNoFind(s[1..], p);
    } else {
      assert !StartsWith(s, p);
    }
  }

  /** A string that lacks some character of `p` does not contain `p`. */
  lemma NoCharNoFind(s: string, p: string, k: nat)
    requires k < |p| && p[k] !in s
    ensures FindFirst(s, p).None?
  {
  }

  /** The first occurrence of `sep` in `x + sep + t` is right after `x` when `x` lacks `sep[0]`. */
  lemma {:induction false} FindAfterPrefix(x: string, sep: string, t: string)
    requires |sep| > 0 && sep[0] !in x
    ensures FindFirst(x + sep + t, sep) == Some(|x|)
    decreases |x|
  {
    var s := x + sep + t;
    if |x| == 0 {
      assert s[..|sep|] == sep;
    } else {
      assert s[..|sep|][0] == x[0];
      assert !StartsWith(s, sep);
      assert s[1..] == x[1..] + sep + t;
      FindAfterPrefix(x[1..], sep, t);
    }
  }

  /**
    The first occurrence of `sep` in `x + sep + t` is right after `x` when `x` lacks the
    separator's second character and that character differs from its first (as in `" :: "`).
   */
  lemma {:induction false} FindAfterPrefixBySecond(x: string, sep: string, t: string)
    requires |sep| >= 2 && sep[1] != sep[0] && sep[1] !in x
    ensures FindFirst(x + sep + t, sep) == Some(|x|)
  {
    var s := x + sep + t;
    assert s[|x|..][..|sep|] == sep;
    FindOccurrence(s, sep, |x|);
    FindFirstIsFirst(s, sep);
  }

  /** Splitting `x + sep + t` gives `x` first when `x` holds no occurrence's second character. */
  lemma SplitFront(x: string, sep: string, t: string)
    requires |sep| >= 2 && sep[1] != sep[0] && sep[1] !in x
    ensures Split(x + sep + t, sep) == [x] + Split(t, sep)
  {
    FindAfterPrefixBySecond(x, sep, t);
    var s := x + sep + t;
    assert s[..|x|] == x;
    assert s[|x| + |sep|..] == t;
  }

  /** A string without the separator splits into itself alone. */
  lemma SplitNone(s: string, sep: string)
    requires |sep| > 0 && !Contains(s, sep)
    ensures Split(s, sep) == [s]
  {
  }

  /**
    Python `s.replace(pat, rep)`: every non-overlapping occurrence of `pat`, scanning
    left to right, is replaced by `rep`; an empty `pat` inserts `rep` around every character.
   */
  function ReplaceAll(s: string, pat: string, rep: string): (r: string)
    ensures |pat| > 0 ==> r == Join(Split(s, pat), rep)
    ensures |pat| > 0 && !Contains(s, pat) ==> r == s
    ensures |pat| == 1 && pat[0] !in rep ==> pat[0] !in r
    decreases |s|
  {
    if |pat| == 0 then
      if |s| == 0 then rep else rep + [s[0]] + ReplaceAll(s[1..], pat, rep)
    else if |s| == 0 then
      assert Split(s, pat) == [s];
      []
    else if StartsWith(s, pat) then
      var rest := ReplaceAll(s[|pat|..], pat, rep);
      assert rep + rest == Join(Split(s, pat), rep) by {
        SplitHit(s, pat);
        JoinCons("", Split(s[|pat|..], pat), rep);
      }
      rep + rest
    else
      assert |pat| == 1 ==> s[..|pat|] == [s[0]];
      var rest := ReplaceAll(s[1..], pat, rep);
      assert [s[0]] + rest == Join(Split(s, pat), rep) by {
        SplitMiss(s, pat);
        JoinHead([s[0]], Split(s[1..], pat), rep);
      }
      [s[0]] + rest
  }

  /** The pieces of a split where the separator starts the text: an empty piece first. */
  lemma SplitHit(s: string, sep: string)
    requires |sep| > 0 && StartsWith(s, sep)
    ensures Split(s, sep) == [""] + Split(s[|sep|..], sep)
  {
    assert FindFirst(s, sep) == Some(0);
  }

  /** The pieces of a split where the separator does not start the text: `s[0]` joins the first piece. */
  lemma {:induction false} SplitMiss(s: string, sep: string)
    requires |sep| > 0 && |s| > 0 && !StartsWith(s, sep)
    ensures var rest := Split(s[1..], sep);
      Split(s, sep) == [[s[0]] + rest[0]] + rest[1..]
  {
    var t := s[1..];
    var rest := Split(t, sep);
    if FindFirst(t, sep).None? {
      SplitMissNone(s, sep);
      assert [s[0]] + t == s;
    } else {
      var i := FindFirst(t, sep).value;
      SplitMissSome(s, sep, i);
      assert rest[0] == t[..i] && rest[1..] == Split(t[i + |sep|..], sep);
    }
  }

  lemma {:induction false} SplitMissNone(s: string, sep: string)
    requires |sep| > 0 && |s| > 0 && !StartsWith(s, sep) && FindFirst(s[1..], sep).None?
    ensures Split(s[1..], sep) == [s[1..]] && Split(s, sep) == [s]
  {
    assert FindFirst(s, sep).None?;
  }

  lemma {:induction false} SplitMissSome(s: string, sep: string, i: nat)
    requires |sep| > 0 && |s| > 0 && !StartsWith(s, sep) && FindFirst(s[1..], sep) == Some(i)
    ensures var t := s[1..];
      var rest := Split(t[i + |sep|..], sep);
      Split(t, sep) == [t[..i]] + rest && Split(s, sep) == [[s[0]] + t[..i]] + rest
  {
    var t := s[1..];
    SplitAt(t, sep, i);
    assert FindFirst(s, sep) == Some(i + 1);
    SplitAt(s, sep, i + 1);
    var h1, h2 := s[..i + 1], [s[0]] + t[..i];
    var u1, u2 := s[i + 1 + |sep|..], t[i + |sep|..];
    assert h1 == h2 by {
      assert |h1| == |h2|;
      forall k | 0 <= k < |h1| ensures h1[k] == h2[k] { }
    }
    assert u1 == u2 by {
      assert |u1| == |u2|;
      forall k | 0 <= k < |u1| ensures u1[k] == u2[k] { }
    }
    assert Split(s, sep) == [h1] + Split(u1, sep);
    assert [h1] + Split(u1, sep) == [h2] + Split(u2, sep);
  }

  /** Unfolds `Split` at the first occurrence of the separator. */
  lemma {:induction false} SplitAt(s: string, sep: string, i: nat)
    requires |sep| > 0 && FindFirst(s, sep) == Some(i)
    ensures Split(s, sep) == [s[..i]] + Split(s[i + |sep|..], sep)
  {
  }

  /** Prefixing the first item prefixes the join. */
  lemma JoinHead(c: string, xs: seq<string>, sep: string)
    requires |xs| > 0
    ensures Join([c + xs[0]] + xs[1..], sep) == c + Join(xs, sep)
  {
    assert ([c + xs[0]] + xs[1..])[1..] == xs[1..];
  }

  /** Replacing a single character distributes over concatenation. */
  lemma {:induction false} ReplaceCharAppend(a: string, b: string, c: char, rep: string)
    ensures ReplaceAll(a + b, [c], rep) == ReplaceAll(a, [c], rep) + ReplaceAll(b, [c], rep)
    decreases |a|
  {
    if |a| > 0 {
      var t := a[1..];
      var p := if a[0] == c then rep else [a[0]];
      var rt, rb := ReplaceAll(t, [c], rep), ReplaceAll(b, [c], rep);
      assert ReplaceAll(a, [c], rep) == p + rt by {
        ReplaceCharStep(a, c, rep);
      }
      assert ReplaceAll(a + b, [c], rep) == p + ReplaceAll(t + b, [c], rep) by {
        assert (a + b)[1..] == t + b && (a + b)[0] == a[0];
        ReplaceCharStep(a + b, c, rep);
      }
      assert ReplaceAll(t + b, [c], rep) == rt + rb by {
        ReplaceCharAppend(t, b, c, rep);
      }
      assert p + (rt + rb) == p + rt + rb by {
        AppendAssoc(p, rt, rb);
      }
    } else {
      assert a + b == b;
    }
  }

  /** Unfolds `ReplaceAll` with a one-character pattern by the first character. */
  lemma {:induction false} ReplaceCharStep(s: string, c: char, rep: string)
    requires |s| > 0
    ensures ReplaceAll(s, [c], rep) == (if s[0] == c then rep else [s[0]]) + ReplaceAll(s[1..], [c], rep)
  {
    StartsWithChar(s, c);
    if s[0] == c {
      ReplaceHit(s, [c], rep);
    } else {
      ReplaceMiss(s, [c], rep);
    }
  }

  lemma AppendAssoc<T>(x: seq<T>, y: seq<T>, z: seq<T>)
    ensures x + (y + z) == x + y + z
  {
  }

  /** Unfolds `ReplaceAll` where the pattern starts the text. */
  lemma {:induction false} ReplaceHit(s: string, pat: string, rep: string)
    requires |pat| > 0 && StartsWith(s, pat)
    ensures ReplaceAll(s, pat, rep) == rep + ReplaceAll(s[|pat|..], pat, rep)
  {
  }

  /** Unfolds `ReplaceAll` where the pattern does not start the text. */
  lemma {:induction false} ReplaceMiss(s: string, pat: string, rep: string)
    requires |pat| > 0 && |s| > 0 && !StartsWith(s, pat)
    ensures ReplaceAll(s, pat, rep) == [s[0]] + ReplaceAll(s[1..], pat, rep)
  {
  }

  /** A character found neither in `s` nor in the replacement is not in the result. */
  lemma {:induction false} ReplaceKeepsAbsent(s: string, pat: string, rep: string, c: char)
    requires c !in s && c !in rep
    ensures c !in ReplaceAll(s, pat, rep)
    decreases |s|
  {
    if |pat| == 0 {
      if |s| > 0 { ReplaceKeepsAbsent(s[1..], pat, rep, c); }
    } else if |s| > 0 {
      if StartsWith(s, pat) {
        ReplaceKeepsAbsent(s[|pat|..], pat, rep, c);
      } else {
        ReplaceKeepsAbsent(s[1..], pat, rep, c);
      }
    }
  }

  /** Replacing a character by a string that lacks it a second time changes nothing. */
  lemma ReplaceCharIdempotent(s: string, c: char, rep: string)
    requires c !in rep
    ensures ReplaceAll(ReplaceAll(s, [c], rep), [c], rep) == ReplaceAll(s, [c], rep)
  {
    ContainsChar(ReplaceAll(s, [c], rep), c);
  }

  /** Replacing one character by another maps the string character by character. */
  lemma {:induction false} ReplaceCharByChar(s: string, c: char, d: char)
    ensures |ReplaceAll(s, [c], [d])| == |s|
    ensures forall i :: 0 <= i < |s| ==>
      ReplaceAll(s, [c], [d])[i] == (if s[i] == c then d else s[i])
    decreases |s|
  {
    if |s| > 0 {
      ReplaceCharByChar(s[1..], c, d);
      assert StartsWith(s, [c]) <==> s[0] == c by {
        if s[0] == c { assert s[..1] == [c]; }
      }
    }
  }

  /** A pattern is replaced by the replacement when it is the whole string. */
  lemma ReplaceWhole(pat: string, rep: string)
    requires |pat| > 0
    ensures ReplaceAll(pat, pat, rep) == rep
  {
    assert StartsWith(pat, pat);
    assert pat[|pat|..] == [];
  }

  /** A single-character pattern occurs at the head of `s` exactly when `s[0]` is that character. */
  lemma {:induction false} StartsWithChar(s: string, c: char)
    requires |s| > 0
    ensures StartsWith(s, [c]) <==> s[0] == c
  {
    if s[0] == c { assert s[..1] == [c]; }
  }

  /** A string that differs from `p` at some position within both does not start with `p`. */
  lemma NotStartsWithAt(s: string, p: string, k: nat)
    requires k < |s| && k < |p| && s[k] != p[k]
    ensures !StartsWith(s, p)
  {
    if |p| <= |s| { assert s[..|p|][k] == s[k]; }
  }

  /** Python `sep.join(xs)`. */
  function Join(xs: seq<string>, sep: string): string
  {
    if |xs| == 0 then ""
    else if |xs| == 1 then xs[0]
    else xs[0] + sep + Join(xs[1..], sep)
  }

  /** Python `s.split(sep)` for a non-empty separator (an empty one raises ValueError). */
  function Split(s: string, sep: string): (r: seq<string>)
    requires |sep| > 0
    ensures |r| >= 1
    decreases |s|
  {
    match FindFirst(s, sep)
    case None => [s]
    case Some(i) => [s[..i]] + Split(s[i + |sep|..], sep)
  }

  /** Joining the pieces of a split with the same separator gives back the string. */
  lemma {:induction false} JoinSplit(s: string, sep: string)
    requires |sep| > 0
    ensures Join(Split(s, sep), sep) == s
    decreases |s|
  {
    var found := FindFirst(s, sep);
    if found.Some? {
      var i := found.value;
      var t := s[i + |sep|..];
      JoinSplit(t, sep);
      var rest := Split(t, sep);
      assert Split(s, sep) == [s[..i]] + rest;
      JoinCons(s[..i], rest, sep);
      SliceAround(s, i, |sep|);
    }
  }

  lemma SliceAround(s: string, i: nat, n: nat)
    requires i + n <= |s|
    ensures s == s[..i] + s[i..i + n] + s[i + n..]
  {
  }

  lemma JoinCons(x: string, rest: seq<string>, sep: string)
    requires |rest| > 0
    ensures Join([x] + rest, sep) == x + sep + Join(rest, sep)
  {
    assert ([x] + rest)[1..] == rest;
  }

  /**
    Splitting a join gives back the items, provided no item holds the separator's
    first character (so every separator in the joined text is a real one).
   */
  lemma {:induction false} SplitJoin(xs: seq<string>, sep: string)
    requires |sep| > 0 && |xs| > 0
    requires forall k :: 0 <= k < |xs| ==> sep[0] !in xs[k]
    ensures Split(Join(xs, sep), sep) == xs
    decreases |xs|
  {
    if |xs| == 1 {
      NoFirstCharNoFind(xs[0], sep);
    } else {
      var rest := xs[1..];
      assert forall k :: 0 <= k < |rest| ==> sep[0] !in rest[k] by {
        forall k | 0 <= k < |rest| ensures sep[0] !in rest[k] { assert rest[k] == xs[k + 1]; }
      }
      SplitJoin(rest, sep);
      SplitCons(xs[0], sep, Join(rest, sep));
      assert xs == [xs[0]] + rest;
    }
  }

  /** A piece without the separator's first character is split off whole. */
  lemma SplitCons(x: string, sep: string, t: string)
    requires |sep| > 0 && sep[0] !in x
    ensures Split(x + sep + t, sep) == [x] + Split(t, sep)
  {
    FindAfterPrefix(x, sep, t);
    var s := x + sep + t;
    assert s[..|x|] == x;
    assert s[|x| + |sep|..] == t;
  }

  predicate IsLowerAscii(c: char) { 'a' <= c <= 'z' }
  predicate IsUpperAscii(c: char) { 'A' <= c <= 'Z' }

  function UpperChar(c: char): char {
    if IsLowerAscii(c) then (c as int - 32) as char else c
  }

  function LowerChar(c: char): char {
    if IsUpperAscii(c) then (c as int + 32) as char else c
  }

  /** Python `s.upper()` on ASCII letters. */
  function Upper(s: string): (r: string)
    ensures |r| == |s|
    ensures forall i :: 0 <= i < |r| ==> !IsLowerAscii(r[i])
    ensures forall i :: 0 <= i < |s| && !IsLowerAscii(s[i]) ==> r[i] == s[i]
    ensures forall i :: 0 <= i < |s| ==> LowerChar(r[i]) == LowerChar(s[i])
  {
    seq(|s|, i requires 0 <= i < |s| => UpperChar(s[i]))
  }

  /** Python `s.lower()` on ASCII letters. */
  function Lower(s: string): (r: string)
    ensures |r| == |s|
    ensures forall i :: 0 <= i < |r| ==> !IsUpperAscii(r[i])
    ensures forall i :: 0 <= i < |s| && !IsUpperAscii(s[i]) ==> r[i] == s[i]
    ensures forall i :: 0 <= i < |s| ==> UpperChar(r[i]) == UpperChar(s[i])
  {
    seq(|s|, i requires 0 <= i < |s| => LowerChar(s[i]))
  }

  /** Upper-casing loses nothing but case: both sides agree once lower-cased. */
  lemma UpperKeepsLetters(s: string)
    ensures Lower(Upper(s)) == Lower(s)
  {
  }

  /** The character of the decimal digit `d`. */
  function DigitChar(d: nat): char
    requires d < 10
  {
    ('0' as int + d) as char
  }

  function DigitValue(c: char): nat
  {
    if '0' <= c <= '9' then c as int - '0' as int else 0
  }

  /** Python `str(n)` for a natural number, in decimal without leading zeros. */
  function NatToString(n: nat): (r: string)
    ensures |r| > 0
    ensures forall i :: 0 <= i < |r| ==> '0' <= r[i] <= '9'
    ensures |r| > 1 ==> r[0] != '0'
  {
    if n < 10 then [DigitChar(n)] else NatToString(n / 10) + [DigitChar(n % 10)]
  }

  /** Reads a string of decimal digits back as a natural number. */
  function ParseDecimal(s: string): nat
  {
    if |s| == 0 then 0 else ParseDecimal(s[..|s| - 1]) * 10 + DigitValue(s[|s| - 1])
  }

  lemma {:induction false} DecimalRoundTrip(n: nat)
    ensures ParseDecimal(NatToString(n)) == n
  {
    if n >= 10 {
      var front, d := NatToString(n / 10), DigitChar(n % 10);
      var s := front + [d];
      DecimalRoundTrip(n / 10);
      assert s[..|s| - 1] == front && s[|s| - 1] == d;
      assert ParseDecimal(s) == (n / 10) * 10 + n % 10;
    }
  }
}

=== FILE: wrappers.dfy ===
/** Option and Result, plus the Python exceptions the build scripts can raise. */
module Wrappers {

  datatype Option<+T> = None | Some(value: T) {
    function GetOr(default: T): T {
      match this
      case Some(v) => v
      case None => default
    }
  }

  /** The uncaught Python exceptions that abort a step of the pipeline. */
  datatype Error =
    | IndexError                 // `xs[i]` out of range
    | TypeError                  // indexing a `str` with a `str`
    | ZeroDivisionError          // `n / 0`
    | AssertionError             // a failed `assert`
    | FileNotFoundError(path: string)
    | FileExistsError(path: string)
    | JsonDecodeError(path: string)      // `json.load` on a file that is not JSON
    | DistutilsFileError(path: string)   // `copy_tree` from a missing directory

  datatype Result<+T> = Ok(value: T) | Err(error: Error) {
    predicate IsFailure() {
      Err?
    }

    function PropagateFailure<U>(): Result<U>
      requires Err?
    {
      Err(error)
    }

    function Extract(): T
      requires Ok?
    {
      value
    }
  }
}
